=== FILE: README.md ===
# Usage-limit accounting of an image-generation service, in Dafny

This project models the core of a Next.js image-generation service: the part
that decides who may generate an image and keeps count of what they used.

- **Entitlement and admission.** Paid accounts are unlimited and reported with
  the `-1` sentinel. Free accounts get ten generations per calendar day.
  Anonymous browsers, identified by a hashed device fingerprint, get five
  generations for their lifetime. A rejection carries a typed error and an
  `upgradeRequired` flag.
- **Commit.** A successful generation is recorded afterwards. For a free account
  the count restarts at 1 on a new day and goes up by one otherwise. For an
  anonymous fingerprint the row is upserted. The cache entry is then invalidated
  and filled again with the row just written.
- **Orchestration.** `generateImageWithLimits` validates the prompt and the
  fingerprint, picks the principal from the session, checks the limit, calls
  the generator, and commits only after a successful generation. A failed
  commit never fails the user's result.
- **Surrounding pieces:**
  - the read-through TTL cache, with its key scheme and hit/miss metrics;
  - the fixed-window rate limiter, its tiers, and client-IP extraction;
  - the input validators and sanitisers;
  - the fallback fingerprint hash (a 32-bit string hash) and the hex encoding of
    a SHA-256 digest;
  - the payment `request_id` codec and the canonical string a return URL's
    signature covers;
  - the subscription rules: the plan hierarchy, active-subscription selection,
    days remaining, and bulk expiry.

## How the system is represented

- **Tables.** Each database table (`users`, `anonymous_usage`,
  `user_subscriptions`, `subscription_plans`) is a sequence of rows. Uniqueness
  of `uuid`, `fingerprint_hash` and `id` is a predicate. An `UPDATE … WHERE`
  statement is a row-by-row map; a query is a first-match search or a filter.
- **In-memory stores.** A JavaScript `Map` is a sequence of key/value pairs in
  insertion order (`OrderedMap`). The cache and the rate limiter are values
  threaded through pure functions.
- **Time.** Time is an integer number of milliseconds passed in as `now`.
  Today's date is a string `today`, and the next local midnight is an integer
  `nextReset`. The service functions take two times: `queriedAt`, when the
  store was read, and `now`, when the result is judged. A generation run
  reads the clock twice, as the code does: once for the limit check and again
  for the commit after the generator returns (`ImageGeneration.Clock`, passed
  as `atCheck` and `atCommit`).
- **Failures.** That a store call throws is a boolean parameter (`fault`).
  Opaque computations are function-typed parameters: HMAC-SHA256,
  `toLocaleTimeString`, the calendar check of `new Date(s)`, and
  `setMonth`/`setFullYear`. The image generator is the result it would return.
- **JavaScript semantics.** Strings are `seq<char>`. `JsStrings` gives the
  JavaScript view of them: UTF-16 length, `trim`, whitespace, decimal and hex
  rendering, and the code-unit order of `sort()`. `JsNumbers` writes out
  `ToInt32`, `Math.ceil` of a division, `Math.max(0, x)` and `Math.abs`.

### Behaviours worth noting

- **Cache after a commit.** After a commit, the code deletes the cache entry
  and then stores the written row under the same key
  (src/lib/usage-verification.ts:246-261 and 284-297).
  `UsageVerification.UpdateAuthenticated` and
  `UsageVerification.UpdateAnonymous` model this.
  `UsageVerification.CommitThenCheckAgrees` shows that the next check is
  served the written row, never the pre-commit one.
- **Cache eviction order.** The usage cache evicts the entries with the
  oldest write time (src/lib/usage-cache.ts:70-76). The rate limiter evicts
  by last request.
- **Permission versus active subscription.** `checkUserPermission` accepts a
  subscription that ends exactly now, because it rejects on `end_date < now`.
  `hasActiveSubscription` and the summary require `end_date > now`.
  `Subscription.PermissionVersusHasActive` shows that this instant is the only
  disagreement.

## Model

| member | source | states |
|---|---|---|
| UsageLimits.ParsePlan | src/lib/usage-limits.ts:12-13 | a stored plan string denotes a plan only when it is that plan's name |
| UsageLimits.ValidateUserPlanExact | src/lib/usage-limits.ts:124-126 | `validateUserPlan` accepts exactly `'free'` and `'paid'`, and every plan name parses back to its plan |
| UsageLimits.EffectivePlan | src/lib/usage-verification.ts:63 | the plan acted on is paid exactly when the stored string is `'paid'`; anything else counts as free |
| UsageLimits.IsNewDay | src/lib/usage-limits.ts:88-91 | an absent last-usage date is always a new day; for a non-empty today, it is a new day iff the stored date differs from today |
| UsageLimits.ValidateDateString | src/lib/usage-limits.ts:128-134 | accepted iff the string is exactly ten characters, digits except a '-' at positions 4 and 7, and the calendar accepts it |
| UsageLimits.ValidateUsageCount | src/lib/usage-limits.ts:120-122 | an accepted count is non-negative |
| UsageLimits.ValidateUsageCountNatural | src/lib/usage-limits.ts:120-122 | a count is accepted iff it is a non-negative integer: every natural number passes, and negatives and fractions fail |
| UsageLimits.LimitMessageFor | src/lib/usage-limits.ts:93-102 | anonymous users get the sign-in message and authenticated free users the daily-limit message with its reset time; every other status gets the generic text |
| UsageLimits.CreateUsageLimitError | src/lib/usage-limits.ts:104-117 | the error keeps the given type and the status's reset time, is never retryable, and asks for an upgrade iff the status is authenticated free |
| UsageLimits.UpgradeFlagMatchesMessage | src/lib/usage-limits.ts:93-117 | the upgrade flag is set exactly when the message is the daily-limit one; an anonymous user is never offered an upgrade |
| UsageCache.Empty | src/lib/usage-cache.ts:16-18 | a new cache is valid, empty and has the given capacity |
| UsageCache.Live | src/lib/usage-cache.ts:61-67 | the unexpired entries are exactly the entries with now − timestamp ≤ ttl |
| UsageCache.Cleanup | src/lib/usage-cache.ts:57-77 | expired entries go first; if the cache is still at capacity, the floor(maxSize/5) oldest-written entries go too, and no evicted entry is newer than a kept one |
| UsageCache.Set | src/lib/usage-cache.ts:20-31 | afterwards the key holds the new entry; below capacity nothing else changes, and no other key gains or changes an entry |
| UsageCache.Get | src/lib/usage-cache.ts:33-47 | an absent key gives null and changes nothing; a live entry is returned unchanged; an expired entry gives null and is deleted; other keys are untouched |
| UsageCache.Delete | src/lib/usage-cache.ts:49-51 | only the key is removed, the size drops by one iff it was present, and the result says whether it was |
| UsageCache.Clear | src/lib/usage-cache.ts:53-55 | afterwards the cache is empty with the same capacity |
| UsageCache.SetThenGet | src/lib/usage-cache.ts:20-46 | what was set is served back at any time up to and including ttl later |
| UsageCache.SetThenGetExpired | src/lib/usage-cache.ts:40-44 | after ttl has passed, `get` returns null and removes the entry |
| UsageCache.DeleteThenGet | src/lib/usage-cache.ts:33-51 | after `delete(key)`, `get(key)` returns null |
| UsageCache.SetKeepsBound | src/lib/usage-cache.ts:20-31 | with a capacity of at least 5, `set` never takes the cache beyond its capacity |
| UsageCache.GetDeleteShrink | src/lib/usage-cache.ts:33-51 | reads and deletions never grow the cache |
| UsageCache.CacheKeysDistinct | src/lib/usage-cache.ts:89-93 | user, anonymous and fingerprint keys never collide, and each key family is injective |
| UsageCache.RenderParts | src/lib/usage-cache.ts:126-128 | each part of a generated key is rendered on its own, in order |
| UsageCache.GenerateCacheKeySplits | src/lib/usage-cache.ts:126-128 | when no piece contains ':', splitting a generated key at ':' gives back the prefix and the rendered parts |
| UsageCache.InvalidateUserUsage | src/lib/usage-cache.ts:146-150 | removes exactly the user's key and leaves every other key's entry unchanged |
| UsageCache.InvalidateAnonymousUsage | src/lib/usage-cache.ts:151-155 | removes exactly the fingerprint's key and leaves every other key's entry unchanged |
| UsageCache.InvalidateUserKeepsAnonymous | src/lib/usage-cache.ts:89-93 | invalidating a user's entry leaves every anonymous entry as it was |
| UsageCache.RecordHit | src/lib/usage-cache.ts:167-169 | a hit adds one to the hits and leaves the misses alone |
| UsageCache.RecordMiss | src/lib/usage-cache.ts:171-173 | a miss adds one to the misses and leaves the hits alone |
| UsageCache.HitRate | src/lib/usage-cache.ts:175-178 | the rate lies in [0, 1]; it is hits/(hits+misses), or 0 before any lookup |
| UsageCache.HitRateMonotone | src/lib/usage-cache.ts:167-178 | a hit never lowers the rate and a miss never raises it |
| UsageVerification.ReadUser | src/lib/usage-verification.ts:32-38 | a cached user row is read as that row; any other payload reads as a free account with no usage date |
| UsageVerification.EffectiveUsage | src/lib/usage-verification.ts:81-89 | usage counted today is the stored count when it was stored today, and 0 otherwise |
| UsageVerification.FreeStatus | src/lib/usage-verification.ts:91-101 | remaining is max(0, 10 − used), never above 10; the account may generate iff used < 10; the reset time is the next midnight |
| UsageVerification.AnonStatus | src/lib/usage-verification.ts:157-166 | remaining is max(0, 5 − used), never above 5; the fingerprint may generate iff used < 5; there is no reset time |
| UsageVerification.AccountStatus | src/lib/usage-verification.ts:63-101 | a paid account gets the unlimited status whatever its count; any other account gets the free status of today's usage |
| UsageVerification.StoreFailure | src/lib/usage-verification.ts:115-131 | a store failure fails closed: may not generate, remaining 0, a retryable database error |
| UsageVerification.Admit | src/lib/usage-verification.ts:103-114 | the answer carries the status, grants iff the status allows, and a denial carries the limit error built from that status |
| UsageVerification.DecideAuthenticated | src/lib/usage-verification.ts:46-114 | a missing user gets the user-not-found denial; a found user is admitted on their account status |
| UsageVerification.CheckAuthenticated | src/lib/usage-verification.ts:26-133 | a live cache entry answers and is counted as a hit; on a miss the store is read, a found row is cached for 2 minutes, and a store failure fails closed; a paid answer is always unlimited; a free answer grants iff something remains, and a denial asks for an upgrade |
| UsageVerification.CacheHitSkipsStore | src/lib/usage-verification.ts:31-44 | on a cache hit the answer is the same whatever the tables hold |
| UsageVerification.CheckAnonymous | src/lib/usage-verification.ts:138-198 | the same read-through with a 5-minute lifetime; an absent row counts as no use; a denial has no reset time and carries an error |
| UsageVerification.AnonymousDenialSaysSignIn | src/lib/usage-verification.ts:167-179 | an anonymous denial tells the user to sign in and never offers an upgrade |
| UsageVerification.UpdateAuthenticated | src/lib/usage-verification.ts:203-268 | a paid account is not written; a free account's count becomes 1 on a new day and goes up by one otherwise, only that row changes, and the cache then holds the written row; a missing user or a store fault is an error |
| UsageVerification.UpdateAnonymous | src/lib/usage-verification.ts:273-304 | the row is upserted, the status reflects the new count, and the cache holds the written row for 5 minutes; the commit fails iff the store does |
| UsageVerification.CommitThenCheckAgrees | src/lib/usage-verification.ts:246-261 | within the cache lifetime after a free account's commit, a check reports exactly the status the commit returned |
| UsageVerification.AnonymousCommitThenCheckAgrees | src/lib/usage-verification.ts:284-297 | the same for an anonymous commit and check |
| UsageVerification.DefaultStatus | src/lib/usage-verification.ts:362-371 | the fallback status may not generate, has remaining 0, and carries the limit for the user type |
| UsageVerification.GetCurrentUsageStatus | src/lib/usage-verification.ts:309-373 | reads the store directly and never throws; a store fault or a missing user gives the default; otherwise the status is the account's, or the fingerprint's count with absent counting as 0 |
| UsageVerification.FreshCheckMatchesCurrentStatus | src/lib/usage-verification.ts:26-114 | on a cache miss, the check reports the status `getCurrentUsageStatus` computes for the same account |
| UsageVerification.CommitSpendsOne | src/lib/usage-verification.ts:233-261 | after a commit, the remaining count read from the store is one less than before, never below 0, and stays unlimited for paid accounts |
| UsageVerification.AnonymousCommitSpendsOne | src/lib/usage-verification.ts:273-297 | the same for an anonymous commit |
| UsageVerification.EmptyCacheCoherent | src/lib/usage-cache.ts:85 | an empty cache agrees with any tables |
| UsageVerification.CheckAuthenticatedCoherent | src/lib/usage-verification.ts:26-133 | a check keeps every cached usage entry equal to its current row; a grant, and any answer when the store does not fail, is the answer a direct store read would give, so a cached answer is never stale |
| UsageVerification.CheckAnonymousCoherent | src/lib/usage-verification.ts:138-198 | the same for the anonymous check |
| UsageVerification.UpdateAuthenticatedCoherent | src/lib/usage-verification.ts:233-261 | a successful commit keeps the cache coherent with the tables |
| UsageVerification.UpdateAnonymousCoherent | src/lib/usage-verification.ts:273-297 | a successful anonymous commit keeps the cache coherent with the tables |
| UsageVerification.AnonymousGrantStaysWithinLimit | src/lib/usage-verification.ts:157-179 | a granted anonymous check followed by its commit leaves the fingerprint's count at most 5 |
| UsageVerification.FreeGrantStaysWithinLimit | src/lib/usage-verification.ts:81-114 | a granted check of a free account followed by its commit succeeds and leaves today's usage at most 10 |
| RateLimit.NewLimiter | src/lib/rate-limit.ts:15-20 | a new limiter is valid and empty |
| RateLimit.Check | src/lib/rate-limit.ts:29-73 | no entry, or an elapsed window, starts a window of count 1 and allows; at the limit the request is rejected with remaining 0 and a positive retry delay, entry unchanged; otherwise the count goes up by one; other keys are untouched |
| RateLimit.Reset | src/lib/rate-limit.ts:78-80 | only the key's counter is removed |
| RateLimit.ResetOpensWindow | src/lib/rate-limit.ts:38-80 | after `reset(key)`, the next check opens a new window and allows |
| RateLimit.GetStatus | src/lib/rate-limit.ts:85-106 | for an absent or elapsed window the count is 0 and remaining = limit; otherwise the stored count and max(0, limit − count) |
| RateLimit.StatusPredictsCheck | src/lib/rate-limit.ts:38-106 | the status reports room iff the next check would allow |
| RateLimit.CheckAll | src/lib/rate-limit.ts:29-73 | a sequence of checks admits at most as many requests as it makes |
| RateLimit.WindowAdmits | src/lib/rate-limit.ts:54-72 | inside an open window, checks are admitted until the count reaches the limit, and the window's reset time stays fixed |
| RateLimit.OneWindowAdmitsAtMostLimit | src/lib/rate-limit.ts:38-72 | requests that all fall inside one window are admitted min(n, limit) times |
| RateLimit.Open | src/lib/rate-limit.ts:115-119 | the entries kept are exactly those whose window has not elapsed |
| RateLimit.Cleanup | src/lib/rate-limit.ts:111-131 | elapsed counters go; if more than maxEntries remain, the floor(maxEntries/10) with the oldest last request go too, and no evicted counter is newer than a kept one |
| RateLimit.GetStats | src/lib/rate-limit.ts:136-155 | active entries never exceed the total, which is the number of counters |
| RateLimit.CleanupLeavesActive | src/lib/rate-limit.ts:111-155 | after a cleanup every remaining counter is active |
| RateLimit.ImageGenerationConfig | src/lib/rate-limit.ts:164-197 | anonymous gets 5 per hour, free 10 per day, anything else 1000 per hour |
| RateLimit.ApiConfig | src/lib/rate-limit.ts:173-206 | `'ip'` gets 100 per minute, anything else 200 per minute |
| RateLimit.InitialLimiters | src/lib/rate-limit.ts:159-161 | the three limiters start empty with capacities 10000, 5000 and 1000 |
| RateLimit.CheckImageGeneration | src/lib/rate-limit.ts:187-197 | the image-generation limiter is checked with the user type's tier limit and window, and nothing else changes; the request is admitted iff that limiter's status shows room |
| RateLimit.CheckApiRequest | src/lib/rate-limit.ts:200-206 | the global limiter is checked with the per-IP or per-user limit and window, and nothing else changes; admitted iff its status shows room |
| RateLimit.CheckFingerprint | src/lib/rate-limit.ts:209-212 | the fingerprint limiter is checked with 10 per minute, and nothing else changes; admitted iff its status shows room |
| RateLimit.CheckImageGenerationAll | src/lib/rate-limit.ts:187-197 | a sequence of `checkImageGeneration` calls leaves the other two limiters alone and admits at most as many requests as it makes |
| RateLimit.TierRunIsCheckAll | src/lib/rate-limit.ts:187-197 | repeated `checkImageGeneration` calls are the image-generation limiter run with the user type's tier |
| RateLimit.TierAdmitsAtMostLimit | src/lib/rate-limit.ts:164-170 | within one window of its tier, `checkImageGeneration` admits a key min(n, the tier's limit) times |
| RateLimit.FreeTierTenPerDay | src/lib/rate-limit.ts:168 | through `checkImageGeneration` with user type `'free'`, a key gets its first ten requests of a day admitted and no more |
| RateLimit.Candidate | src/lib/rate-limit.ts:253-258 | a header offers its trimmed first comma-separated element, and only when that element is non-empty and not `'unknown'` |
| RateLimit.FirstCandidate | src/lib/rate-limit.ts:252-261 | the position of the first header, in list order, that offers an address |
| RateLimit.GetClientIp | src/lib/rate-limit.ts:240-264 | the address offered by the first header that offers one; `'unknown'` iff no header does |
| RateLimit.ForwardedForFirst | src/lib/rate-limit.ts:242-258 | `x-forwarded-for` wins whenever it offers an address |
| RateLimit.RetryAfterSeconds | src/lib/rate-limit.ts:277 | ceil(retryAfter/1000) seconds, or 60 when the delay is absent or 0 |
| RateLimit.RateLimitGate | src/lib/rate-limit.ts:272-282 | the wrapped call proceeds iff the check allowed; otherwise it throws the rate-limit message |
| RateLimit.RejectionWait | src/lib/rate-limit.ts:54-61 | a rejection always reports a wait of at least one second, and no more than the time left in the window rounded up |
| Validation.Invalid | src/lib/validation.ts:6-10 | a rejection carries its message and no sanitised text |
| Validation.Accepted | src/lib/validation.ts:6-10 | an acceptance carries its sanitised text and no error |
| Validation.StripTags | src/lib/validation.ts:54 | the result holds no `<…>` tag, only characters of the input, and is the input when it has no `<` |
| Validation.StripHtmlSpecial | src/lib/validation.ts:55 | the result holds none of `<>'"&`, only characters of the input, and is the input when it has none |
| Validation.NoSpecialNoTag | src/lib/validation.ts:47-48 | text without `<` holds no tag |
| Validation.TestBlockedWord | src/lib/validation.ts:46 | the scan finds a blocked whole word, in any case, iff the text holds one |
| Validation.SanitizePrompt | src/lib/validation.ts:51-55 | the sanitised prompt has no special characters and no tags, and is no longer than the trimmed prompt |
| Validation.ValidatePrompt | src/lib/validation.ts:13-87 | accepted iff the input is non-empty, its trimmed length is between 3 and 1000, and the stripped text holds no blocked pattern; an accepted prompt's text is the stripped trimmed prompt |
| Validation.PromptErrors | src/lib/validation.ts:14-42 | which of the four length messages a rejected prompt gets, in the order the source checks |
| Validation.ValidPromptIsClean | src/lib/validation.ts:54-65 | an accepted prompt's text holds none of `<>'"&`, no tag and no blocked word |
| Validation.ValidateFingerprint | src/lib/validation.ts:90-119 | accepted iff the trimmed input is 8 to 64 hex digits in any case; the sanitised text is that input lowercased |
| Validation.LowerHex | src/lib/validation.ts:108-117 | lowercasing keeps a hex string hex and its length, and is idempotent |
| Validation.ValidateFingerprintIdempotent | src/lib/validation.ts:108-118 | re-validating a sanitised fingerprint accepts it and returns it unchanged |
| Validation.ValidateUserUuid | src/lib/validation.ts:122-151 | accepted iff the trimmed input is 8 to 36 characters of hex digits and '-'; the sanitised text is that input lowercased |
| Validation.ValidateUserUuidIdempotent | src/lib/validation.ts:140-150 | re-validating a sanitised uuid accepts it and returns it unchanged |
| Validation.ValidateRateLimit | src/lib/validation.ts:154-172 | accepted iff at least `minInterval` has passed; otherwise the message asks for ceil(remaining/1000) seconds |
| Validation.RateLimitWait | src/lib/validation.ts:161-166 | a rejected request is asked to wait at least one second |
| Validation.CollapseSpace | src/lib/validation.ts:184 | no two whitespace characters are adjacent, every whitespace left is a space, and no other character is introduced |
| Validation.SanitizeInput | src/lib/validation.ts:175-185 | the output has none of `<>'"&` and no two adjacent whitespace characters |
| Validation.SanitizeInputKeepsCleanText | src/lib/validation.ts:180-184 | clean, trimmed, single-spaced text passes through unchanged |
| Validation.CollapseSpaceKeeps | src/lib/validation.ts:184 | single-spaced text passes through unchanged |
| Validation.StripSqlQuotes | src/lib/validation.ts:195 | the output has none of `'";\`, only characters of the input, and is the input when it had none |
| Validation.KeywordAt | src/lib/validation.ts:196 | a keyword match is reported at a position iff a whole SQL keyword, in any case, starts there |
| Validation.RemoveKeywordsFrom | src/lib/validation.ts:196 | the global keyword removal introduces no character and leaves keyword-free text as it is |
| Validation.PreventSqlInjection | src/lib/validation.ts:188-198 | the output has none of `'";\` and only characters of the input |
| Validation.PreventSqlInjectionKeepsCleanText | src/lib/validation.ts:194-197 | trimmed text without quotes or keywords passes through unchanged |
| Validation.ReplaceChar | src/lib/validation.ts:207-211 | a replacement removes the character unless the replacement holds it, and changes nothing when it is absent |
| Validation.ReplaceCharConcat | src/lib/validation.ts:207-211 | a global single-character replacement distributes over concatenation |
| Validation.PreventXss | src/lib/validation.ts:201-212 | the output contains none of `<`, `>`, `"` or `'` |
| Validation.EscapeChar | src/lib/validation.ts:207-211 | the escape of any single character contains none of `<`, `>`, `"` or `'` |
| Validation.XssIsEscape | src/lib/validation.ts:206-211 | the five chained replacements equal escaping each character on its own |
| Validation.EscapeEntity | src/lib/validation.ts:207-211 | the entity produced for `<`, `>`, `"` or `'` has its `&` escaped again |
| Validation.EscapeOne | src/lib/validation.ts:206-211 | the chain applied to one character gives that character's escape |
| Validation.PreventXssKeepsPlainText | src/lib/validation.ts:201-212 | text without `<>"'&` is left as it is |
| Validation.ValidateAndSanitize | src/lib/validation.ts:215-246 | the validator chosen by type, with `preventXss` applied to the sanitised text of a valid result |
| Validation.ValidateAndSanitizeIsBase | src/lib/validation.ts:240-243 | because every validator's text is already free of special characters, the extra escaping never changes it |
| Validation.WithValidation | src/lib/validation.ts:249-269 | succeeds iff every validator accepts its argument; arguments are replaced by their sanitised text; a failure reports the first rejecting validator |
| Fingerprint.HashStep | src/lib/fingerprint.ts:161-163 | the state stays a signed 32-bit integer |
| Fingerprint.HashStepIsTimes31 | src/lib/fingerprint.ts:162-163 | each step is ToInt32(31·h + code unit) |
| Fingerprint.HashState | src/lib/fingerprint.ts:159-164 | the state over any string is a signed 32-bit integer |
| Fingerprint.HashStateTimes31 | src/lib/fingerprint.ts:159-164 | the state after a string is ToInt32(31 × the state before its last unit + that unit) |
| Fingerprint.RenderHash | src/lib/fingerprint.ts:165 | exactly 8 lowercase hex digits whose value is the absolute value of the state |
| Fingerprint.LeadingZeros | src/lib/fingerprint.ts:165 | padding with zeros keeps a hex string's value |
| Fingerprint.ZerosValue | src/lib/fingerprint.ts:165 | a run of zeros is hex and has value 0 |
| Fingerprint.SimpleHash | src/lib/fingerprint.ts:158-166 | the output is always exactly 8 lowercase hex digits |
| Fingerprint.SimpleHashLoop | src/lib/fingerprint.ts:158-166 | the loop computes the hash, and its output is a valid fingerprint |
| Fingerprint.ValidImpliesValidated | src/lib/fingerprint.ts:184-187 | whatever `isValidFingerprint` accepts, `validateFingerprint` accepts too and lowercases |
| Fingerprint.ValidatedNotValid | src/lib/fingerprint.ts:184-187 | the converse fails: a valid fingerprint behind one whitespace character passes `validateFingerprint`, sanitised to the fingerprint lowercased, but fails `isValidFingerprint` |
| Fingerprint.SimpleHashIsValid | src/lib/fingerprint.ts:165 | every fallback hash is a valid fingerprint, and validating it returns it unchanged |
| Fingerprint.ByteHex | src/lib/fingerprint.ts:76 | a byte becomes exactly two lowercase hex digits of its value |
| Fingerprint.EncodeDigest | src/lib/fingerprint.ts:75-76 | a digest becomes two lowercase hex digits per byte |
| Fingerprint.DigestRoundTrip | src/lib/fingerprint.ts:75-76 | decoding the encoding gives the bytes back |
| Fingerprint.Sha256DigestIsValid | src/lib/fingerprint.ts:74-76 | a 32-byte digest encodes to a valid 64-digit fingerprint |
| Fingerprint.HashFingerprint | src/lib/fingerprint.ts:69-83 | the encoded digest, which decodes back to it, or the fallback hash when hashing fails |
| Fingerprint.HashFingerprintIsValid | src/lib/fingerprint.ts:69-83 | either way, the result is a valid fingerprint |
| AnonymousUsage.EmptyTable | src/db/schema.ts:103 | an empty table satisfies the unique index |
| AnonymousUsage.Find | src/models/anonymous-usage.ts:6-18 | a row with that fingerprint is found iff one exists |
| AnonymousUsage.FindIsTheRow | src/db/schema.ts:103 | under the unique index, the row found is the stored row |
| AnonymousUsage.Create | src/models/anonymous-usage.ts:20-33 | inserts a row with the initial count, 1 when omitted; fails iff the fingerprint exists |
| AnonymousUsage.Apply | src/models/anonymous-usage.ts:35-65 | the SET clauses change only the count and `updated_at` |
| AnonymousUsage.UpdateRows | src/models/anonymous-usage.ts:35-65 | the statement changes the matching rows only |
| AnonymousUsage.UpdateWhere | src/models/anonymous-usage.ts:35-65 | returns the updated row, or nothing and an unchanged table when no row matches; the unique index is kept |
| AnonymousUsage.UpdateAnonymousUsageCount | src/models/anonymous-usage.ts:35-49 | the matching row's count becomes exactly the given value; every other row is unchanged |
| AnonymousUsage.IncrementAnonymousUsageCount | src/models/anonymous-usage.ts:51-65 | the matching row gains exactly one; every other row is unchanged |
| AnonymousUsage.Upsert | src/models/anonymous-usage.ts:67-87 | an existing row goes up by one, otherwise a row with count 1 is appended; every other fingerprint's lookup is unchanged |
| AnonymousUsage.UpsertRows | src/models/anonymous-usage.ts:67-87 | the upsert keeps every existing row's fingerprint and only appends rows for the upserted fingerprint |
| AnonymousUsage.FindUnchanged | src/models/anonymous-usage.ts:6-18 | a write that leaves a fingerprint's rows in place leaves its lookup unchanged |
| AnonymousUsage.UpsertAtLeastOne | src/models/anonymous-usage.ts:67-87 | the upserted count is at least one, and no count becomes negative |
| AnonymousUsage.GetAnonymousUsageStats | src/models/anonymous-usage.ts:89-122 | counts the records, and recent records never exceed them |
| AnonymousUsage.TotalUsageAddOne | src/models/anonymous-usage.ts:100-109 | adding one to the matching rows adds their number to the total |
| AnonymousUsage.CountFingerprintUnique | src/db/schema.ts:103 | under the unique index a fingerprint has at most one row |
| AnonymousUsage.UpsertAddsOne | src/models/anonymous-usage.ts:67-109 | every upsert adds exactly one to `total_usage`, and at most one record |
| AnonymousUsage.KeepByAge | src/models/anonymous-usage.ts:127-134 | exactly the rows on the chosen side of the cutoff are kept |
| AnonymousUsage.KeepRecentCount | src/models/anonymous-usage.ts:111-134 | the rows kept on the recent side are as many as the stats count as recent |
| AnonymousUsage.CleanupAsWritten | src/models/anonymous-usage.ts:124-141 | as written: the rows created before the cutoff survive; a store failure reports 0 |
| AnonymousUsage.CleanupAsWrittenDeletesRecent | src/models/anonymous-usage.ts:133 | a row from a day before the cutoff survives the cleanup while a row created at the cutoff is deleted |
| AnonymousUsage.CleanupOldAnonymousUsage | src/models/anonymous-usage.ts:124-141 | corrected: exactly the rows created at or after the cutoff survive, the unique index is kept, and when the driver returns the deleted rows the reported count is their number; a store failure reports 0 |
| AnonymousUsage.CleanupThenStats | src/models/anonymous-usage.ts:89-141 | after the corrected cleanup every record is recent, and exactly the records counted recent before remain |
| Users.GetUserUsageInfo | src/models/user.ts:153-183 | a row with the uuid is found iff one exists |
| Users.GetUserUsageInfoIsTheRow | src/db/schema.ts:19 | with unique uuids, the row found is the stored row |
| Users.UpdateWhere | src/models/user.ts:185-252 | returns the updated row, or nothing and unchanged rows when no row matches; uuids stay unique |
| Users.LookupUnchanged | src/models/user.ts:185-252 | an update of one uuid's row leaves every other uuid's lookup unchanged |
| Users.UpdateUserUsageCount | src/models/user.ts:185-201 | the matching row's count and date become the given values; only that row changes |
| Users.ResetUserDailyUsage | src/models/user.ts:203-218 | the matching row's count becomes 1 and its date the given one; only that row changes |
| Users.ResetIsUsageUpdateWithOne | src/models/user.ts:185-218 | a daily reset is the usage update with count 1 |
| Users.UpdateUserPlan | src/models/user.ts:220-234 | only the plan of the matching row changes |
| Users.IncrementUserUsageCount | src/models/user.ts:236-252 | the matching row gains exactly one; its date and plan stay |
| Users.UpdateThenLookup | src/models/user.ts:185-252 | after an update, the lookup sees the row the update returned |
| Users.PagesTile | src/models/user.ts:54 | with offset (page−1)·limit, position n lies on exactly one page |
| Users.CreatedSince | src/models/user.ts:137-140 | exactly the users created at or after the start are counted |
| Users.CountByDay | src/models/user.ts:143-146 | each date key counts exactly the timestamps on that day, no key appears twice, and every key present has a count of at least 1 |
| Users.CountByDaySum | src/models/user.ts:143-146 | the per-day counts add up to the number of timestamps |
| Users.GetUserCountByDate | src/models/user.ts:132-149 | each date key counts exactly the users created since the start on that day, and only dates that occur are keys (every count is at least 1); sorting them first does not change the counts |
| Users.CountByDateTotal | src/models/user.ts:132-149 | the per-day counts sum to the number of users created since the start |
| ImageGeneration.OrElse | src/actions/image-generation.ts:40 | `x \|\| fallback`: an absent or empty value gives the fallback |
| ImageGeneration.GenerateImageWithLimits | src/actions/image-generation.ts:24-130 | an invalid prompt, then an invalid fingerprint, fail before anything else runs; the generator runs only after an admitted check, with the sanitised prompt; a commit follows exactly the successful generations; the tables change only through a commit; the check and the commit each take their own clock reading |
| ImageGeneration.CheckAndGenerate | src/actions/image-generation.ts:67-115 | the generator runs only after an admitted check, with the sanitised prompt; a commit follows exactly the successful generations; without a commit the tables are unchanged; the check uses the check-time clock and the commit the commit-time clock |
| ImageGeneration.Check | src/actions/image-generation.ts:67-73 | a user principal gets the authenticated check and a fingerprint the anonymous one |
| ImageGeneration.Commit | src/actions/image-generation.ts:99-115 | a successful update gives its status; a failing one leaves the tables and the checked status as they were |
| ImageGeneration.RoutesBySession | src/actions/image-generation.ts:58-73 | a signed-in session is checked as its user; otherwise the lowercased trimmed fingerprint is checked |
| ImageGeneration.DeniedNeverGenerates | src/actions/image-generation.ts:75-86 | a denied check never calls the generator and reports a non-retryable limit error with the check's flag and status |
| ImageGeneration.FailedGenerationKeepsStatus | src/actions/image-generation.ts:89-96 | a failed generation commits nothing and reports the pre-check status |
| ImageGeneration.FailedCommitStillSucceeds | src/actions/image-generation.ts:99-115 | a failing commit still returns the image with the pre-check status |
| ImageGeneration.GrantedCommitKeepsCaps | src/actions/image-generation.ts:67-115 | a check and, when it grants, a commit keep both caps and the cache's coherence, judged on the commit's day, also when that day is later than the check's |
| ImageGeneration.NewDayCommitKeepsDailyCap | src/lib/usage-verification.ts:227-237 | a commit on a day no account has used yet restarts the committing account at 1, so that day's cap holds |
| ImageGeneration.CommitAfterMidnightStartsNewDay | src/lib/usage-verification.ts:227-257 | a free account checked before midnight and committed after it gets a row with count 1 on the new day and a status with 9 left that may still generate |
| ImageGeneration.GenerationKeepsCaps | src/actions/image-generation.ts:24-130 | no run pushes a fingerprint past 5 uses or a free account past 10 uses on the commit's day, whether or not midnight passes between the check and the commit |
| ImageGeneration.GetUserUsageStatus | src/actions/image-generation.ts:136-171 | an invalid fingerprint or a failing `auth()` gives the safe default; otherwise the current status of the session's user or of the fingerprint |
| ImageGeneration.SafeDefaultIsAnonymousDefault | src/actions/image-generation.ts:146-151 | the safe default is the anonymous fallback: limit 5, may not generate |
| UserSubscriptions.Present | src/models/user-subscriptions.ts:33-34 | the returned row reads an empty payment method or order id as absent and is otherwise the stored row |
| UserSubscriptions.PresentPlan | src/models/user-subscriptions.ts:87-93 | the joined plan reads a missing or empty product id as the empty string and is otherwise the stored plan |
| UserSubscriptions.PresentJoinPresented | src/models/user-subscriptions.ts:115-133 | presenting a joined row twice is presenting it once |
| UserSubscriptions.PlanOf | src/models/user-subscriptions.ts:58-59 | the plan row joined with a subscription, found iff one has that id |
| UserSubscriptions.PlanOfIsThePlan | src/models/user-subscriptions.ts:58-59 | with distinct plan ids, the plan joined is the stored plan |
| UserSubscriptions.CreateUserSubscription | src/models/user-subscriptions.ts:12-45 | appends one active row with the next id and the given fields; the returned row reads empty strings as absent |
| UserSubscriptions.Latest | src/models/user-subscriptions.ts:60-73 | a selectable row with the greatest end date exists in the result iff one exists at all |
| UserSubscriptions.GetUserActiveSubscription | src/models/user-subscriptions.ts:47-99 | the user's active, completed, unexpired subscription with the greatest end date, joined with its plan, both presented; nothing iff there is none |
| UserSubscriptions.Joined | src/models/user-subscriptions.ts:105-110 | exactly the user's rows that have a plan, joined |
| UserSubscriptions.PresentAllMembers | src/models/user-subscriptions.ts:115-133 | mapping the presentation over joined rows yields exactly their presentations, each a fixpoint |
| UserSubscriptions.GetUserSubscriptionHistory | src/models/user-subscriptions.ts:101-139 | a permutation of the user's joined rows, each presented (empty payment method and order id absent, missing product id empty), ordered by creation time descending |
| UserSubscriptions.HistoryHasEveryJoinedRow | src/models/user-subscriptions.ts:101-139 | every subscription of the user whose plan exists appears in the history, presented and joined with its presented plan |
| UserSubscriptions.SetStatusWhere | src/models/user-subscriptions.ts:147-158 | only rows with the id are changed |
| UserSubscriptions.UpdateSubscriptionStatus | src/models/user-subscriptions.ts:141-181 | the status is always set and `is_active` only when given; nothing is returned iff no row has the id; other rows are unchanged |
| UserSubscriptions.GetSubscriptionByOrderId | src/models/user-subscriptions.ts:183-212 | a row with that order id, or nothing iff none has it |
| UserSubscriptions.Deactivate | src/models/user-subscriptions.ts:218-232 | exactly the active rows that ended before now are switched off; every other row is unchanged |
| UserSubscriptions.DeactivateExpiredSubscriptions | src/models/user-subscriptions.ts:214-237 | returns the number of rows switched off, and none is left expired |
| UserSubscriptions.DeactivateIdempotent | src/models/user-subscriptions.ts:214-237 | a second run right after the first changes nothing and reports 0 |
| UserSubscriptions.DeactivateKeepsActiveSubscription | src/models/user-subscriptions.ts:60-73 | deactivation never changes which subscription is selected as active at the same time |
| Subscription.ParsePlanType | src/services/subscription.ts:176-185 | a stored type is a plan only when it is that plan's name |
| Subscription.ParsePlanTypeName | src/services/subscription.ts:176-185 | every plan's name parses back to it |
| Subscription.Rank | src/services/subscription.ts:177-182 | the hierarchy ranks plans from 1 to 4 |
| Subscription.IsPlanSufficient | src/services/subscription.ts:176-185 | sufficient iff the stored type is a known plan ranked at least as high as the requirement |
| Subscription.PlanOrder | src/services/subscription.ts:176-185 | reflexive, transitive, antisymmetric and total; ultimate meets everything and everything meets basic; an unknown type meets nothing |
| Subscription.Active | src/services/subscription.ts:23-28 | the active subscription, or nothing when the store fails |
| Subscription.CheckUserPermission | src/services/subscription.ts:48-68 | false on a failure or with no active subscription; true only for an active subscription not ended before now whose plan is sufficient |
| Subscription.PermissionMonotone | src/services/subscription.ts:48-68 | permission for a plan implies permission for every lower-ranked plan |
| Subscription.DaysRemaining | src/services/subscription.ts:85-88 | never negative, 0 once the end has passed, otherwise the whole days left rounded up |
| Subscription.GetUserSubscriptionSummary | src/services/subscription.ts:73-104 | without a subscription only the user id and inactive; otherwise the plan, the end, active iff flagged and ending after now, and the days left |
| Subscription.HasActiveSubscription | src/services/subscription.ts:190-204 | true only for a flagged subscription ending strictly after now; false on a failure |
| Subscription.SummaryAgreesWithHasActive | src/services/subscription.ts:73-104 | the summary is active iff `hasActiveSubscription` holds, and then at least one day remains |
| Subscription.PermissionVersusHasActive | src/services/subscription.ts:58 | permission without an active subscription happens only at the instant the subscription ends |
| Subscription.GetUserPlanType | src/services/subscription.ts:209-222 | the stored type of the active plan, present iff there is an active subscription |
| Subscription.EndDate | src/services/subscription.ts:138-145 | a month later for monthly, a year later for yearly, and the start itself otherwise |
| Subscription.HandlePaymentSuccess | src/services/subscription.ts:123-164 | fails with the one wrapped message iff the plan is missing or the store fails; otherwise appends one completed, active subscription starting now |
| Subscription.PaymentActivates | src/services/subscription.ts:123-164 | right after a successful payment the user has an active subscription lasting at least as long as the one bought |
| Creem.DigitRun | src/services/creem.ts:189-195 | the leading run of decimal digits |
| Creem.MatchRequestId | src/services/creem.ts:189-195 | a match captures two non-empty digit runs between `user_` and `_plan_` that make up the whole string |
| Creem.MatchRequestIdComplete | src/services/creem.ts:189-195 | every string of that shape is matched, with those captures |
| Creem.ParseRequestId | src/services/creem.ts:189-195 | parses exactly the matched strings into the two numbers |
| Creem.GenerateRequestId | src/services/creem.ts:249-251 | the id parses back to the same user and plan ids when both are non-negative, and is rejected otherwise |
| Creem.RequestIdRoundTrip | src/services/creem.ts:189-195 | parsing `user_{u}_plan_{p}` for non-negative u and p gives back u and p |
| Creem.NegativeRequestIdRejected | src/services/creem.ts:189-195 | a request id generated from a negative id is not accepted |
| Creem.ShapeHasNoMinus | src/services/creem.ts:189 | no accepted request id contains a '-' |
| Creem.InsertParam | src/services/creem.ts:95-97 | inserting a parameter keeps the keys ascending and adds exactly that parameter |
| Creem.SortParams | src/services/creem.ts:95-97 | a permutation of the parameters with keys ascending |
| Creem.CanonicalString | src/services/creem.ts:93-101 | `k=v` for every parameter in ascending key order, joined with '&' |
| Creem.OtherParams | src/services/creem.ts:93 | all six parameters except the signature, present or not |
| Creem.VerifyReturnUrlSignature | src/services/creem.ts:88-114 | false without an API key; otherwise true iff the signature equals the HMAC of the canonical string |
| Creem.VerifyWebhookSignature | src/services/creem.ts:119-136 | false without an API key; otherwise true iff the signature equals the HMAC of the payload |
| Creem.SignatureCoversOnlyOtherParams | src/services/creem.ts:93-109 | the signature does not sign itself: at most one signature verifies for given parameters |
| Creem.GetParam | src/services/creem.ts:153-161 | the first value under the name, or nothing iff the name is absent |
| Creem.ParseReturnUrlParams | src/services/creem.ts:141-166 | null iff the URL does not parse or one of the five required parameters is missing or empty; the optional ones read empty as absent |
| Creem.ReadRequestId | src/services/creem.ts:185-195 | an absent or empty request id gives the "missing" error, a malformed one the "invalid format" error, and a well-formed one its two ids |
| Creem.ReadPaymentInfo | src/services/creem.ts:185-206 | "Missing request_id in return URL" for an absent or empty id, "Invalid request_id format" for a malformed one, otherwise success carrying the parsed ids with the order and customer of the URL |
| Creem.HandlePaymentSuccess | src/services/creem.ts:171-207 | a bad signature gives "Invalid signature" before the request id is looked at; with a good signature a missing id gives "Missing request_id in return URL", a malformed one "Invalid request_id format", and otherwise the result of the request-id step |
| Creem.HandleWebhookEvent | src/services/creem.ts:212-244 | "Missing request_id in webhook payload" for an absent or empty id, "Invalid request_id format in webhook" for a malformed one; success iff the id parses, carrying its ids with the order, customer and event type of the payload |
| Creem.SignedPaymentRoundTrip | src/services/creem.ts:171-207 | a correctly signed return URL carrying a generated request id yields those ids |

## Left out

- User interface, routes and remote calls are not part of this model. This covers React pages and components, API routes, `auth()` (only its outcome is a parameter), the generator behind `callImageGenerationAPI` (only its result is), `createCheckoutSession`, `getSuccessUrl` and `getCancelUrl`.
- HMAC-SHA256 and SHA-256 are parameters: the HMAC is a function and the digest is a byte sequence or its absence. Browser fingerprint collection and `sessionStorage` caching depend on the browser and are not modelled.
- `Date.now()`, `getCurrentDateString` (`toISOString`), `getNextDayReset`, `toLocaleTimeString`, `setMonth` and `setFullYear` are parameters, because they read the clock or the local calendar.
- The `setInterval` cleanup timers are not modelled: cleanup is an explicit operation. Concurrency is not modelled: each operation runs alone, so the race in the non-atomic find-then-insert upsert is not represented.
- `performance.ts` timing, translations, affiliate code, middleware and the plan CRUD of `subscription-plans.ts` are not part of this model. Only the lookup by id is used, as a join.
- `fingerprintCacheUtil`, `warmCache`, `invalidateCache.all` and `getCacheStats` are not modelled. They are thin wrappers over the modelled cache operations.
- SQL tie order is not modelled. `getUserActiveSubscription` takes the first row among equal end dates. The history is a stable sort, so rows created at the same time keep table order.
- `amountPaid` is an integer, in minor units.
- The rows of `getUsers` are not modelled; only its offset is.
- Creem.ParseRequestId: reads digit runs exactly, whereas `parseInt` loses precision beyond 2^53.
- UsageCache.Cleanup: `Math.floor(maxSize * 0.2)` is taken as `maxSize / 5`, equal for all realistic capacities. Likewise RateLimit.Cleanup takes `Math.floor(maxEntries * 0.1)` as `maxEntries / 10`.
- UsageLimits.ValidateDateString: the calendar part of `new Date(s)` is a parameter; only the regular-expression part is stated.
- UsageLimits.ValidateUsageCount: works on real numbers; NaN and the infinities, which `Number.isInteger` also rejects, are not represented.
- UsageLimits.AnonymousLimit / UsageLimits.FreeDailyLimit: fixed at the defaults 5 and 10. The environment overrides `NEXT_PUBLIC_ANONYMOUS_LIMIT` and `NEXT_PUBLIC_FREE_DAILY_LIMIT` are not modelled, nor is a non-numeric value that `parseInt` turns into NaN. The cap lemmas (UsageVerification.AnonymousGrantStaysWithinLimit, UsageVerification.FreeGrantStaysWithinLimit, ImageGeneration.GenerationKeepsCaps) are therefore proved for these two values only.
- ImageGeneration.GenerationKeepsCaps: assumes the commit's date is the check's date or a date no account has used yet (`CommitDayFollows`), that is, the clock does not go back to before a stored usage date between the two readings. The same holds for GrantedCommitKeepsCaps and the lemmas it uses.
- UsageVerification.FreeGrantStaysWithinLimit: assumes a non-empty `today`, which `toISOString` always yields. The same holds for the lemmas built on it.

## Findings

| source | as written | input that shows it | evidently intended | confidence | as-written member | corrected member |
|---|---|---|---|---|---|---|
| src/models/anonymous-usage.ts:133 | the delete condition is `created_at >= cutoff`, so the cleanup removes the records created in the last `days` days and keeps the older ones | a table with one row created a day before the cutoff and one created at the cutoff: the old row survives and the new one is deleted | delete the rows created before the cutoff (`created_at < cutoff`), as the function's name and its `days` parameter say | not executed | AnonymousUsage.CleanupAsWritten, AnonymousUsage.CleanupAsWrittenDeletesRecent | AnonymousUsage.CleanupOldAnonymousUsage, AnonymousUsage.CleanupThenStats |

=== FILE: anonymous_usage.dfy ===
/** The `anonymous_usage` table of `src/models/anonymous-usage.ts`: one row
    per browser fingerprint hash, holding a lifetime generation count.

    The table is a sequence of rows in storage order; the unique index on
    `fingerprint_hash` is the predicate `Valid`. Timestamps are milliseconds
    supplied by the caller (`now`, `cutoff`). */
module AnonymousUsage {
  import opened Wrappers

  datatype AnonRow = AnonRow(
    id: int,
    fingerprintHash: string,
    usageCount: int,
    createdAt: int,
    updatedAt: int)

  /** The rows and the next value of the identity column. */
  datatype AnonTable = AnonTable(rows: seq<AnonRow>, nextId: int)

  /** The unique index on `fingerprint_hash`. */
  predicate UniqueFingerprints(rows: seq<AnonRow>) {
    forall i, j :: 0 <= i < j < |rows| ==> rows[i].fingerprintHash != rows[j].fingerprintHash
  }

  predicate Valid(t: AnonTable) {
    UniqueFingerprints(t.rows)
  }

  /** No stored count is negative (the column defaults to 0 and the only
      writes that do not keep this are explicit `updateAnonymousUsageCount`
      calls with a negative value). */
  predicate NonNegativeCounts(t: AnonTable) {
    forall i :: 0 <= i < |t.rows| ==> t.rows[i].usageCount >= 0
  }

  function EmptyTable(): (t: AnonTable)
    ensures Valid(t) && NonNegativeCounts(t) && |t.rows| == 0
  {
    AnonTable([], 1)
  }

  predicate HasFingerprint(rows: seq<AnonRow>, fp: string) {
    exists i :: 0 <= i < |rows| && rows[i].fingerprintHash == fp
  }

  /** Position of the first row with the given fingerprint, or `|rows|`. */
  function IndexOf(rows: seq<AnonRow>, fp: string): (i: nat)
    ensures i <= |rows|
    ensures i < |rows| ==> rows[i].fingerprintHash == fp
    ensures forall j :: 0 <= j < i ==> rows[j].fingerprintHash != fp
  {
    if |rows| == 0 then 0
    else if rows[0].fingerprintHash == fp then 0
    else 1 + IndexOf(rows[1..], fp)
  }

  // ---------------------------------------------------------------------
  // findAnonymousUsage
  // ---------------------------------------------------------------------

  /** `findAnonymousUsage`: the row with this fingerprint, or nothing. */
  function Find(t: AnonTable, fp: string): (r: Option<AnonRow>)
    ensures r.Some? <==> HasFingerprint(t.rows, fp)
    ensures r.Some? ==> r.value in t.rows && r.value.fingerprintHash == fp
  {
    var i := IndexOf(t.rows, fp);
    if i < |t.rows| then Some(t.rows[i]) else None
  }

  /** Under the unique index the row found is the only row with that
      fingerprint. */
  lemma FindIsTheRow(t: AnonTable, row: AnonRow)
    requires Valid(t) && row in t.rows
    ensures Find(t, row.fingerprintHash) == Some(row)
  {
    var k :| 0 <= k < |t.rows| && t.rows[k] == row;
    var i := IndexOf(t.rows, row.fingerprintHash);
    assert i <= k;
    assert t.rows[i].fingerprintHash == t.rows[k].fingerprintHash;
  }

  // ---------------------------------------------------------------------
  // createAnonymousUsage
  // ---------------------------------------------------------------------

  /** Default of the `initial_count` parameter. */
  const DefaultInitialCount: int := 1

  datatype StoreError = UniqueViolation

  /** `createAnonymousUsage`: inserts a row; an omitted `initial_count` is
      1. Inserting a fingerprint already present violates the unique index
      and the insert throws. */
  function Create(t: AnonTable, fp: string, initialCount: Option<int>, now: int)
    : (r: Result<(AnonTable, AnonRow), StoreError>)
    ensures r.Err? <==> HasFingerprint(t.rows, fp)
    ensures r.Ok? ==> var (t', row) := r.value;
      && row.fingerprintHash == fp
      && row.usageCount == (if initialCount.Some? then initialCount.value else 1)
      && row.createdAt == now && row.updatedAt == now
      && t'.rows == t.rows + [row]
      && Find(t', fp) == Some(row)
    ensures r.Ok? && Valid(t) ==> Valid(r.value.0)
  {
    if Find(t, fp).Some? then Err(UniqueViolation)
    else
      var row := AnonRow(t.nextId, fp, initialCount.GetOr(DefaultInitialCount), now, now);
      var t' := AnonTable(t.rows + [row], t.nextId + 1);
      assert IndexOf(t'.rows, fp) == |t.rows| by {
        IndexOfAppend(t.rows, row, fp);
      }
      Ok((t', row))
  }

  lemma {:induction false} IndexOfAppend(rows: seq<AnonRow>, row: AnonRow, fp: string)
    requires !HasFingerprint(rows, fp) && row.fingerprintHash == fp
    ensures IndexOf(rows + [row], fp) == |rows|
  {
    if |rows| > 0 {
      assert (rows + [row])[1..] == rows[1..] + [row];
      forall i | 0 <= i < |rows[1..]| ensures rows[1..][i].fingerprintHash != fp {
        assert rows[1..][i] == rows[i + 1];
      }
      IndexOfAppend(rows[1..], row, fp);
    }
  }

  // ---------------------------------------------------------------------
  // updateAnonymousUsageCount / incrementAnonymousUsageCount
  // ---------------------------------------------------------------------

  /** The two `UPDATE ... SET usage_count = ...` statements: an explicit
      value, or the column plus one. Both also set `updated_at`. */
  datatype CountChange = SetCount(n: int) | AddOne

  function Apply(c: CountChange, row: AnonRow, now: int): (r: AnonRow)
    ensures r.id == row.id && r.fingerprintHash == row.fingerprintHash
    ensures r.createdAt == row.createdAt && r.updatedAt == now
    ensures c.SetCount? ==> r.usageCount == c.n
    ensures c.AddOne? ==> r.usageCount == row.usageCount + 1
  {
    match c
    case SetCount(n) => row.(usageCount := n, updatedAt := now)
    case AddOne => row.(usageCount := row.usageCount + 1, updatedAt := now)
  }

  /** The `WHERE fingerprint_hash = fp` update over every row. */
  function UpdateRows(rows: seq<AnonRow>, fp: string, c: CountChange, now: int): (r: seq<AnonRow>)
    ensures |r| == |rows|
    ensures forall i :: 0 <= i < |rows| && rows[i].fingerprintHash == fp ==> r[i] == Apply(c, rows[i], now)
    ensures forall i :: 0 <= i < |rows| && rows[i].fingerprintHash != fp ==> r[i] == rows[i]
  {
    if |rows| == 0 then []
    else
      var head := if rows[0].fingerprintHash == fp then Apply(c, rows[0], now) else rows[0];
      [head] + UpdateRows(rows[1..], fp, c, now)
  }

  /** An update statement with `.returning()`, of which the caller keeps the
      first returned row. */
  function UpdateWhere(t: AnonTable, fp: string, c: CountChange, now: int)
    : (r: (AnonTable, Option<AnonRow>))
    ensures r.0.nextId == t.nextId
    ensures r.0.rows == UpdateRows(t.rows, fp, c, now)
    ensures r.1.None? <==> !HasFingerprint(t.rows, fp)
    ensures r.1.None? ==> r.0 == t
    ensures r.1.Some? ==> Find(t, fp).Some? && r.1.value == Apply(c, Find(t, fp).value, now)
    ensures Valid(t) ==> Valid(r.0)
  {
    var rows := UpdateRows(t.rows, fp, c, now);
    assert !HasFingerprint(t.rows, fp) ==> rows == t.rows;
    assert forall i :: 0 <= i < |rows| ==> rows[i].fingerprintHash == t.rows[i].fingerprintHash;
    var i := IndexOf(t.rows, fp);
    (AnonTable(rows, t.nextId), if i < |t.rows| then Some(rows[i]) else None)
  }

  /** `updateAnonymousUsageCount`: the count becomes exactly the given
      value on the matching row; nothing else changes. */
  function UpdateAnonymousUsageCount(t: AnonTable, fp: string, count: int, now: int)
    : (r: (AnonTable, Option<AnonRow>))
    ensures r.1.Some? <==> HasFingerprint(t.rows, fp)
    ensures r.1.Some? ==> r.1.value.usageCount == count && r.1.value.fingerprintHash == fp
    ensures |r.0.rows| == |t.rows|
    ensures forall i :: 0 <= i < |t.rows| && t.rows[i].fingerprintHash != fp ==> r.0.rows[i] == t.rows[i]
    ensures forall i :: 0 <= i < |t.rows| && t.rows[i].fingerprintHash == fp ==>
      r.0.rows[i].usageCount == count && r.0.rows[i].createdAt == t.rows[i].createdAt
  {
    UpdateWhere(t, fp, SetCount(count), now)
  }

  /** `incrementAnonymousUsageCount`: the matching row gains exactly one;
      every other row is unchanged. */
  function IncrementAnonymousUsageCount(t: AnonTable, fp: string, now: int)
    : (r: (AnonTable, Option<AnonRow>))
    ensures r.1.Some? <==> HasFingerprint(t.rows, fp)
    ensures r.1.Some? ==> r.1.value.usageCount == Find(t, fp).value.usageCount + 1
    ensures |r.0.rows| == |t.rows|
    ensures forall i :: 0 <= i < |t.rows| && t.rows[i].fingerprintHash != fp ==> r.0.rows[i] == t.rows[i]
    ensures forall i :: 0 <= i < |t.rows| && t.rows[i].fingerprintHash == fp ==>
      r.0.rows[i].usageCount == t.rows[i].usageCount + 1
    ensures NonNegativeCounts(t) ==> NonNegativeCounts(r.0)
  {
    UpdateWhere(t, fp, AddOne, now)
  }

  // ---------------------------------------------------------------------
  // upsertAnonymousUsage
  // ---------------------------------------------------------------------

  /** `upsertAnonymousUsage`, run without interleaving: increments an
      existing row, otherwise creates one with count 1. */
  function Upsert(t: AnonTable, fp: string, now: int): (r: (AnonTable, AnonRow))
    requires Valid(t)
    ensures Valid(r.0)
    ensures r.1.fingerprintHash == fp
    ensures Find(t, fp).Some? ==> r.1.usageCount == Find(t, fp).value.usageCount + 1
    ensures Find(t, fp).None? ==> r.1.usageCount == 1 && r.0.rows == t.rows + [r.1]
    ensures Find(r.0, fp) == Some(r.1)
    ensures forall f :: f != fp ==> Find(r.0, f) == Find(t, f)
  {
    var r := UpsertRows(t, fp, now);
    forall f | f != fp ensures Find(r.0, f) == Find(t, f) {
      FindUnchanged(t, r.0, fp, f);
    }
    r
  }

  function UpsertRows(t: AnonTable, fp: string, now: int): (r: (AnonTable, AnonRow))
    requires Valid(t)
    ensures Valid(r.0)
    ensures r.1.fingerprintHash == fp
    ensures Find(t, fp).Some? ==> r.1.usageCount == Find(t, fp).value.usageCount + 1
    ensures Find(t, fp).None? ==> r.1.usageCount == 1 && r.0.rows == t.rows + [r.1]
    ensures Find(r.0, fp) == Some(r.1)
    ensures |t.rows| <= |r.0.rows|
    ensures forall i :: 0 <= i < |t.rows| ==>
      r.0.rows[i].fingerprintHash == t.rows[i].fingerprintHash
      && (t.rows[i].fingerprintHash != fp ==> r.0.rows[i] == t.rows[i])
    ensures forall i :: |t.rows| <= i < |r.0.rows| ==> r.0.rows[i].fingerprintHash == fp
  {
    match Find(t, fp)
    case Some(_) =>
      var (t', row) := IncrementAnonymousUsageCount(t, fp, now);
      assert row.value in t'.rows by {
        var i := IndexOf(t.rows, fp);
        assert t'.rows[i] == row.value;
      }
      FindIsTheRow(t', row.value);
      (t', row.value)
    case None =>
      var created := Create(t, fp, Some(1), now);
      created.value
  }

  /** A write that keeps every other fingerprint's row where it was, and
      adds only rows of its own fingerprint, leaves every other lookup
      unchanged. */
  lemma FindUnchanged(t: AnonTable, t': AnonTable, fp: string, f: string)
    requires Valid(t) && Valid(t') && f != fp
    requires |t.rows| <= |t'.rows|
    requires forall i :: 0 <= i < |t.rows| ==>
      t'.rows[i].fingerprintHash == t.rows[i].fingerprintHash
      && (t.rows[i].fingerprintHash != fp ==> t'.rows[i] == t.rows[i])
    requires forall i :: |t.rows| <= i < |t'.rows| ==> t'.rows[i].fingerprintHash == fp
    ensures Find(t', f) == Find(t, f)
  {
    if Find(t', f).Some? {
      var row := Find(t', f).value;
      var i :| 0 <= i < |t'.rows| && t'.rows[i] == row;
      assert t.rows[i] == row;
      FindIsTheRow(t, row);
    } else {
      forall i | 0 <= i < |t.rows| ensures t.rows[i].fingerprintHash != f {
        assert t'.rows[i].fingerprintHash == t.rows[i].fingerprintHash;
      }
    }
  }

  /** Either way the upserted count is at least one, and no count turns
      negative. */
  lemma UpsertAtLeastOne(t: AnonTable, fp: string, now: int)
    requires Valid(t) && NonNegativeCounts(t)
    ensures Upsert(t, fp, now).1.usageCount >= 1
    ensures NonNegativeCounts(Upsert(t, fp, now).0)
  {
    var f := Find(t, fp);
    if f.Some? {
      var i :| 0 <= i < |t.rows| && t.rows[i] == f.value;
    }
  }

  // ---------------------------------------------------------------------
  // getAnonymousUsageStats
  // ---------------------------------------------------------------------

  /** `reduce((sum, record) => sum + record.total, 0)`. */
  function TotalUsage(rows: seq<AnonRow>): int {
    if |rows| == 0 then 0 else TotalUsage(rows[..|rows| - 1]) + rows[|rows| - 1].usageCount
  }

  /** The number of rows with `created_at >= cutoff`. */
  function CountRecent(rows: seq<AnonRow>, cutoff: int): (n: nat)
    ensures n <= |rows|
  {
    if |rows| == 0 then 0
    else CountRecent(rows[..|rows| - 1], cutoff) + (if rows[|rows| - 1].createdAt >= cutoff then 1 else 0)
  }

  datatype AnonStats = AnonStats(totalRecords: nat, totalUsage: int, recentRecords: nat)

  /** Default window of `getAnonymousUsageStats`, in days. The cutoff date
      itself is calendar arithmetic and is passed in. */
  const DefaultStatsDays: int := 7

  /** `getAnonymousUsageStats`. */
  function GetAnonymousUsageStats(t: AnonTable, cutoff: int): (s: AnonStats)
    ensures s.totalRecords == |t.rows|
    ensures s.recentRecords <= s.totalRecords
    ensures NonNegativeCounts(t) ==> s.totalUsage >= 0
  {
    TotalUsageNonNegative(t.rows);
    AnonStats(|t.rows|, TotalUsage(t.rows), CountRecent(t.rows, cutoff))
  }

  lemma {:induction false} TotalUsageNonNegative(rows: seq<AnonRow>)
    ensures (forall i :: 0 <= i < |rows| ==> rows[i].usageCount >= 0) ==> TotalUsage(rows) >= 0
  {
    if |rows| > 0 {
      TotalUsageNonNegative(rows[..|rows| - 1]);
    }
  }

  /** Adding one to the count of every row with the given fingerprint adds
      the number of such rows to the total. */
  lemma {:induction false} TotalUsageAddOne(rows: seq<AnonRow>, fp: string, now: int)
    ensures TotalUsage(UpdateRows(rows, fp, AddOne, now)) == TotalUsage(rows) + CountFingerprint(rows, fp)
    decreases |rows|
  {
    if |rows| > 0 {
      var r := UpdateRows(rows, fp, AddOne, now);
      var init := rows[..|rows| - 1];
      assert r[..|r| - 1] == UpdateRows(init, fp, AddOne, now);
      TotalUsageAddOne(init, fp, now);
    }
  }

  function CountFingerprint(rows: seq<AnonRow>, fp: string): nat {
    if |rows| == 0 then 0
    else CountFingerprint(rows[..|rows| - 1], fp) + (if rows[|rows| - 1].fingerprintHash == fp then 1 else 0)
  }

  /** Under the unique index a fingerprint occurs at most once. */
  lemma {:induction false} CountFingerprintUnique(rows: seq<AnonRow>, fp: string)
    requires UniqueFingerprints(rows)
    ensures CountFingerprint(rows, fp) == if HasFingerprint(rows, fp) then 1 else 0
  {
    if |rows| > 0 {
      var init := rows[..|rows| - 1];
      CountFingerprintUnique(init, fp);
      forall i | 0 <= i < |init| ensures init[i].fingerprintHash != rows[|rows| - 1].fingerprintHash {
        assert init[i] == rows[i];
      }
      if HasFingerprint(rows, fp) && rows[|rows| - 1].fingerprintHash != fp {
        var i :| 0 <= i < |rows| && rows[i].fingerprintHash == fp;
        assert init[i].fingerprintHash == fp;
      }
    }
  }

  lemma {:induction false} TotalUsageAppend(rows: seq<AnonRow>, row: AnonRow)
    ensures TotalUsage(rows + [row]) == TotalUsage(rows) + row.usageCount
  {
    assert (rows + [row])[..|rows|] == rows;
  }

  /** Every upsert adds exactly one generation to `total_usage` and at most
      one record to `total_records`. */
  lemma UpsertAddsOne(t: AnonTable, fp: string, now: int, cutoff: int)
    requires Valid(t)
    ensures GetAnonymousUsageStats(Upsert(t, fp, now).0, cutoff).totalUsage
      == GetAnonymousUsageStats(t, cutoff).totalUsage + 1
    ensures GetAnonymousUsageStats(Upsert(t, fp, now).0, cutoff).totalRecords
      == GetAnonymousUsageStats(t, cutoff).totalRecords + (if Find(t, fp).Some? then 0 else 1)
  {
    var t' := Upsert(t, fp, now).0;
    if Find(t, fp).Some? {
      TotalUsageAddOne(t.rows, fp, now);
      CountFingerprintUnique(t.rows, fp);
    } else {
      TotalUsageAppend(t.rows, Upsert(t, fp, now).1);
    }
  }

  // ---------------------------------------------------------------------
  // cleanupOldAnonymousUsage
  // ---------------------------------------------------------------------

  /** Default age of `cleanupOldAnonymousUsage`, in days. */
  const DefaultCleanupDays: int := 30

  /** The rows a delete leaves: with `recent` true, those with
      `created_at >= cutoff`; with `recent` false, those before it. */
  function KeepByAge(rows: seq<AnonRow>, cutoff: int, recent: bool): (r: seq<AnonRow>)
    ensures |r| <= |rows|
    ensures forall x :: x in r ==> x in rows && (x.createdAt >= cutoff) == recent
    ensures forall x :: x in rows && (x.createdAt >= cutoff) == recent ==> x in r
  {
    if |rows| == 0 then []
    else
      var rest := KeepByAge(rows[..|rows| - 1], cutoff, recent);
      var last := rows[|rows| - 1];
      assert forall x :: x in rows ==> x in rows[..|rows| - 1] || x == last;
      if (last.createdAt >= cutoff) == recent then rest + [last] else rest
  }

  lemma {:induction false} KeepRecentCount(rows: seq<AnonRow>, cutoff: int)
    ensures |KeepByAge(rows, cutoff, true)| == CountRecent(rows, cutoff)
    ensures |KeepByAge(rows, cutoff, false)| == |rows| - CountRecent(rows, cutoff)
  {
    if |rows| > 0 {
      KeepRecentCount(rows[..|rows| - 1], cutoff);
    }
  }

  lemma {:induction false} KeepRecentAllRecent(rows: seq<AnonRow>, cutoff: int)
    requires forall i :: 0 <= i < |rows| ==> rows[i].createdAt >= cutoff
    ensures CountRecent(rows, cutoff) == |rows|
  {
    if |rows| > 0 {
      KeepRecentAllRecent(rows[..|rows| - 1], cutoff);
    }
  }

  /** What the delete statement reports. The source returns
      `result.length` when the driver hands back an array (one element per
      deleted row) and 0 otherwise; which it is depends on the driver. */
  function Reported(deleted: nat, resultIsArray: bool): nat {
    if resultIsArray then deleted else 0
  }

  /** `cleanupOldAnonymousUsage` as written: the delete's condition is
      `created_at >= cutoff`, so it removes the recent rows. A store fault
      is caught and reported as 0 with nothing deleted. */
  function CleanupAsWritten(t: AnonTable, cutoff: int, fault: bool, resultIsArray: bool)
    : (r: (AnonTable, nat))
    ensures fault ==> r == (t, 0)
    ensures !fault ==> forall x :: x in r.0.rows <==> x in t.rows && x.createdAt < cutoff
    ensures r.1 <= |t.rows|
  {
    if fault then (t, 0)
    else
      var kept := KeepByAge(t.rows, cutoff, false);
      (t.(rows := kept), Reported(|t.rows| - |kept|, resultIsArray))
  }

  /** The counterexample: of a row created a day before the cutoff and one
      created at the cutoff, the "cleanup" keeps the old row and deletes the
      new one. */
  lemma CleanupAsWrittenDeletesRecent(cutoff: int)
    ensures var old_ := AnonRow(1, "a", 3, cutoff - 86400000, cutoff - 86400000);
      var new_ := AnonRow(2, "b", 1, cutoff, cutoff);
      var r := CleanupAsWritten(AnonTable([old_, new_], 3), cutoff, false, true);
      old_ in r.0.rows && new_ !in r.0.rows
  {
  }

  /** `cleanupOldAnonymousUsage` as its name and its `days` parameter
      intend: delete the rows created before the cutoff. */
  function CleanupOldAnonymousUsage(t: AnonTable, cutoff: int, fault: bool, resultIsArray: bool)
    : (r: (AnonTable, nat))
    ensures fault ==> r == (t, 0)
    ensures !fault ==> forall x :: x in r.0.rows <==> x in t.rows && x.createdAt >= cutoff
    ensures !fault && resultIsArray ==> r.1 == |t.rows| - |r.0.rows|
    ensures Valid(t) ==> Valid(r.0)
  {
    if fault then (t, 0)
    else
      var kept := KeepByAge(t.rows, cutoff, true);
      assert Valid(t) ==> UniqueFingerprints(kept) by {
        if Valid(t) { KeepByAgeUnique(t.rows, cutoff, true); }
      }
      (t.(rows := kept), Reported(|t.rows| - |kept|, resultIsArray))
  }

  lemma {:induction false} KeepByAgeUnique(rows: seq<AnonRow>, cutoff: int, recent: bool)
    requires UniqueFingerprints(rows)
    ensures UniqueFingerprints(KeepByAge(rows, cutoff, recent))
  {
    if |rows| > 0 {
      var init := rows[..|rows| - 1];
      var last := rows[|rows| - 1];
      KeepByAgeUnique(init, cutoff, recent);
      var rest := KeepByAge(init, cutoff, recent);
      forall x | x in rest ensures x.fingerprintHash != last.fingerprintHash {
        var i :| 0 <= i < |init| && init[i] == x;
        assert rows[i] == x;
      }
    }
  }

  /** The corrected cleanup and the stats agree: afterwards every record is
      recent, and exactly the records counted as recent before remain,
      their usage unchanged. */
  lemma CleanupThenStats(t: AnonTable, cutoff: int, resultIsArray: bool)
    ensures var after := CleanupOldAnonymousUsage(t, cutoff, false, resultIsArray);
      var s := GetAnonymousUsageStats(after.0, cutoff);
      && s.totalRecords == s.recentRecords
      && s.totalRecords == GetAnonymousUsageStats(t, cutoff).recentRecords
      && (resultIsArray ==> after.1 + s.totalRecords == |t.rows|)
  {
    var kept := KeepByAge(t.rows, cutoff, true);
    KeepRecentCount(t.rows, cutoff);
    assert forall i :: 0 <= i < |kept| ==> kept[i] in kept;
    KeepRecentAllRecent(kept, cutoff);
  }
}

=== FILE: creem.dfy ===
/** The pure parts of `CreemService` in `src/services/creem.ts`: the
    request id codec, the return-URL parameter parser, the canonical string
    a return URL's signature covers, the two signature checks and the two
    handlers that read a payment's user and plan back.

    HMAC-SHA256 is the parameter `hmac(key, message)`, returning the hex
    digest; the configured API key is the parameter `apiKey`. */
module Creem {
  import opened Wrappers
  import opened JsStrings

  // ---------------------------------------------------------------------
  // request_id
  // ---------------------------------------------------------------------

  const UserPrefix: string := "user_"
  const PlanInfix: string := "_plan_"

  /** `generateRequestId`: `user_{userId}_plan_{planId}`. The return URL
      and the webhook parse it back to the same two ids, unless one of them
      is negative. */
  function GenerateRequestId(userId: int, planId: int): (s: string)
    ensures userId >= 0 && planId >= 0 ==> ParseRequestId(s) == Some((userId, planId))
    ensures userId < 0 || planId < 0 ==> ParseRequestId(s).None?
  {
    var s := UserPrefix + IntToDecimal(userId) + PlanInfix + IntToDecimal(planId);
    if userId >= 0 && planId >= 0 then
      RequestIdRoundTrip(userId, planId);
      s
    else
      NegativeRequestIdRejected(userId, planId);
      s
  }

  /** The number of leading decimal digits of `s`. */
  function DigitRun(s: string): (n: nat)
    ensures n <= |s| && AllDigits(s[..n])
    ensures n < |s| ==> !IsDigit(s[n])
  {
    if |s| == 0 || !IsDigit(s[0]) then 0
    else
      var n := 1 + DigitRun(s[1..]);
      assert forall i :: 1 <= i < n ==> s[..n][i] == s[1..][..n - 1][i - 1];
      n
  }

  lemma {:induction false} DigitRunConcat(d: string, t: string)
    requires AllDigits(d)
    requires |t| == 0 || !IsDigit(t[0])
    ensures DigitRun(d + t) == |d|
  {
    if |d| > 0 {
      assert (d + t)[1..] == d[1..] + t;
      DigitRunConcat(d[1..], t);
    } else {
      assert d + t == t;
    }
  }

  /** `s` is `user_<d1>_plan_<d2>` with both runs non-empty and all digits:
      the shape `^user_(\d+)_plan_(\d+)$` accepts. */
  predicate RequestIdShape(s: string, d1: string, d2: string) {
    && |d1| >= 1 && |d2| >= 1 && AllDigits(d1) && AllDigits(d2)
    && s == UserPrefix + d1 + PlanInfix + d2
  }

  /** `request_id.match(/^user_(\d+)_plan_(\d+)$/)`: the two captured digit
      runs, or nothing. */
  function MatchRequestId(s: string): (r: Option<(string, string)>)
    ensures r.Some? ==> RequestIdShape(s, r.value.0, r.value.1)
  {
    if |s| < |UserPrefix| || s[..|UserPrefix|] != UserPrefix then None
    else
      var rest := s[|UserPrefix|..];
      var n := DigitRun(rest);
      if n == 0 || |rest| < n + |PlanInfix| || rest[n..n + |PlanInfix|] != PlanInfix then None
      else
        var d1 := rest[..n];
        var d2 := rest[n + |PlanInfix|..];
        if |d2| == 0 || !AllDigits(d2) then None
        else
          assert s == s[..|UserPrefix|] + rest;
          assert rest == d1 + rest[n..n + |PlanInfix|] + d2;
          Some((d1, d2))
  }

  /** The match is complete: every string of the accepted shape is matched,
      with exactly its two digit runs captured. */
  lemma MatchRequestIdComplete(s: string, d1: string, d2: string)
    requires RequestIdShape(s, d1, d2)
    ensures MatchRequestId(s) == Some((d1, d2))
  {
    var rest := s[|UserPrefix|..];
    assert s[..|UserPrefix|] == UserPrefix;
    assert rest == d1 + (PlanInfix + d2);
    DigitRunConcat(d1, PlanInfix + d2);
    var n := |d1|;
    assert rest[..n] == d1;
    assert rest[n..n + |PlanInfix|] == PlanInfix;
    assert rest[n + |PlanInfix|..] == d2;
  }

  /** The match plus `parseInt` of both captures. */
  function ParseRequestId(s: string): (r: Option<(nat, nat)>)
    ensures r.Some? <==> MatchRequestId(s).Some?
    ensures r.Some? ==>
      r.value == (DecimalValue(MatchRequestId(s).value.0), DecimalValue(MatchRequestId(s).value.1))
  {
    match MatchRequestId(s)
    case None => None
    case Some((d1, d2)) => Some((DecimalValue(d1), DecimalValue(d2)))
  }

  /** Parsing `user_{userId}_plan_{planId}` gives back the two ids. */
  lemma RequestIdRoundTrip(userId: nat, planId: nat)
    ensures ParseRequestId(UserPrefix + IntToDecimal(userId) + PlanInfix + IntToDecimal(planId)) == Some((userId, planId))
  {
    var d1 := NatToDecimal(userId);
    var d2 := NatToDecimal(planId);
    MatchRequestIdComplete(UserPrefix + IntToDecimal(userId) + PlanInfix + IntToDecimal(planId), d1, d2);
    DecimalRoundTrip(userId);
    DecimalRoundTrip(planId);
  }

  /** A negative id renders with a `-`, which the parser rejects. */
  lemma NegativeRequestIdRejected(userId: int, planId: int)
    requires userId < 0 || planId < 0
    ensures ParseRequestId(UserPrefix + IntToDecimal(userId) + PlanInfix + IntToDecimal(planId)).None?
  {
    var s := UserPrefix + IntToDecimal(userId) + PlanInfix + IntToDecimal(planId);
    var a := IntToDecimal(userId);
    var b := IntToDecimal(planId);
    if userId < 0 {
      assert s[|UserPrefix|] == a[0] == '-';
    } else {
      assert s[|UserPrefix| + |a| + |PlanInfix|] == b[0] == '-';
    }
    var m := MatchRequestId(s);
    if m.Some? {
      ShapeHasNoMinus(s, m.value.0, m.value.1);
    }
  }

  /** No character of an accepted request id is a `-`. */
  lemma ShapeHasNoMinus(s: string, d1: string, d2: string)
    requires RequestIdShape(s, d1, d2)
    ensures forall i :: 0 <= i < |s| ==> s[i] != '-'
  {
    forall i | 0 <= i < |s| ensures s[i] != '-' {
      var k := |UserPrefix|;
      if k <= i < k + |d1| {
        assert s[i] == d1[i - k];
      } else if k + |d1| + |PlanInfix| <= i {
        assert s[i] == d2[i - k - |d1| - |PlanInfix|];
      }
    }
  }

  // ---------------------------------------------------------------------
  // Signatures
  // ---------------------------------------------------------------------

  /** One own property of the parameter object; an absent value is
      `undefined`. */
  datatype Param = Param(key: string, value: Option<string>)

  /** The template `${key}=${value}`. */
  function Render(p: Param): string {
    p.key + "=" + (if p.value.Some? then p.value.value else "undefined")
  }

  /** Ascending by key in the default string order. */
  predicate KeysAscending(s: seq<Param>) {
    forall i :: 0 <= i < |s| - 1 ==> StrLe(s[i].key, s[i + 1].key)
  }

  function InsertParam(x: Param, s: seq<Param>): (r: seq<Param>)
    requires KeysAscending(s)
    ensures KeysAscending(r)
    ensures multiset(r) == multiset(s) + multiset{x} && |r| == |s| + 1
    ensures r[0] == x || (|s| > 0 && r[0] == s[0])
  {
    if |s| == 0 then [x]
    else if StrLe(x.key, s[0].key) then [x] + s
    else
      StrLeTotal(x.key, s[0].key);
      assert KeysAscending(s[1..]) by {
        forall i | 0 <= i < |s[1..]| - 1 ensures StrLe(s[1..][i].key, s[1..][i + 1].key) {
          assert s[1..][i] == s[i + 1] && s[1..][i + 1] == s[i + 2];
        }
      }
      var rest := InsertParam(x, s[1..]);
      assert s == [s[0]] + s[1..];
      [s[0]] + rest
  }

  /** `Object.keys(…).sort()`, carrying each key's value along. */
  function SortParams(s: seq<Param>): (r: seq<Param>)
    ensures KeysAscending(r)
    ensures multiset(r) == multiset(s) && |r| == |s|
  {
    if |s| == 0 then []
    else
      assert s == [s[0]] + s[1..];
      InsertParam(s[0], SortParams(s[1..]))
  }

  /** The string a return URL's signature covers: every parameter but the
      signature, as `k=v`, ascending by key, joined with `&`. */
  function CanonicalString(otherParams: seq<Param>): (s: string)
    ensures exists sorted: seq<Param> ::
      && KeysAscending(sorted) && multiset(sorted) == multiset(otherParams)
      && s == Join(seq(|sorted|, i requires 0 <= i < |sorted| => Render(sorted[i])), "&")
  {
    var sorted := SortParams(otherParams);
    Join(seq(|sorted|, i requires 0 <= i < |sorted| => Render(sorted[i])), "&")
  }

  /** The parameters of a return URL, as `parseReturnUrlParams` builds them. */
  datatype ReturnUrlParams = ReturnUrlParams(
    checkoutId: string,
    orderId: string,
    customerId: string,
    subscriptionId: Option<string>,
    productId: string,
    requestId: Option<string>,
    signature: string)

  /** `const { signature, ...otherParams } = params`: the other six own
      properties, in the order the object was built. */
  function OtherParams(p: ReturnUrlParams): (r: seq<Param>)
    ensures |r| == 6
    ensures forall i :: 0 <= i < |r| ==> r[i].key != "signature"
  {
    [ Param("checkout_id", Some(p.checkoutId)),
      Param("order_id", Some(p.orderId)),
      Param("customer_id", Some(p.customerId)),
      Param("subscription_id", p.subscriptionId),
      Param("product_id", Some(p.productId)),
      Param("request_id", p.requestId) ]
  }

  /** `verifyReturnUrlSignature`: false without an API key, otherwise the
      given signature must equal the HMAC of the canonical string. */
  function VerifyReturnUrlSignature(p: ReturnUrlParams, apiKey: string, hmac: (string, string) -> string): (ok: bool)
    ensures apiKey == "" ==> !ok
    ensures apiKey != "" ==> (ok <==> p.signature == hmac(apiKey, CanonicalString(OtherParams(p))))
  {
    apiKey != "" && p.signature == hmac(apiKey, CanonicalString(OtherParams(p)))
  }

  /** `verifyWebhookSignature`: the same check over the raw payload. */
  function VerifyWebhookSignature(payload: string, signature: string, apiKey: string, hmac: (string, string) -> string)
    : (ok: bool)
    ensures apiKey == "" ==> !ok
    ensures apiKey != "" ==> (ok <==> signature == hmac(apiKey, payload))
  {
    apiKey != "" && signature == hmac(apiKey, payload)
  }

  /** The signature does not sign itself: replacing it leaves the signed
      string unchanged, so exactly one signature value verifies. */
  lemma SignatureCoversOnlyOtherParams(p: ReturnUrlParams, sig: string, apiKey: string, hmac: (string, string) -> string)
    requires apiKey != ""
    ensures CanonicalString(OtherParams(p.(signature := sig))) == CanonicalString(OtherParams(p))
    ensures VerifyReturnUrlSignature(p, apiKey, hmac) && VerifyReturnUrlSignature(p.(signature := sig), apiKey, hmac)
      ==> sig == p.signature
  {
  }

  // ---------------------------------------------------------------------
  // parseReturnUrlParams
  // ---------------------------------------------------------------------

  /** `URLSearchParams.get`: the first value under the name, or null. */
  function GetParam(query: seq<(string, string)>, name: string): (r: Option<string>)
    ensures r.Some? ==> (name, r.value) in query
    ensures r.None? <==> forall i :: 0 <= i < |query| ==> query[i].0 != name
  {
    if |query| == 0 then None
    else if query[0].0 == name then Some(query[0].1)
    else GetParam(query[1..], name)
  }

  /** A parameter `!params.get(name)` does not reject: present and
      non-empty. */
  predicate Supplied(query: seq<(string, string)>, name: string) {
    GetParam(query, name).Some? && GetParam(query, name).value != ""
  }

  const RequiredParams: seq<string> := ["checkout_id", "order_id", "customer_id", "product_id", "signature"]

  /** `parseReturnUrlParams`. `query` is the URL's search parameters, or
      nothing when `new URL` throws. */
  function ParseReturnUrlParams(query: Option<seq<(string, string)>>): (r: Option<ReturnUrlParams>)
    ensures r.Some? <==> query.Some? && forall k :: 0 <= k < |RequiredParams| ==> Supplied(query.value, RequiredParams[k])
    ensures r.Some? ==>
      var q := query.value;
      && Some(r.value.checkoutId) == GetParam(q, "checkout_id")
      && Some(r.value.orderId) == GetParam(q, "order_id")
      && Some(r.value.customerId) == GetParam(q, "customer_id")
      && Some(r.value.productId) == GetParam(q, "product_id")
      && Some(r.value.signature) == GetParam(q, "signature")
      && r.value.subscriptionId == Truthy(GetParam(q, "subscription_id"))
      && r.value.requestId == Truthy(GetParam(q, "request_id"))
  {
    match query
    case None => None
    case Some(q) =>
      if !(forall k :: 0 <= k < |RequiredParams| ==> Supplied(q, RequiredParams[k])) then None
      else
        assert Supplied(q, RequiredParams[0]) && Supplied(q, RequiredParams[1]) && Supplied(q, RequiredParams[2]);
        assert Supplied(q, RequiredParams[3]) && Supplied(q, RequiredParams[4]);
        Some(ReturnUrlParams(
          GetParam(q, "checkout_id").value,
          GetParam(q, "order_id").value,
          GetParam(q, "customer_id").value,
          Truthy(GetParam(q, "subscription_id")),
          GetParam(q, "product_id").value,
          Truthy(GetParam(q, "request_id")),
          GetParam(q, "signature").value))
  }

  // ---------------------------------------------------------------------
  // handlePaymentSuccess / handleWebhookEvent
  // ---------------------------------------------------------------------

  datatype PaymentInfo = PaymentInfo(userId: nat, planId: nat, orderId: string, customerId: string)

  /** The request-id step shared by the return URL and the webhook: the id
      must be present (non-empty) and of the shape `user_{u}_plan_{p}`;
      each failure has its own message. */
  function ReadRequestId(requestId: Option<string>, missing: string, malformed: string): (r: Result<(nat, nat), string>)
    ensures Truthy(requestId).None? ==> r == Err(missing)
    ensures Truthy(requestId).Some? && ParseRequestId(requestId.value).None? ==> r == Err(malformed)
    ensures Truthy(requestId).Some? && ParseRequestId(requestId.value).Some? ==>
      r == Ok(ParseRequestId(requestId.value).value)
  {
    if Truthy(requestId).None? then Err(missing)
    else
      match ParseRequestId(requestId.value)
      case None => Err(malformed)
      case Some(ids) => Ok(ids)
  }

  /** The part of `handlePaymentSuccess` after the signature check: the
      request id must be present and of the right shape, and the payment is
      attributed to the ids it carries. */
  function ReadPaymentInfo(p: ReturnUrlParams): (r: Result<PaymentInfo, string>)
    ensures Truthy(p.requestId).None? ==> r == Err("Missing request_id in return URL")
    ensures Truthy(p.requestId).Some? && ParseRequestId(p.requestId.value).None? ==>
      r == Err("Invalid request_id format")
    ensures r.Ok? <==> Truthy(p.requestId).Some? && ParseRequestId(p.requestId.value).Some?
    ensures r.Ok? ==>
      && ParseRequestId(p.requestId.value) == Some((r.value.userId, r.value.planId))
      && r.value.orderId == p.orderId && r.value.customerId == p.customerId
  {
    match ReadRequestId(p.requestId, "Missing request_id in return URL", "Invalid request_id format")
    case Err(e) => Err(e)
    case Ok(ids) => Ok(PaymentInfo(ids.0, ids.1, p.orderId, p.customerId))
  }

  /** `handlePaymentSuccess`: the signature is checked first; only a
      correctly signed return URL reaches the request-id step. */
  function HandlePaymentSuccess(p: ReturnUrlParams, apiKey: string, hmac: (string, string) -> string)
    : (r: Result<PaymentInfo, string>)
    ensures var signed := VerifyReturnUrlSignature(p, apiKey, hmac);
      && (!signed ==> r == Err("Invalid signature"))
      && (signed ==> r == ReadPaymentInfo(p))
      && (signed && Truthy(p.requestId).None? ==> r == Err("Missing request_id in return URL"))
      && (signed && Truthy(p.requestId).Some? && ParseRequestId(p.requestId.value).None? ==>
            r == Err("Invalid request_id format"))
  {
    if !VerifyReturnUrlSignature(p, apiKey, hmac) then Err("Invalid signature")
    else ReadPaymentInfo(p)
  }

  datatype WebhookPayload = WebhookPayload(
    eventType: string,
    checkoutId: string,
    orderId: string,
    customerId: string,
    requestId: Option<string>)

  datatype WebhookInfo = WebhookInfo(userId: nat, planId: nat, orderId: string, customerId: string, eventType: string)

  /** `handleWebhookEvent`: the request id must be present and of the right
      shape; the payload's signature is checked elsewhere. */
  function HandleWebhookEvent(p: WebhookPayload): (r: Result<WebhookInfo, string>)
    ensures Truthy(p.requestId).None? ==> r == Err("Missing request_id in webhook payload")
    ensures Truthy(p.requestId).Some? && ParseRequestId(p.requestId.value).None? ==>
      r == Err("Invalid request_id format in webhook")
    ensures r.Ok? <==> Truthy(p.requestId).Some? && ParseRequestId(p.requestId.value).Some?
    ensures r.Ok? ==>
      && ParseRequestId(p.requestId.value) == Some((r.value.userId, r.value.planId))
      && r.value.orderId == p.orderId && r.value.customerId == p.customerId
      && r.value.eventType == p.eventType
  {
    match ReadRequestId(p.requestId, "Missing request_id in webhook payload", "Invalid request_id format in webhook")
    case Err(e) => Err(e)
    case Ok(ids) => Ok(WebhookInfo(ids.0, ids.1, p.orderId, p.customerId, p.eventType))
  }

  /** A correctly signed return URL carrying a generated request id yields
      the user and plan the id was generated from. */
  lemma SignedPaymentRoundTrip(
    p: ReturnUrlParams, apiKey: string, hmac: (string, string) -> string, userId: nat, planId: nat)
    requires apiKey != ""
    requires p.requestId == Some(GenerateRequestId(userId, planId))
    requires p.signature == hmac(apiKey, CanonicalString(OtherParams(p)))
    ensures HandlePaymentSuccess(p, apiKey, hmac) == Ok(PaymentInfo(userId, planId, p.orderId, p.customerId))
  {
    var id := GenerateRequestId(userId, planId);
    assert ParseRequestId(id) == Some((userId, planId));
  }
}

=== FILE: fingerprint.dfy ===
/** The pure parts of `src/lib/fingerprint.ts`: the fallback `simpleHash`,
    the hexadecimal encoding of a SHA-256 digest, and `isValidFingerprint`.

    SHA-256 itself (Web Crypto) is not modelled: `hashFingerprint` receives
    the digest bytes, or `None` when the digest call throws. */
module Fingerprint {
  import opened Wrappers
  import opened JsStrings
  import opened JsNumbers
  import V = Validation

  // ---------------------------------------------------------------------
  // simpleHash
  // ---------------------------------------------------------------------

  /** One step of the loop: `hash = ((hash << 5) - hash) + char` followed by
      `hash = hash & hash`. `<<` and `&` convert to a signed 32-bit integer;
      the subtraction and addition in between are exact. */
  function HashStep(h: int, unit: int): (r: int)
    ensures -TwoTo31 <= r < TwoTo31
  {
    ToInt32(ToInt32(h * 32) - h + unit)
  }

  /** The step is the 32-bit wrap of `31 * h + char`. */
  lemma HashStepIsTimes31(h: int, unit: int)
    ensures HashStep(h, unit) == ToInt32(31 * h + unit)
  {
    var a := ToInt32(h * 32);
    assert ((a - h + unit) - (31 * h + unit)) % TwoTo32 == (a - h * 32) % TwoTo32;
    ToInt32Congruent(a - h + unit, 31 * h + unit);
  }

  /** The hash state after the given UTF-16 code units, starting from 0. */
  function HashState(units: seq<int>): (h: int)
    ensures -TwoTo31 <= h < TwoTo31
  {
    if |units| == 0 then 0 else HashStep(HashState(units[..|units| - 1]), units[|units| - 1])
  }

  /** `Math.abs(hash).toString(16).padStart(8, '0')`. */
  function RenderHash(h: int): (s: string)
    requires -TwoTo31 <= h < TwoTo31
    ensures |s| == 8 && AllHex(s)
    ensures forall i :: 0 <= i < 8 ==> !('A' <= s[i] <= 'Z')
    ensures HexValue(s) == Abs(h)
  {
    PaddedHex(Abs(h));
    PadStart(NatToHex(Abs(h)), 8, '0')
  }

  /** A number below 2^32 has at most eight hexadecimal digits, so padding
      it to eight only adds leading zeros. */
  lemma PaddedHex(n: nat)
    requires n < TwoTo32
    ensures var s := PadStart(NatToHex(n), 8, '0');
      && |s| == 8 && AllHex(s)
      && (forall i :: 0 <= i < 8 ==> !('A' <= s[i] <= 'Z'))
      && HexValue(s) == n
  {
    var digits := NatToHex(n);
    EightHexDigits(n);
    HexRoundTrip(n);
    LeadingZeros(8 - |digits|, digits);
    assert PadStart(digits, 8, '0') == Repeat('0', 8 - |digits|) + digits;
  }

  lemma EightHexDigits(n: nat)
    requires n < TwoTo32
    ensures |NatToHex(n)| <= 8
  {
    assert Pow16(8) == TwoTo32;
    NatToHexLength(n, 8);
  }

  /** Leading zeros do not change a hexadecimal value. */
  lemma {:induction false} LeadingZeros(n: nat, s: string)
    requires AllHex(s)
    ensures AllHex(Repeat('0', n) + s)
    ensures HexValue(Repeat('0', n) + s) == HexValue(s)
    decreases |s|
  {
    var z := Repeat('0', n) + s;
    assert AllHex(z) by {
      forall i | 0 <= i < |z| ensures IsHexDigit(z[i]) {
        if i >= n { assert z[i] == s[i - n]; }
      }
    }
    if |s| == 0 {
      ZerosValue(n);
      assert z == Repeat('0', n);
    } else {
      assert z[..|z| - 1] == Repeat('0', n) + s[..|s| - 1];
      LeadingZeros(n, s[..|s| - 1]);
    }
  }

  lemma {:induction false} ZerosValue(n: nat)
    ensures AllHex(Repeat('0', n)) && HexValue(Repeat('0', n)) == 0
  {
    if n > 0 {
      assert Repeat('0', n)[..n - 1] == Repeat('0', n - 1);
      ZerosValue(n - 1);
    }
  }

  /** `simpleHash(str)`. */
  function SimpleHash(str: string): (r: string)
    ensures |r| == 8 && AllHex(r)
    ensures forall i :: 0 <= i < 8 ==> !('A' <= r[i] <= 'Z')
  {
    RenderHash(HashState(CodeUnits(str)))
  }

  /** The loop of `simpleHash` as written, over `charCodeAt(i)` for each
      index below `length`; it computes `SimpleHash`. */
  method SimpleHashLoop(str: string) returns (r: string)
    ensures r == SimpleHash(str)
    ensures |r| == 8 && IsValidFingerprint(r)
  {
    var units := CodeUnits(str);
    var hash := 0;
    var i := 0;
    while i < |units|
      invariant 0 <= i <= |units|
      invariant hash == HashState(units[..i])
    {
      HashStatePrefix(units, i);
      hash := ToInt32(ToInt32(hash * 32) - hash + units[i]);
      i := i + 1;
    }
    assert units[..|units|] == units;
    r := RenderHash(hash);
  }

  lemma HashStatePrefix(units: seq<int>, i: nat)
    requires i < |units|
    ensures HashState(units[..i + 1]) == HashStep(HashState(units[..i]), units[i])
  {
    assert units[..i + 1][..i] == units[..i];
  }

  /** The hash is the textbook 31-multiplier string hash reduced to 32 bits
      after every character. */
  lemma {:induction false} HashStateTimes31(units: seq<int>)
    requires |units| > 0
    ensures HashState(units) == ToInt32(31 * HashState(units[..|units| - 1]) + units[|units| - 1])
  {
    HashStepIsTimes31(HashState(units[..|units| - 1]), units[|units| - 1]);
  }

  // ---------------------------------------------------------------------
  // isValidFingerprint
  // ---------------------------------------------------------------------

  /** `isValidFingerprint`: the same expression `validateFingerprint` uses,
      applied to the string as it is, without trimming. */
  predicate IsValidFingerprint(s: string) {
    V.FingerprintFormat(s)
  }

  /** Whatever `isValidFingerprint` accepts, `validateFingerprint` accepts
      unchanged apart from lower-casing. */
  lemma ValidImpliesValidated(s: string)
    requires IsValidFingerprint(s)
    ensures V.ValidateFingerprint(s).isValid
    ensures V.ValidateFingerprint(s).sanitized == Some(LowerString(s))
  {
    TrimNoOp(s);
  }

  /** The converse fails: surrounding whitespace is trimmed by one and not
      by the other. A valid fingerprint behind one whitespace character is
      accepted by `validateFingerprint` and rejected by
      `isValidFingerprint`. */
  lemma ValidatedNotValid(c: char, t: string)
    requires IsWhitespace(c) && IsValidFingerprint(t)
    ensures V.ValidateFingerprint([c] + t).isValid
    ensures V.ValidateFingerprint([c] + t).sanitized == Some(LowerString(t))
    ensures !IsValidFingerprint([c] + t)
  {
    TrimDropsLeadingWhitespace(c, t);
    assert !IsWhitespace(t[0]) && !IsWhitespace(t[|t| - 1]);
    TrimNoOp(t);
    assert !IsHexDigit(([c] + t)[0]);
  }

  /** Every `simpleHash` output is a valid fingerprint, and survives
      `validateFingerprint` unchanged. */
  lemma SimpleHashIsValid(str: string)
    ensures IsValidFingerprint(SimpleHash(str))
    ensures V.ValidateFingerprint(SimpleHash(str)).sanitized == Some(SimpleHash(str))
  {
    LowerHexIsValid(SimpleHash(str));
  }

  /** Eight lower-case hexadecimal digits form a valid fingerprint that
      `validateFingerprint` returns unchanged. */
  lemma LowerHexIsValid(h: string)
    requires |h| == 8 && AllHex(h)
    requires forall i :: 0 <= i < 8 ==> !('A' <= h[i] <= 'Z')
    ensures IsValidFingerprint(h)
    ensures V.ValidateFingerprint(h).sanitized == Some(h)
  {
    assert LowerString(h) == h by {
      LowerNoUpper(h);
    }
    assert V.ValidateFingerprint(h).sanitized == Some(LowerString(h)) by {
      ValidImpliesValidated(h);
    }
  }

  // ---------------------------------------------------------------------
  // Digest encoding
  // ---------------------------------------------------------------------

  predicate IsByte(b: int) {
    0 <= b < 256
  }

  /** `b.toString(16).padStart(2, '0')`. */
  function ByteHex(b: int): (s: string)
    requires IsByte(b)
    ensures |s| == 2 && AllHex(s) && HexValue(s) == b
    ensures !('A' <= s[0] <= 'Z') && !('A' <= s[1] <= 'Z')
  {
    PaddedByte(b);
    PadStart(NatToHex(b), 2, '0')
  }

  /** A byte has at most two hexadecimal digits, so padding it to two only
      adds leading zeros. */
  lemma PaddedByte(b: int)
    requires IsByte(b)
    ensures var s := PadStart(NatToHex(b), 2, '0');
      && |s| == 2 && AllHex(s) && HexValue(s) == b
      && !('A' <= s[0] <= 'Z') && !('A' <= s[1] <= 'Z')
  {
    var digits := NatToHex(b);
    TwoHexDigits(b);
    HexRoundTrip(b);
    LeadingZeros(2 - |digits|, digits);
    assert PadStart(digits, 2, '0') == Repeat('0', 2 - |digits|) + digits;
  }

  lemma TwoHexDigits(b: int)
    requires IsByte(b)
    ensures |NatToHex(b)| <= 2
  {
    assert Pow16(2) == 256;
    NatToHexLength(b, 2);
  }

  /** Hexadecimal digits with no upper-case letter. */
  predicate IsLowerHex(s: string) {
    AllHex(s) && forall i :: 0 <= i < |s| ==> !('A' <= s[i] <= 'Z')
  }

  lemma ConcatLowerHex(a: string, b: string)
    requires IsLowerHex(a) && IsLowerHex(b)
    ensures IsLowerHex(a + b)
  {
    var c := a + b;
    forall i | 0 <= i < |c| ensures IsHexDigit(c[i]) && !('A' <= c[i] <= 'Z') {
      if i < |a| { assert c[i] == a[i]; } else { assert c[i] == b[i - |a|]; }
    }
  }

  /** `hashArray.map(...).join('')`. */
  function EncodeDigest(bytes: seq<int>): (s: string)
    requires forall i :: 0 <= i < |bytes| ==> IsByte(bytes[i])
    ensures |s| == 2 * |bytes| && IsLowerHex(s)
  {
    if |bytes| == 0 then ""
    else
      var head := ByteHex(bytes[0]);
      var tail := EncodeDigest(bytes[1..]);
      ConcatLowerHex(head, tail);
      head + tail
  }

  /** Reads a digest back from its encoding, two digits per byte. */
  function DecodeDigest(s: string): seq<int>
    requires AllHex(s)
  {
    if |s| < 2 then [] else [HexValue(s[..2])] + DecodeDigest(s[2..])
  }

  /** The encoding is faithful: decoding gives the bytes back. */
  lemma {:induction false} DigestRoundTrip(bytes: seq<int>)
    requires forall i :: 0 <= i < |bytes| ==> IsByte(bytes[i])
    ensures DecodeDigest(EncodeDigest(bytes)) == bytes
  {
    if |bytes| > 0 {
      var s := EncodeDigest(bytes);
      assert s[..2] == ByteHex(bytes[0]);
      assert s[2..] == EncodeDigest(bytes[1..]);
      DigestRoundTrip(bytes[1..]);
    }
  }

  /** A SHA-256 digest (32 bytes) encodes to a 64-digit valid fingerprint. */
  lemma Sha256DigestIsValid(bytes: seq<int>)
    requires |bytes| == 32 && forall i :: 0 <= i < |bytes| ==> IsByte(bytes[i])
    ensures |EncodeDigest(bytes)| == 64 && IsValidFingerprint(EncodeDigest(bytes))
  {
  }

  /** `hashFingerprint`: the encoded digest, or `simpleHash` of the input
      when the digest call fails. */
  function HashFingerprint(fingerprint: string, digest: Option<seq<int>>): (r: string)
    requires digest.Some? ==> forall i :: 0 <= i < |digest.value| ==> IsByte(digest.value[i])
    ensures AllHex(r)
    ensures digest.None? ==> r == SimpleHash(fingerprint)
    ensures digest.Some? ==> |r| == 2 * |digest.value| && DecodeDigest(r) == digest.value
  {
    if digest.None? then SimpleHash(fingerprint)
    else
      var s := EncodeDigest(digest.value);
      DigestRoundTrip(digest.value);
      s
  }

  /** Either way, `hashFingerprint` of a 32-byte digest yields a valid
      fingerprint. */
  lemma HashFingerprintIsValid(fingerprint: string, digest: Option<seq<int>>)
    requires digest.Some? ==> |digest.value| == 32 && forall i :: 0 <= i < 32 ==> IsByte(digest.value[i])
    ensures IsValidFingerprint(HashFingerprint(fingerprint, digest))
  {
    if digest.None? {
      SimpleHashIsValid(fingerprint);
    }
  }
}

=== FILE: image_generation.dfy ===
/** The server actions of `src/actions/image-generation.ts`:
    `generateImageWithLimits` (validate, check the limit, generate, commit)
    and `getUserUsageStatus`.

    The session lookup (`auth()`) and the generator
    (`callImageGenerationAPI`) are outside the model; their outcomes are
    parameters. The result carries a trace of which calls were made. */
module ImageGeneration {
  import opened Wrappers
  import opened JsStrings
  import opened UsageLimits
  import V = Validation
  import UV = UsageVerification
  import U = Users
  import A = AnonymousUsage

  datatype GenerationErrorType =
    | NetworkError
    | ApiError
    | LimitExceeded
    | GenerationFailed
    | ValidationError

  datatype GenerationError = GenerationError(
    errorType: GenerationErrorType,
    message: string,
    retryable: bool,
    upgradeRequired: Option<bool>)

  /** `GenerationResult` extended with the usage status. */
  datatype GenerationResult = GenerationResult(
    success: bool,
    imageUrl: Option<string>,
    error: Option<GenerationError>,
    remainingGenerations: Option<int>,
    usageStatus: Option<UsageStatus>)

  /** What `auth()` yields: it throws, or gives a session whose user uuid
      may be absent. */
  datatype SessionOutcome = AuthFailed | SessionFound(uuid: Option<string>)

  /** One reading of the clock: the time, `getCurrentDateString()` and
      `getNextDayReset()`. The check and the commit each read it. */
  datatype Clock = Clock(now: int, today: string, nextReset: int)

  /** Whose limit is checked and committed. */
  datatype Principal = User(uuid: string) | Fingerprint(hash: string)

  /** Which of the effectful calls a run made, with their arguments. */
  datatype Trace = Trace(
    limitCheck: Option<Principal>,
    generatorCall: Option<(string, bool)>,
    commit: Option<Principal>)

  const NoCalls: Trace := Trace(None, None, None)

  /** Which store calls throw. */
  datatype Faults = Faults(check: bool, commit: bool)

  /** `x || fallback` on an optional string: absent and empty are falsy. */
  function OrElse(x: Option<string>, fallback: string): (r: string)
    ensures x.Some? && x.value != "" ==> r == x.value
    ensures x.None? || x.value == "" ==> r == fallback
  {
    if x.Some? && x.value != "" then x.value else fallback
  }

  function Failure(t: GenerationErrorType, message: string, retryable: bool): GenerationResult {
    GenerationResult(false, None, Some(GenerationError(t, message, retryable, None)), None, None)
  }

  const UnexpectedFailure: GenerationResult :=
    Failure(GenerationFailed, "An unexpected error occurred during image generation", true)

  /** `session?.user?.uuid || null`. */
  function SessionUser(s: SessionOutcome): Option<string>
    requires s.SessionFound?
  {
    if s.uuid.Some? && s.uuid.value != "" then s.uuid else None
  }

  /** `generateImageWithLimits`. `generated` is what the generator returns
      if it is called with the sanitised prompt. */
  function GenerateImageWithLimits(
    e: UV.Env, prompt: string, fingerprintHash: string, highQuality: bool,
    session: SessionOutcome, generated: GenerationResult,
    atCheck: Clock, atCommit: Clock, faults: Faults, localeTime: int -> string)
    : (r: (UV.Env, GenerationResult, Trace))
    requires UV.ValidEnv(e)
    ensures UV.ValidEnv(r.0)
    // Validation comes first and touches nothing.
    ensures !V.ValidatePrompt(prompt).isValid ==>
      && r.0 == e && r.2 == NoCalls
      && r.1 == Failure(GenerationErrorType.ValidationError, OrElse(V.ValidatePrompt(prompt).error, "Invalid prompt"), false)
    ensures V.ValidatePrompt(prompt).isValid && !V.ValidateFingerprint(fingerprintHash).isValid ==>
      && r.0 == e && r.2 == NoCalls
      && r.1 == Failure(GenerationErrorType.ValidationError, OrElse(V.ValidateFingerprint(fingerprintHash).error, "Invalid device fingerprint"), false)
    // A failing `auth()` ends the run before any call.
    ensures V.ValidatePrompt(prompt).isValid && V.ValidateFingerprint(fingerprintHash).isValid && session.AuthFailed? ==>
      r == (e, UnexpectedFailure, NoCalls)
    // The generator is called only after an admitted check, with the
    // sanitised prompt.
    ensures r.2.generatorCall.Some? ==>
      && r.2.limitCheck.Some?
      && r.2.generatorCall.value == (V.ValidatePrompt(prompt).sanitized.value, highQuality)
    // A commit happens only after a successful generation.
    ensures r.2.commit.Some? ==> r.2.generatorCall.Some? && generated.success && r.2.commit == r.2.limitCheck
    ensures r.2.generatorCall.Some? && generated.success ==> r.2.commit.Some?
    // The tables change only through a commit.
    ensures r.2.commit.None? ==> r.0.users == e.users && r.0.anon == e.anon
    // Whatever the commit does, a generated image is reported as success.
    ensures r.2.generatorCall.Some? ==> r.1.success == generated.success && r.1.imageUrl == generated.imageUrl
    ensures r.2.generatorCall.Some? ==> r.1.usageStatus.Some?
  {
    var pv := V.ValidatePrompt(prompt);
    if !pv.isValid then (e, Failure(GenerationErrorType.ValidationError, OrElse(pv.error, "Invalid prompt"), false), NoCalls)
    else
      var fv := V.ValidateFingerprint(fingerprintHash);
      if !fv.isValid then (e, Failure(GenerationErrorType.ValidationError, OrElse(fv.error, "Invalid device fingerprint"), false), NoCalls)
      else if session.AuthFailed? then (e, UnexpectedFailure, NoCalls)
      else CheckAndGenerate(e, Route(session, fv.sanitized.value), pv.sanitized.value, highQuality, generated,
        atCheck, atCommit, faults, localeTime)
  }

  /** The session's user when there is one, else the sanitised
      fingerprint. */
  function Route(session: SessionOutcome, sanitizedFingerprint: string): Principal
    requires session.SessionFound?
  {
    match SessionUser(session)
    case Some(u) => User(u)
    case None => Fingerprint(sanitizedFingerprint)
  }

  /** The run once both inputs are valid and the session is known: check
      `who`'s limit, call the generator only when admitted, and commit only
      after a successful generation. */
  function CheckAndGenerate(
    e: UV.Env, who: Principal, sanitizedPrompt: string, highQuality: bool, generated: GenerationResult,
    atCheck: Clock, atCommit: Clock, faults: Faults, localeTime: int -> string)
    : (r: (UV.Env, GenerationResult, Trace))
    requires UV.ValidEnv(e)
    ensures UV.ValidEnv(r.0)
    ensures r.2.limitCheck == Some(who)
    ensures r.2.generatorCall.Some? ==> r.2.generatorCall.value == (sanitizedPrompt, highQuality)
    ensures r.2.commit.Some? ==> r.2.generatorCall.Some? && generated.success && r.2.commit == Some(who)
    ensures r.2.generatorCall.Some? && generated.success ==> r.2.commit.Some?
    ensures r.2.commit.None? ==> r.0.users == e.users && r.0.anon == e.anon
    ensures r.2.generatorCall.Some? ==> r.1.success == generated.success && r.1.imageUrl == generated.imageUrl
    ensures r.2.generatorCall.Some? ==> r.1.usageStatus.Some?
  {
    var (e1, check) := Check(e, who, atCheck.now, atCheck.today, atCheck.nextReset, faults.check, localeTime);
    if !check.canUse then
      var err := GenerationError(
        LimitExceeded,
        OrElse(if check.error.Some? then Some(check.error.value.message) else None, "Usage limit exceeded"),
        false,
        if check.error.Some? then check.error.value.upgradeRequired else None);
      (e1, GenerationResult(false, None, Some(err), None, Some(check.usageStatus)), Trace(Some(who), None, None))
    else if !generated.success then
      (e1, generated.(usageStatus := Some(check.usageStatus)), Trace(Some(who), Some((sanitizedPrompt, highQuality)), None))
    else
      var (e2, status) := Commit(e1, who, check.usageStatus, atCommit.now, atCommit.today, atCommit.nextReset, faults.commit);
      (e2, generated.(usageStatus := Some(status)), Trace(Some(who), Some((sanitizedPrompt, highQuality)), Some(who)))
  }

  /** Past validation and `auth()`, a run is `CheckAndGenerate` for the
      routed principal. */
  lemma ValidatedRun(
    e: UV.Env, prompt: string, fingerprintHash: string, highQuality: bool,
    session: SessionOutcome, generated: GenerationResult,
    atCheck: Clock, atCommit: Clock, faults: Faults, localeTime: int -> string)
    requires UV.ValidEnv(e)
    requires V.ValidatePrompt(prompt).isValid && V.ValidateFingerprint(fingerprintHash).isValid
    requires session.SessionFound?
    ensures GenerateImageWithLimits(e, prompt, fingerprintHash, highQuality, session, generated,
        atCheck, atCommit, faults, localeTime)
      == CheckAndGenerate(e, Route(session, LowerString(Trim(fingerprintHash))), V.ValidatePrompt(prompt).sanitized.value,
        highQuality, generated, atCheck, atCommit, faults, localeTime)
  {
  }

  /** The limit check for a principal. */
  function Check(e: UV.Env, who: Principal, now: int, today: string, nextReset: int, fault: bool, localeTime: int -> string)
    : (r: (UV.Env, UsageCheckResult))
    requires UV.ValidEnv(e)
    ensures UV.ValidEnv(r.0) && r.0.users == e.users && r.0.anon == e.anon
    ensures !r.1.canUse ==> r.1.error.Some?
    ensures who.User? ==> r == UV.CheckAuthenticated(e, who.uuid, now, today, nextReset, fault, localeTime)
    ensures who.Fingerprint? ==> r == UV.CheckAnonymous(e, who.hash, now, fault, localeTime)
  {
    match who
    case User(u) => UV.CheckAuthenticated(e, u, now, today, nextReset, fault, localeTime)
    case Fingerprint(fp) => UV.CheckAnonymous(e, fp, now, fault, localeTime)
  }

  /** The commit after a successful generation. A commit that throws is
      swallowed: the environment is as before and the pre-check status is
      reported. */
  function Commit(e: UV.Env, who: Principal, checked: UsageStatus, now: int, today: string, nextReset: int, fault: bool)
    : (r: (UV.Env, UsageStatus))
    requires UV.ValidEnv(e)
    ensures UV.ValidEnv(r.0)
    ensures who.User? && UV.UpdateAuthenticated(e, who.uuid, now, today, nextReset, fault).Ok? ==>
      r == UV.UpdateAuthenticated(e, who.uuid, now, today, nextReset, fault).value
    ensures who.Fingerprint? && UV.UpdateAnonymous(e, who.hash, now, fault).Ok? ==>
      r == UV.UpdateAnonymous(e, who.hash, now, fault).value
    ensures who.User? && UV.UpdateAuthenticated(e, who.uuid, now, today, nextReset, fault).Err? ==> r == (e, checked)
    ensures who.Fingerprint? && UV.UpdateAnonymous(e, who.hash, now, fault).Err? ==> r == (e, checked)
  {
    var outcome := match who
      case User(u) => UV.UpdateAuthenticated(e, u, now, today, nextReset, fault)
      case Fingerprint(fp) => UV.UpdateAnonymous(e, fp, now, fault);
    match outcome
    case Ok(v) => v
    case Err(_) => (e, checked)
  }

  /** A signed-in session is checked as that user; otherwise the check is on
      the trimmed, lower-cased fingerprint. */
  lemma RoutesBySession(
    e: UV.Env, prompt: string, fingerprintHash: string, highQuality: bool,
    session: SessionOutcome, generated: GenerationResult,
    atCheck: Clock, atCommit: Clock, faults: Faults, localeTime: int -> string)
    requires UV.ValidEnv(e)
    requires V.ValidatePrompt(prompt).isValid && V.ValidateFingerprint(fingerprintHash).isValid
    requires session.SessionFound?
    ensures var t := GenerateImageWithLimits(e, prompt, fingerprintHash, highQuality, session, generated,
      atCheck, atCommit, faults, localeTime).2;
      t.limitCheck == Some(
        if session.uuid.Some? && session.uuid.value != "" then User(session.uuid.value)
        else Fingerprint(LowerString(Trim(fingerprintHash))))
  {
    ValidatedRun(e, prompt, fingerprintHash, highQuality, session, generated, atCheck, atCommit, faults, localeTime);
  }

  /** A denied check ends the run: the generator is never called, and the
      result carries the check's status and upgrade flag. */
  lemma DeniedNeverGenerates(
    e: UV.Env, prompt: string, fingerprintHash: string, highQuality: bool,
    session: SessionOutcome, generated: GenerationResult,
    atCheck: Clock, atCommit: Clock, faults: Faults, localeTime: int -> string)
    requires UV.ValidEnv(e)
    requires V.ValidatePrompt(prompt).isValid && V.ValidateFingerprint(fingerprintHash).isValid
    requires session.SessionFound?
    ensures var (e', r, t) := GenerateImageWithLimits(e, prompt, fingerprintHash, highQuality, session, generated,
      atCheck, atCommit, faults, localeTime);
      var check := Check(e, t.limitCheck.value, atCheck.now, atCheck.today, atCheck.nextReset, faults.check, localeTime).1;
      !check.canUse ==>
        && t.generatorCall.None? && t.commit.None?
        && !r.success && r.error.value.errorType == LimitExceeded && !r.error.value.retryable
        && r.error.value.upgradeRequired == check.error.value.upgradeRequired
        && r.usageStatus == Some(check.usageStatus)
  {
    ValidatedRun(e, prompt, fingerprintHash, highQuality, session, generated, atCheck, atCommit, faults, localeTime);
    DeniedStops(e, Route(session, LowerString(Trim(fingerprintHash))), V.ValidatePrompt(prompt).sanitized.value,
      highQuality, generated, atCheck, atCommit, faults, localeTime);
  }

  lemma DeniedStops(
    e: UV.Env, who: Principal, sanitizedPrompt: string, highQuality: bool, generated: GenerationResult,
    atCheck: Clock, atCommit: Clock, faults: Faults, localeTime: int -> string)
    requires UV.ValidEnv(e)
    ensures var (e', r, t) := CheckAndGenerate(e, who, sanitizedPrompt, highQuality, generated,
      atCheck, atCommit, faults, localeTime);
      var check := Check(e, who, atCheck.now, atCheck.today, atCheck.nextReset, faults.check, localeTime).1;
      !check.canUse ==>
        && t.generatorCall.None? && t.commit.None?
        && !r.success && r.error.value.errorType == LimitExceeded && !r.error.value.retryable
        && r.error.value.upgradeRequired == check.error.value.upgradeRequired
        && r.usageStatus == Some(check.usageStatus)
  {
  }

  /** A failed generation reports the pre-check status and commits
      nothing. */
  lemma FailedGenerationKeepsStatus(
    e: UV.Env, prompt: string, fingerprintHash: string, highQuality: bool,
    session: SessionOutcome, generated: GenerationResult,
    atCheck: Clock, atCommit: Clock, faults: Faults, localeTime: int -> string)
    requires UV.ValidEnv(e)
    requires !generated.success
    ensures var (e', r, t) := GenerateImageWithLimits(e, prompt, fingerprintHash, highQuality, session, generated,
      atCheck, atCommit, faults, localeTime);
      && t.commit.None? && e'.users == e.users && e'.anon == e.anon
      && (t.generatorCall.Some? ==>
            r.usageStatus == Some(Check(e, t.limitCheck.value, atCheck.now, atCheck.today, atCheck.nextReset, faults.check, localeTime).1.usageStatus))
  {
    if V.ValidatePrompt(prompt).isValid && V.ValidateFingerprint(fingerprintHash).isValid && session.SessionFound? {
      ValidatedRun(e, prompt, fingerprintHash, highQuality, session, generated, atCheck, atCommit, faults, localeTime);
      FailedGenerationStops(e, Route(session, LowerString(Trim(fingerprintHash))), V.ValidatePrompt(prompt).sanitized.value,
        highQuality, generated, atCheck, atCommit, faults, localeTime);
    }
  }

  lemma FailedGenerationStops(
    e: UV.Env, who: Principal, sanitizedPrompt: string, highQuality: bool, generated: GenerationResult,
    atCheck: Clock, atCommit: Clock, faults: Faults, localeTime: int -> string)
    requires UV.ValidEnv(e) && !generated.success
    ensures var (e', r, t) := CheckAndGenerate(e, who, sanitizedPrompt, highQuality, generated,
      atCheck, atCommit, faults, localeTime);
      t.generatorCall.Some? ==> r.usageStatus == Some(Check(e, who, atCheck.now, atCheck.today, atCheck.nextReset, faults.check, localeTime).1.usageStatus)
  {
  }

  /** A failing commit never fails the user's result: the image is
      returned with the pre-check status and the tables are unchanged. */
  lemma FailedCommitStillSucceeds(
    e: UV.Env, prompt: string, fingerprintHash: string, highQuality: bool,
    session: SessionOutcome, generated: GenerationResult,
    atCheck: Clock, atCommit: Clock, checkFault: bool, localeTime: int -> string)
    requires UV.ValidEnv(e)
    requires generated.success
    ensures var (e', r, t) := GenerateImageWithLimits(e, prompt, fingerprintHash, highQuality, session, generated,
      atCheck, atCommit, Faults(checkFault, true), localeTime);
      t.generatorCall.Some? ==>
        && r.success && r.imageUrl == generated.imageUrl
        && e'.users == e.users && e'.anon == e.anon
        && r.usageStatus == Some(Check(e, t.limitCheck.value, atCheck.now, atCheck.today, atCheck.nextReset, checkFault, localeTime).1.usageStatus)
  {
    var faults := Faults(checkFault, true);
    if V.ValidatePrompt(prompt).isValid && V.ValidateFingerprint(fingerprintHash).isValid && session.SessionFound? {
      ValidatedRun(e, prompt, fingerprintHash, highQuality, session, generated, atCheck, atCommit, faults, localeTime);
      CommitFaultSwallowed(e, Route(session, LowerString(Trim(fingerprintHash))), V.ValidatePrompt(prompt).sanitized.value,
        highQuality, generated, atCheck, atCommit, checkFault, localeTime);
    }
  }

  lemma CommitFaultSwallowed(
    e: UV.Env, who: Principal, sanitizedPrompt: string, highQuality: bool, generated: GenerationResult,
    atCheck: Clock, atCommit: Clock, checkFault: bool, localeTime: int -> string)
    requires UV.ValidEnv(e) && generated.success
    ensures var (e', r, t) := CheckAndGenerate(e, who, sanitizedPrompt, highQuality, generated,
      atCheck, atCommit, Faults(checkFault, true), localeTime);
      t.generatorCall.Some? ==>
        && r.success && r.imageUrl == generated.imageUrl
        && e'.users == e.users && e'.anon == e.anon
        && r.usageStatus == Some(Check(e, who, atCheck.now, atCheck.today, atCheck.nextReset, checkFault, localeTime).1.usageStatus)
  {
  }

  /** The commit reads the clock again: a free account checked before
      midnight whose image arrives after it is committed on the new day,
      starting that day's count at 1. */
  lemma CommitAfterMidnightStartsNewDay(
    e: UV.Env, u: string, sanitizedPrompt: string, highQuality: bool, generated: GenerationResult,
    atCheck: Clock, atCommit: Clock, checkFault: bool, localeTime: int -> string)
    requires UV.ValidEnv(e) && generated.success && atCommit.today != ""
    requires U.GetUserUsageInfo(e.users, u).Some?
    requires EffectivePlan(U.GetUserUsageInfo(e.users, u).value.plan) == Free
    requires U.GetUserUsageInfo(e.users, u).value.lastUsageDate != Some(atCommit.today)
    ensures var (e', r, t) := CheckAndGenerate(e, User(u), sanitizedPrompt, highQuality, generated,
      atCheck, atCommit, Faults(checkFault, false), localeTime);
      t.generatorCall.Some? ==>
        && t.commit == Some(User(u))
        && U.GetUserUsageInfo(e'.users, u).Some?
        && U.GetUserUsageInfo(e'.users, u).value.usageCount == 1
        && U.GetUserUsageInfo(e'.users, u).value.lastUsageDate == Some(atCommit.today)
        && r.usageStatus == Some(UV.FreeStatus(1, atCommit.nextReset))
        && r.usageStatus.value.remainingCount == FreeDailyLimit - 1 && r.usageStatus.value.canUse
  {
  }

  // ---------------------------------------------------------------------
  // The caps
  // ---------------------------------------------------------------------

  /** No fingerprint has used more than the anonymous limit. */
  predicate AnonymousCapped(t: A.AnonTable) {
    forall i :: 0 <= i < |t.rows| ==> t.rows[i].usageCount <= AnonymousLimit
  }

  /** No free account has used more than the daily limit on `today`. */
  predicate DailyCapped(users: seq<U.UserRow>, today: string) {
    forall i :: 0 <= i < |users| && users[i].lastUsageDate == Some(today) ==>
      EffectivePlan(users[i].plan) == Free ==> users[i].usageCount <= FreeDailyLimit
  }

  /** Both caps, over a coherent cache. */
  ghost predicate Capped(e: UV.Env, today: string) {
    UV.ValidEnv(e) && UV.Coherent(e) && AnonymousCapped(e.anon) && DailyCapped(e.users, today)
  }

  /** The commit's clock reading is on the check's day, or on a day no
      account has used yet: the clock has not gone back past a stored
      date. */
  predicate CommitDayFollows(users: seq<U.UserRow>, atCheck: Clock, atCommit: Clock) {
    || atCommit.today == atCheck.today
    || (forall i :: 0 <= i < |users| ==> users[i].lastUsageDate != Some(atCommit.today))
  }

  /** A check followed, when it grants, by a commit keeps both caps and the
      cache's coherence, whichever store call fails, also when the commit
      falls on a later day than the check. */
  lemma {:induction false} GrantedCommitKeepsCaps(
    e: UV.Env, who: Principal, atCheck: Clock, atCommit: Clock,
    checkFault: bool, commitFault: bool, localeTime: int -> string)
    requires Capped(e, atCheck.today) && atCheck.today != "" && atCommit.today != ""
    requires CommitDayFollows(e.users, atCheck, atCommit)
    ensures var (e1, check) := Check(e, who, atCheck.now, atCheck.today, atCheck.nextReset, checkFault, localeTime);
      && Capped(e1, atCommit.today)
      && (check.canUse ==>
            Capped(Commit(e1, who, check.usageStatus, atCommit.now, atCommit.today, atCommit.nextReset, commitFault).0,
              atCommit.today))
  {
    match who
    case User(u) => UserGrantKeepsCaps(e, u, atCheck, atCommit, checkFault, commitFault, localeTime);
    case Fingerprint(fp) => AnonymousGrantKeepsCaps(e, fp, atCheck, atCommit, checkFault, commitFault, localeTime);
  }

  lemma UserGrantKeepsCaps(
    e: UV.Env, u: string, atCheck: Clock, atCommit: Clock,
    checkFault: bool, commitFault: bool, localeTime: int -> string)
    requires Capped(e, atCheck.today) && atCheck.today != "" && atCommit.today != ""
    requires CommitDayFollows(e.users, atCheck, atCommit)
    ensures var (e1, check) := UV.CheckAuthenticated(e, u, atCheck.now, atCheck.today, atCheck.nextReset, checkFault, localeTime);
      && Capped(e1, atCommit.today)
      && (check.canUse ==>
            Capped(Commit(e1, User(u), check.usageStatus, atCommit.now, atCommit.today, atCommit.nextReset, commitFault).0,
              atCommit.today))
  {
    var (e1, check) := UV.CheckAuthenticated(e, u, atCheck.now, atCheck.today, atCheck.nextReset, checkFault, localeTime);
    UV.CheckAuthenticatedCoherent(e, u, atCheck.now, atCheck.today, atCheck.nextReset, checkFault, localeTime);
    var r := UV.UpdateAuthenticated(e1, u, atCommit.now, atCommit.today, atCommit.nextReset, commitFault);
    if check.canUse && r.Ok? {
      UV.UpdateAuthenticatedCoherent(e1, u, atCommit.now, atCommit.today, atCommit.nextReset);
      if atCommit.today != atCheck.today {
        NewDayCommitKeepsDailyCap(e1, u, atCommit);
      } else if check.usageStatus.plan == Some(Free) {
        UV.FreeGrantStaysWithinLimit(e, u, atCheck.now, atCommit.now, atCheck.today, atCheck.nextReset, atCommit.nextReset,
          checkFault, localeTime);
        var after := r.value.0.users;
        forall i | 0 <= i < |after| && after[i].lastUsageDate == Some(atCommit.today) && EffectivePlan(after[i].plan) == Free
          ensures after[i].usageCount <= FreeDailyLimit
        {
          if after[i].uuid == u {
            U.GetUserUsageInfoIsTheRow(after, after[i]);
          } else {
            assert after[i] == e1.users[i];
          }
        }
      }
    }
  }

  /** A commit on a day no account has used yet starts the committing
      account's count afresh at 1, so the new day's cap holds. */
  lemma NewDayCommitKeepsDailyCap(e: UV.Env, u: string, atCommit: Clock)
    requires UV.ValidEnv(e) && atCommit.today != ""
    requires forall i :: 0 <= i < |e.users| ==> e.users[i].lastUsageDate != Some(atCommit.today)
    ensures var r := UV.UpdateAuthenticated(e, u, atCommit.now, atCommit.today, atCommit.nextReset, false);
      r.Ok? ==> DailyCapped(r.value.0.users, atCommit.today)
  {
    var r := UV.UpdateAuthenticated(e, u, atCommit.now, atCommit.today, atCommit.nextReset, false);
    if r.Ok? && r.value.1.plan != Some(Paid) {
      var after := r.value.0.users;
      forall i | 0 <= i < |after| && after[i].lastUsageDate == Some(atCommit.today) && EffectivePlan(after[i].plan) == Free
        ensures after[i].usageCount <= FreeDailyLimit
      {
        if after[i].uuid == u {
          U.GetUserUsageInfoIsTheRow(after, after[i]);
        }
      }
    }
  }

  lemma AnonymousGrantKeepsCaps(
    e: UV.Env, fp: string, atCheck: Clock, atCommit: Clock,
    checkFault: bool, commitFault: bool, localeTime: int -> string)
    requires Capped(e, atCheck.today) && atCheck.today != "" && atCommit.today != ""
    requires CommitDayFollows(e.users, atCheck, atCommit)
    ensures var (e1, check) := UV.CheckAnonymous(e, fp, atCheck.now, checkFault, localeTime);
      && Capped(e1, atCommit.today)
      && (check.canUse ==>
            Capped(Commit(e1, Fingerprint(fp), check.usageStatus, atCommit.now, atCommit.today, atCommit.nextReset, commitFault).0,
              atCommit.today))
  {
    var (e1, check) := UV.CheckAnonymous(e, fp, atCheck.now, checkFault, localeTime);
    UV.CheckAnonymousCoherent(e, fp, atCheck.now, checkFault, localeTime);
    if check.canUse && !commitFault {
      UV.AnonymousGrantStaysWithinLimit(e, fp, atCheck.now, atCommit.now, checkFault, localeTime);
      UpsertKeepsCapped(e1.anon, fp, atCommit.now);
    }
  }

  /** An upsert that leaves its own row within the anonymous limit keeps
      the whole table within it. */
  lemma UpsertKeepsCapped(before: A.AnonTable, fp: string, now: int)
    requires A.Valid(before) && AnonymousCapped(before)
    requires A.Upsert(before, fp, now).1.usageCount <= AnonymousLimit
    ensures AnonymousCapped(A.Upsert(before, fp, now).0)
  {
    var after := A.Upsert(before, fp, now).0;
    forall i | 0 <= i < |after.rows| ensures after.rows[i].usageCount <= AnonymousLimit {
      var row := after.rows[i];
      A.FindIsTheRow(after, row);
      if row.fingerprintHash != fp {
        var j :| 0 <= j < |before.rows| && before.rows[j] == A.Find(before, row.fingerprintHash).value;
      }
    }
  }

  /** Every run of `generateImageWithLimits` keeps both caps: however the
      store and the generator behave, and whether or not midnight passes
      between the check and the commit, no fingerprint passes the
      anonymous limit and no free account passes the commit day's limit. */
  lemma {:induction false} GenerationKeepsCaps(
    e: UV.Env, prompt: string, fingerprintHash: string, highQuality: bool,
    session: SessionOutcome, generated: GenerationResult,
    atCheck: Clock, atCommit: Clock, faults: Faults, localeTime: int -> string)
    requires Capped(e, atCheck.today) && atCheck.today != "" && atCommit.today != ""
    requires CommitDayFollows(e.users, atCheck, atCommit)
    ensures Capped(GenerateImageWithLimits(e, prompt, fingerprintHash, highQuality, session, generated,
      atCheck, atCommit, faults, localeTime).0, atCommit.today)
  {
    if V.ValidatePrompt(prompt).isValid && V.ValidateFingerprint(fingerprintHash).isValid && session.SessionFound? {
      ValidatedRun(e, prompt, fingerprintHash, highQuality, session, generated, atCheck, atCommit, faults, localeTime);
      CheckAndGenerateKeepsCaps(e, Route(session, LowerString(Trim(fingerprintHash))), V.ValidatePrompt(prompt).sanitized.value,
        highQuality, generated, atCheck, atCommit, faults, localeTime);
    } else {
      NoRunKeepsCaps(e, atCheck, atCommit);
    }
  }

  /** A run that stops before the check leaves the tables as they were,
      and they are capped on the commit day as well. */
  lemma NoRunKeepsCaps(e: UV.Env, atCheck: Clock, atCommit: Clock)
    requires Capped(e, atCheck.today)
    requires CommitDayFollows(e.users, atCheck, atCommit)
    ensures Capped(e, atCommit.today)
  {
  }

  lemma CheckAndGenerateKeepsCaps(
    e: UV.Env, who: Principal, sanitizedPrompt: string, highQuality: bool, generated: GenerationResult,
    atCheck: Clock, atCommit: Clock, faults: Faults, localeTime: int -> string)
    requires Capped(e, atCheck.today) && atCheck.today != "" && atCommit.today != ""
    requires CommitDayFollows(e.users, atCheck, atCommit)
    ensures Capped(CheckAndGenerate(e, who, sanitizedPrompt, highQuality, generated, atCheck, atCommit, faults, localeTime).0,
      atCommit.today)
  {
    GrantedCommitKeepsCaps(e, who, atCheck, atCommit, faults.check, faults.commit, localeTime);
  }

  // ---------------------------------------------------------------------
  // getUserUsageStatus
  // ---------------------------------------------------------------------

  /** The safe default of `getUserUsageStatus`. */
  const SafeDefault: UsageStatus := UsageStatus(Anonymous, None, 0, 5, false, None, None)

  /** `getUserUsageStatus`: an invalid fingerprint or a failing `auth()`
      gives the safe default; otherwise the current status of the session's
      user, or of the sanitised fingerprint. */
  function GetUserUsageStatus(
    e: UV.Env, fingerprintHash: string, session: SessionOutcome,
    today: string, nextReset: int, fault: bool): (s: UsageStatus)
    ensures !V.ValidateFingerprint(fingerprintHash).isValid || session.AuthFailed? ==> s == SafeDefault
    ensures V.ValidateFingerprint(fingerprintHash).isValid && session.SessionFound? ==>
      s == UV.GetCurrentUsageStatus(e, SessionUser(session), LowerString(Trim(fingerprintHash)), today, nextReset, fault)
    ensures s.userType == Anonymous ==> !s.canUse || s.remainingCount > 0
  {
    var fv := V.ValidateFingerprint(fingerprintHash);
    if !fv.isValid then SafeDefault
    else if session.AuthFailed? then SafeDefault
    else UV.GetCurrentUsageStatus(e, SessionUser(session), fv.sanitized.value, today, nextReset, fault)
  }

  /** The safe default is the anonymous default of `getCurrentUsageStatus`:
      nothing left out of the anonymous limit. */
  lemma SafeDefaultIsAnonymousDefault()
    ensures SafeDefault == UV.DefaultStatus(None)
    ensures SafeDefault.dailyLimit == AnonymousLimit && !SafeDefault.canUse
  {
  }
}

=== FILE: js_numbers.dfy ===
/** The integer corners of JavaScript number arithmetic the application
    relies on: the 32-bit conversion performed by the bitwise operators,
    `Math.ceil` of a quotient, and `Math.max(0, x)`. */
module JsNumbers {

  const TwoTo32: int := 0x1_0000_0000
  const TwoTo31: int := 0x8000_0000

  /** The abstract operation ToInt32 on an integer: the value in
      [-2^31, 2^31) congruent to `x` modulo 2^32 (what `x & x` and `x << 0`
      produce). */
  function ToInt32(x: int): (r: int)
    ensures -TwoTo31 <= r < TwoTo31
    ensures (r - x) % TwoTo32 == 0
  {
    var m := x % TwoTo32;
    if m >= TwoTo31 then m - TwoTo32 else m
  }

  /** ToInt32 only depends on its argument modulo 2^32. */
  lemma ToInt32Congruent(x: int, y: int)
    requires (x - y) % TwoTo32 == 0
    ensures ToInt32(x) == ToInt32(y)
  {
    var k := (x - y) / TwoTo32;
    assert x == y + k * TwoTo32;
    assert x % TwoTo32 == y % TwoTo32 by {
      ModShift(y, k);
    }
  }

  lemma ModShift(y: int, k: int)
    ensures (y + k * TwoTo32) % TwoTo32 == y % TwoTo32
  {
  }

  /** A value already in 32-bit range is its own ToInt32. */
  lemma ToInt32InRange(x: int)
    requires -TwoTo31 <= x < TwoTo31
    ensures ToInt32(x) == x
  {
  }

  /** `Math.ceil(a / b)` for integers and a positive divisor. */
  function CeilDiv(a: int, b: int): (q: int)
    requires b > 0
    ensures (q - 1) * b < a <= q * b
  {
    -((-a) / b)
  }

  /** `Math.max(0, x)`. */
  function NonNegative(x: int): (r: int)
    ensures r >= 0 && r >= x
    ensures r == x || r == 0
  {
    if x > 0 then x else 0
  }

  /** `Math.abs(x)`. */
  function Abs(x: int): (r: nat)
    ensures r == x || r == -x
  {
    if x < 0 then -x else x
  }
}

=== FILE: js_strings.dfy ===
/** The JavaScript string primitives the application relies on: `trim`,
    UTF-16 `length`, `toString(10)` / `toString(16)`, `padStart`,
    `split(',')[0]`, `join` and the code-unit order used by `sort()`.

    A Dafny `string` is a sequence of Unicode scalar values; a JavaScript
    string is a sequence of UTF-16 code units. `CodeUnits` relates the two,
    so that lengths and character codes are those JavaScript sees. */
module JsStrings {

  // ---------------------------------------------------------------------
  // Whitespace and trim
  // ---------------------------------------------------------------------

  /** ECMAScript WhiteSpace and LineTerminator code points: the set removed
      by `String.prototype.trim` and matched by the regular-expression
      class `\s`. */
  predicate IsWhitespace(c: char) {
    c as int in WhitespaceCodes
  }

  const WhitespaceCodes: set<int> :=
    {0x09, 0x0A, 0x0B, 0x0C, 0x0D, 0x20, 0xA0, 0x1680,
     0x2000, 0x2001, 0x2002, 0x2003, 0x2004, 0x2005, 0x2006, 0x2007, 0x2008, 0x2009, 0x200A,
     0x2028, 0x2029, 0x202F, 0x205F, 0x3000, 0xFEFF}

  /** `s` with its leading whitespace removed. */
  function TrimStart(s: string): (r: string)
    ensures |r| <= |s| && r == s[|s| - |r|..]
    ensures forall i :: 0 <= i < |s| - |r| ==> IsWhitespace(s[i])
    ensures |r| > 0 ==> !IsWhitespace(r[0])
  {
    if |s| > 0 && IsWhitespace(s[0]) then TrimStart(s[1..]) else s
  }

  /** `s` with its trailing whitespace removed. */
  function TrimEnd(s: string): (r: string)
    ensures |r| <= |s| && r == s[..|r|]
    ensures forall i :: |r| <= i < |s| ==> IsWhitespace(s[i])
    ensures |r| > 0 ==> !IsWhitespace(r[|r| - 1])
  {
    if |s| > 0 && IsWhitespace(s[|s| - 1]) then TrimEnd(s[..|s| - 1]) else s
  }

  /** The number of whitespace characters `trim` removes from the front. */
  function LeadingSpace(s: string): nat {
    |s| - |TrimStart(s)|
  }

  /** `String.prototype.trim`: the longest infix of `s` that neither starts
      nor ends with whitespace, everything cut away being whitespace. */
  function Trim(s: string): (r: string)
    ensures |r| <= |s|
    ensures |r| > 0 ==> !IsWhitespace(r[0]) && !IsWhitespace(r[|r| - 1])
    ensures LeadingSpace(s) + |r| <= |s| && r == s[LeadingSpace(s)..LeadingSpace(s) + |r|]
    ensures forall i :: 0 <= i < LeadingSpace(s) ==> IsWhitespace(s[i])
    ensures forall i :: LeadingSpace(s) + |r| <= i < |s| ==> IsWhitespace(s[i])
  {
    var a := TrimStart(s);
    var r := TrimEnd(a);
    InfixOfSuffix(s, a, r);
    r
  }

  /** A prefix `r` of a suffix `a` of `s`, whose cut-off tail is
      whitespace, is an infix of `s` followed only by whitespace. */
  lemma InfixOfSuffix(s: string, a: string, r: string)
    requires |a| <= |s| && a == s[|s| - |a|..]
    requires |r| <= |a| && r == a[..|r|]
    requires forall i :: |r| <= i < |a| ==> IsWhitespace(a[i])
    requires |a| > 0 ==> !IsWhitespace(a[0])
    ensures var lo := |s| - |a|;
      && lo + |r| <= |s| && r == s[lo..lo + |r|]
      && (|r| > 0 ==> !IsWhitespace(r[0]))
      && forall i :: lo + |r| <= i < |s| ==> IsWhitespace(s[i])
  {
    var lo := |s| - |a|;
    if |r| > 0 {
      assert r[0] == a[0];
    }
    forall i | lo + |r| <= i < |s| ensures IsWhitespace(s[i]) {
      assert s[i] == a[i - lo];
    }
  }

  /** A leading whitespace character makes no difference to `trim`. */
  lemma TrimDropsLeadingWhitespace(c: char, t: string)
    requires IsWhitespace(c)
    ensures Trim([c] + t) == Trim(t)
  {
    var s := [c] + t;
    assert s[1..] == t;
    assert TrimStart(s) == TrimStart(t);
  }

  /** Every character of the trimmed string occurs in the original. */
  lemma TrimChars(s: string)
    ensures forall c :: c in Trim(s) ==> c in s
  {
    var r := Trim(s);
    SliceChars(s, LeadingSpace(s), LeadingSpace(s) + |r|);
  }

  lemma SliceChars(s: string, lo: nat, hi: nat)
    requires lo <= hi <= |s|
    ensures forall c :: c in s[lo..hi] ==> c in s
  {
    forall c | c in s[lo..hi] ensures c in s {
      var i :| 0 <= i < hi - lo && s[lo..hi][i] == c;
      assert s[lo + i] == c;
    }
  }

  /** Visible ASCII characters are not white space. */
  lemma PrintableNotWhitespace(c: char)
    requires 0x21 <= c as int <= 0x7E
    ensures !IsWhitespace(c)
  {
  }

  /** Trimming a string that has no whitespace at either end changes nothing. */
  lemma TrimNoOp(s: string)
    requires |s| > 0 ==> !IsWhitespace(s[0]) && !IsWhitespace(s[|s| - 1])
    ensures Trim(s) == s
  {
  }

  // ---------------------------------------------------------------------
  // UTF-16 view
  // ---------------------------------------------------------------------

  /** The UTF-16 code units of one character: itself when it is in the Basic
      Multilingual Plane, a surrogate pair otherwise. */
  function CharUnits(c: char): (u: seq<int>)
    ensures 1 <= |u| <= 2
    ensures forall k :: 0 <= k < |u| ==> 0 <= u[k] <= 0xFFFF
    ensures |u| == 1 <==> c as int < 0x10000
  {
    var n := c as int;
    if n < 0x10000 then [n]
    else [0xD800 + (n - 0x10000) / 0x400, 0xDC00 + (n - 0x10000) % 0x400]
  }

  /** The code units JavaScript stores for `s` (what `charCodeAt` reads). */
  function CodeUnits(s: string): (u: seq<int>)
    ensures |u| >= |s|
    ensures forall k :: 0 <= k < |u| ==> 0 <= u[k] <= 0xFFFF
  {
    if |s| == 0 then [] else CharUnits(s[0]) + CodeUnits(s[1..])
  }

  /** `s.length` in JavaScript. */
  function JsLength(s: string): nat {
    |CodeUnits(s)|
  }

  /** A string of Basic-Multilingual-Plane characters has one code unit per
      character, each equal to the character's code. */
  lemma {:induction false} CodeUnitsBmp(s: string)
    requires forall i :: 0 <= i < |s| ==> s[i] as int < 0x10000
    ensures |CodeUnits(s)| == |s|
    ensures forall i :: 0 <= i < |s| ==> CodeUnits(s)[i] == s[i] as int
  {
    if |s| > 0 {
      CodeUnitsBmp(s[1..]);
    }
  }

  // ---------------------------------------------------------------------
  // ASCII classes
  // ---------------------------------------------------------------------

  /** The regular-expression class `\d`. */
  predicate IsDigit(c: char) {
    '0' <= c <= '9'
  }

  /** The class `[a-f0-9]` under the `i` flag. */
  predicate IsHexDigit(c: char) {
    IsDigit(c) || 'a' <= c <= 'f' || 'A' <= c <= 'F'
  }

  /** The class `\w`: ASCII letters, digits and underscore. */
  predicate IsWordChar(c: char) {
    IsDigit(c) || 'a' <= c <= 'z' || 'A' <= c <= 'Z' || c == '_'
  }

  predicate AllHex(s: string) {
    forall i :: 0 <= i < |s| ==> IsHexDigit(s[i])
  }

  predicate AllDigits(s: string) {
    forall i :: 0 <= i < |s| ==> IsDigit(s[i])
  }

  /** Lower-casing of an ASCII letter; every other character is unchanged.
      The application only lower-cases strings already known to be ASCII,
      where this agrees with `toLowerCase`. */
  function LowerAscii(c: char): (d: char)
    ensures 'A' <= c <= 'Z' ==> d as int == c as int + 32
    ensures !('A' <= c <= 'Z') ==> d == c
  {
    if 'A' <= c <= 'Z' then (c as int + 32) as char else c
  }

  /** Upper-casing of an ASCII letter; every other character is unchanged. */
  function UpperAscii(c: char): (d: char)
    ensures 'a' <= c <= 'z' ==> d as int == c as int - 32
    ensures !('a' <= c <= 'z') ==> d == c
  {
    if 'a' <= c <= 'z' then (c as int - 32) as char else c
  }

  /** `toLowerCase` on an ASCII string. */
  function LowerString(s: string): (r: string)
    ensures |r| == |s|
    ensures forall i :: 0 <= i < |s| ==> r[i] == LowerAscii(s[i])
  {
    seq(|s|, i requires 0 <= i < |s| => LowerAscii(s[i]))
  }

  /** A string without upper-case ASCII letters is its own lower-casing. */
  lemma LowerNoUpper(s: string)
    requires forall i :: 0 <= i < |s| ==> !('A' <= s[i] <= 'Z')
    ensures LowerString(s) == s
  {
  }

  // ---------------------------------------------------------------------
  // Decimal rendering and parsing
  // ---------------------------------------------------------------------

  function DigitChar(d: nat): (c: char)
    requires d < 10
    ensures IsDigit(c)
  {
    ('0' as int + d) as char
  }

  function DigitValue(c: char): (d: nat)
    requires IsDigit(c)
    ensures d < 10 && DigitChar(d) == c
  {
    c as int - '0' as int
  }

  /** `String(n)` for a non-negative integer: its decimal digits, without
      leading zeros. */
  function NatToDecimal(n: nat): (s: string)
    ensures |s| >= 1 && AllDigits(s)
    ensures |s| > 1 ==> s[0] != '0'
    decreases n
  {
    if n < 10 then [DigitChar(n)] else NatToDecimal(n / 10) + [DigitChar(n % 10)]
  }

  /** `String(i)` for an integer, with a leading `-` when negative. */
  function IntToDecimal(i: int): (s: string)
    ensures |s| >= 1
    ensures i >= 0 ==> s == NatToDecimal(i)
    ensures i < 0 ==> s == "-" + NatToDecimal(-i)
  {
    if i < 0 then "-" + NatToDecimal(-i) else NatToDecimal(i)
  }

  /** The value of a run of decimal digits (`parseInt(s, 10)`), leading
      zeros allowed. */
  function DecimalValue(s: string): nat
    requires AllDigits(s)
  {
    if |s| == 0 then 0 else DecimalValue(s[..|s| - 1]) * 10 + DigitValue(s[|s| - 1])
  }

  /** Rendering a natural number and reading it back gives the number. */
  lemma {:induction false} DecimalRoundTrip(n: nat)
    ensures DecimalValue(NatToDecimal(n)) == n
    decreases n
  {
    if n >= 10 {
      var s := NatToDecimal(n);
      assert s[..|s| - 1] == NatToDecimal(n / 10);
      DecimalRoundTrip(n / 10);
    }
  }

  // ---------------------------------------------------------------------
  // Hexadecimal rendering and parsing
  // ---------------------------------------------------------------------

  /** The lower-case hexadecimal digit of `d`, as `toString(16)` prints it. */
  function HexDigitChar(d: nat): (c: char)
    requires d < 16
    ensures IsHexDigit(c) && !('A' <= c <= 'Z')
  {
    if d < 10 then ('0' as int + d) as char else ('a' as int + d - 10) as char
  }

  function HexDigitValue(c: char): (d: nat)
    requires IsHexDigit(c)
    ensures d < 16
  {
    if IsDigit(c) then c as int - '0' as int
    else if 'a' <= c <= 'f' then c as int - 'a' as int + 10
    else c as int - 'A' as int + 10
  }

  lemma HexDigitRoundTrip(d: nat)
    requires d < 16
    ensures HexDigitValue(HexDigitChar(d)) == d
  {
  }

  /** `n.toString(16)` for a non-negative integer. */
  function NatToHex(n: nat): (s: string)
    ensures |s| >= 1 && AllHex(s)
    ensures forall i :: 0 <= i < |s| ==> !('A' <= s[i] <= 'Z')
    decreases n
  {
    if n < 16 then [HexDigitChar(n)] else NatToHex(n / 16) + [HexDigitChar(n % 16)]
  }

  /** The value of a run of hexadecimal digits of either case. */
  function HexValue(s: string): nat
    requires AllHex(s)
  {
    if |s| == 0 then 0 else HexValue(s[..|s| - 1]) * 16 + HexDigitValue(s[|s| - 1])
  }

  /** Rendering in hexadecimal and reading back gives the number. */
  lemma {:induction false} HexRoundTrip(n: nat)
    ensures HexValue(NatToHex(n)) == n
    decreases n
  {
    var s := NatToHex(n);
    if n < 16 {
      HexDigitRoundTrip(n);
    } else {
      assert s[..|s| - 1] == NatToHex(n / 16);
      HexRoundTrip(n / 16);
      HexDigitRoundTrip(n % 16);
    }
  }

  function Pow16(k: nat): (p: nat)
    ensures p >= 1
  {
    if k == 0 then 1 else 16 * Pow16(k - 1)
  }

  /** A number below 16^k has at most k hexadecimal digits. */
  lemma {:induction false} NatToHexLength(n: nat, k: nat)
    requires k >= 1 && n < Pow16(k)
    ensures |NatToHex(n)| <= k
    decreases k
  {
    if n >= 16 {
      assert n / 16 < Pow16(k - 1);
      NatToHexLength(n / 16, k - 1);
    }
  }

  // ---------------------------------------------------------------------
  // padStart, split, join
  // ---------------------------------------------------------------------

  function Repeat(c: char, n: nat): (r: string)
    ensures |r| == n && forall i :: 0 <= i < n ==> r[i] == c
  {
    seq(n, _ => c)
  }

  /** `s.padStart(width, [fill])` (for one-unit fill characters and strings
      whose length in code units is their length in characters). */
  function PadStart(s: string, width: nat, fill: char): (r: string)
    ensures |s| >= width ==> r == s
    ensures |s| < width ==> |r| == width && r[width - |s|..] == s
    ensures |s| < width ==> forall i :: 0 <= i < width - |s| ==> r[i] == fill
  {
    if |s| >= width then s else Repeat(fill, width - |s|) + s
  }

  /** `s.split(sep)[0]`: the part of `s` before the first `sep`, or the
      whole of `s` when it has none. */
  function BeforeFirst(s: string, sep: char): (r: string)
    ensures |r| <= |s| && r == s[..|r|]
    ensures sep !in r
    ensures |r| < |s| ==> s[|r|] == sep
  {
    if |s| == 0 || s[0] == sep then [] else [s[0]] + BeforeFirst(s[1..], sep)
  }

  /** `parts.join(sep)`. */
  function Join(parts: seq<string>, sep: string): string {
    if |parts| == 0 then []
    else if |parts| == 1 then parts[0]
    else parts[0] + sep + Join(parts[1..], sep)
  }

  /** `s.split(sep)` for a one-character separator: the maximal runs of
      `s` free of `sep`, in order. */
  function Split(s: string, sep: char): (parts: seq<string>)
    ensures |parts| >= 1
    ensures forall i :: 0 <= i < |parts| ==> sep !in parts[i]
    ensures parts[0] == BeforeFirst(s, sep)
    decreases |s|
  {
    var head := BeforeFirst(s, sep);
    if |head| == |s| then [s] else [head] + Split(s[|head| + 1..], sep)
  }

  /** The part before the first separator of `a + [sep] + b` is `a`, when
      `a` holds no separator. */
  lemma {:induction false} BeforeFirstConcat(a: string, sep: char, b: string)
    requires sep !in a
    ensures BeforeFirst(a + [sep] + b, sep) == a
    ensures BeforeFirst(a, sep) == a
    decreases |a|
  {
    if |a| > 0 {
      assert (a + [sep] + b)[1..] == a[1..] + [sep] + b;
      BeforeFirstConcat(a[1..], sep, b);
    }
  }

  /** Splitting what `join` built with a separator that no part contains
      gives the parts back. */
  lemma {:induction false} SplitJoin(parts: seq<string>, sep: char)
    requires |parts| >= 1
    requires forall i :: 0 <= i < |parts| ==> sep !in parts[i]
    ensures Split(Join(parts, [sep]), sep) == parts
    decreases |parts|
  {
    var s := Join(parts, [sep]);
    if |parts| == 1 {
      BeforeFirstConcat(parts[0], sep, []);
    } else {
      var rest := Join(parts[1..], [sep]);
      assert s == parts[0] + [sep] + rest;
      BeforeFirstConcat(parts[0], sep, rest);
      assert s[|parts[0]| + 1..] == rest;
      SplitJoin(parts[1..], sep);
      assert parts == [parts[0]] + parts[1..];
    }
  }

  // ---------------------------------------------------------------------
  // Code-unit order (the default comparison of `Array.prototype.sort`)
  // ---------------------------------------------------------------------

  /** Lexicographic order on sequences of code units. */
  predicate UnitsLe(a: seq<int>, b: seq<int>) {
    if |a| == 0 then true
    else if |b| == 0 then false
    else if a[0] != b[0] then a[0] < b[0]
    else UnitsLe(a[1..], b[1..])
  }

  /** JavaScript's default string comparison: `a` sorts no later than `b`. */
  predicate StrLe(a: string, b: string) {
    UnitsLe(CodeUnits(a), CodeUnits(b))
  }

  lemma {:induction false} UnitsLeTotal(a: seq<int>, b: seq<int>)
    ensures UnitsLe(a, b) || UnitsLe(b, a)
    decreases |a|
  {
    if |a| > 0 && |b| > 0 && a[0] == b[0] {
      UnitsLeTotal(a[1..], b[1..]);
    }
  }

  lemma {:induction false} UnitsLeTransitive(a: seq<int>, b: seq<int>, c: seq<int>)
    requires UnitsLe(a, b) && UnitsLe(b, c)
    ensures UnitsLe(a, c)
    decreases |a|
  {
    if |a| > 0 && |b| > 0 && |c| > 0 && a[0] == b[0] && b[0] == c[0] {
      UnitsLeTransitive(a[1..], b[1..], c[1..]);
    }
  }

  /** The default string order is total, so sorting by it is well defined. */
  lemma StrLeTotal(a: string, b: string)
    ensures StrLe(a, b) || StrLe(b, a)
  {
    UnitsLeTotal(CodeUnits(a), CodeUnits(b));
  }
}

=== FILE: ordered_map.dfy ===
/** A JavaScript `Map` with string keys: key/value entries kept in insertion order, each key
    at most once. `set` on a present key replaces its value where it stands;
    on a new key it appends. Iteration (`entries()`) follows this order, which
    is why the model keeps a sequence rather than a Dafny `map`. */
module OrderedMap {
  import opened Wrappers

  /** No key occurs twice. */
  predicate Unique<V>(e: seq<(string, V)>) {
    forall i, j :: 0 <= i < j < |e| ==> e[i].0 != e[j].0
  }

  function Keys<V>(e: seq<(string, V)>): set<string> {
    set i | 0 <= i < |e| :: e[i].0
  }

  lemma KeysCons<V>(x: (string, V), rest: seq<(string, V)>)
    ensures Keys([x] + rest) == {x.0} + Keys(rest)
  {
    var r := [x] + rest;
    forall y | y in Keys(rest) ensures y in Keys(r) {
      var j :| 0 <= j < |rest| && rest[j].0 == y;
      assert r[j + 1].0 == y;
    }
    assert r[0].0 == x.0;
  }

  /** Position of `k`, or -1 when absent. */
  function IndexOf<V>(e: seq<(string, V)>, k: string): (i: int)
    ensures -1 <= i < |e|
    ensures i >= 0 ==> e[i].0 == k
    ensures i < 0 <==> k !in Keys(e)
  {
    if |e| == 0 then -1
    else if e[0].0 == k then 0
    else
      var j := IndexOf(e[1..], k);
      assert Keys(e) == {e[0].0} + Keys(e[1..]);
      if j < 0 then -1 else j + 1
  }

  /** `map.get(k)`. */
  function Get<V>(e: seq<(string, V)>, k: string): (r: Option<V>)
    ensures r.Some? <==> k in Keys(e)
    ensures r.Some? ==> (k, r.value) in e
  {
    var i := IndexOf(e, k);
    if i < 0 then None else Some(e[i].1)
  }

  /** In a map with distinct keys, `Get` returns the value stored with `k`. */
  lemma GetAt<V>(e: seq<(string, V)>, i: nat)
    requires Unique(e) && i < |e|
    ensures Get(e, e[i].0) == Some(e[i].1)
  {
    var j := IndexOf(e, e[i].0);
    assert j == i;
  }

  /** In a map with distinct keys, every stored pair is what `Get` finds. */
  lemma GetIn<V>(e: seq<(string, V)>, x: (string, V))
    requires Unique(e) && x in e
    ensures Get(e, x.0) == Some(x.1)
  {
    var i :| 0 <= i < |e| && e[i] == x;
    GetAt(e, i);
  }

  /** `map.set(k, v)`: replaces in place when present, appends otherwise. */
  function Set<V>(e: seq<(string, V)>, k: string, v: V): (r: seq<(string, V)>)
    ensures Unique(e) ==> Unique(r)
    ensures Keys(r) == Keys(e) + {k}
    ensures |r| == if k in Keys(e) then |e| else |e| + 1
    ensures Unique(e) ==> Get(r, k) == Some(v)
    ensures Unique(e) ==> forall k' :: k' != k ==> Get(r, k') == Get(e, k')
  {
    var i := IndexOf(e, k);
    var r := if i >= 0 then e[i := (k, v)] else e + [(k, v)];
    assert Keys(r) == Keys(e) + {k} by {
      if i >= 0 {
        forall x | x in Keys(e) ensures x in Keys(r) {
          var j :| 0 <= j < |e| && e[j].0 == x;
          assert r[j].0 == x;
        }
      } else {
        assert r[|e|].0 == k;
        forall x | x in Keys(e) ensures x in Keys(r) {
          var j :| 0 <= j < |e| && e[j].0 == x;
          assert r[j].0 == x;
        }
      }
    }
    assert Unique(e) ==> Get(r, k) == Some(v) && forall k' :: k' != k ==> Get(r, k') == Get(e, k') by {
      if Unique(e) {
        GetAt(r, if i >= 0 then i else |e|);
        forall k' | k' != k ensures Get(r, k') == Get(e, k') {
          var j := IndexOf(e, k');
          if j >= 0 {
            GetAt(e, j);
            GetAt(r, j);
          }
        }
      }
    }
    r
  }

  /** `Set` adds no entry under another key. */
  lemma SetKeepsOthers<V>(e: seq<(string, V)>, k: string, v: V)
    ensures forall x :: x in Set(e, k, v) && x.0 != k ==> x in e
  {
    var r := Set(e, k, v);
    forall x | x in r && x.0 != k ensures x in e {
      var i :| 0 <= i < |r| && r[i] == x;
      assert e[i] == x;
    }
  }

  /** The entries for which `keep` holds, in their original order. */
  function Filter<V(!new)>(e: seq<(string, V)>, keep: (string, V) -> bool): (r: seq<(string, V)>)
    ensures |r| <= |e|
    ensures forall x :: x in r <==> x in e && keep(x.0, x.1)
    ensures Unique(e) ==> Unique(r)
    ensures Keys(r) <= Keys(e)
  {
    if |e| == 0 then []
    else
      var rest := Filter(e[1..], keep);
      assert Keys(e) == {e[0].0} + Keys(e[1..]);
      if keep(e[0].0, e[0].1) then
        var r := [e[0]] + rest;
        KeysCons(e[0], rest);
        assert Unique(e) ==> forall x :: x in rest ==> x.0 != e[0].0 by {
          if Unique(e) {
            forall x | x in rest ensures x.0 != e[0].0 {
              var j :| 1 <= j < |e| && e[j] == x;
            }
          }
        }
        r
      else rest
  }

  /** `map.delete(k)`. */
  function Delete<V(!new)>(e: seq<(string, V)>, k: string): (r: seq<(string, V)>)
    ensures Unique(e) ==> Unique(r)
    ensures Keys(r) == Keys(e) - {k}
    ensures Unique(e) ==> |r| == if k in Keys(e) then |e| - 1 else |e|
    ensures Get(r, k) == None
    ensures Unique(e) ==> forall k' :: k' != k ==> Get(r, k') == Get(e, k')
  {
    var r := Filter(e, (k', _) => k' != k);
    assert Keys(r) == Keys(e) - {k} by {
      forall x | x in Keys(e) - {k} ensures x in Keys(r) {
        var j :| 0 <= j < |e| && e[j].0 == x;
        assert e[j] in r;
      }
    }
    assert Unique(e) ==>
      && |r| == (if k in Keys(e) then |e| - 1 else |e|)
      && forall k' :: k' != k ==> Get(r, k') == Get(e, k') by {
      if Unique(e) {
        DeleteSize(e, k);
        forall k' | k' != k ensures Get(r, k') == Get(e, k') {
          var j := IndexOf(e, k');
          if j >= 0 {
            GetAt(e, j);
            assert e[j] in r;
            var m :| 0 <= m < |r| && r[m] == e[j];
            GetAt(r, m);
          }
        }
      }
    }
    r
  }

  lemma {:induction false} DeleteSize<V(!new)>(e: seq<(string, V)>, k: string)
    requires Unique(e)
    ensures |Filter(e, (k', _) => k' != k)| == if k in Keys(e) then |e| - 1 else |e|
  {
    if |e| > 0 {
      assert Keys(e) == {e[0].0} + Keys(e[1..]);
      DeleteSize(e[1..], k);
    }
  }

  // ---------------------------------------------------------------------
  // Eviction by age
  // ---------------------------------------------------------------------

  /** The first position holding the smallest `age`. */
  function OldestIndex<V>(e: seq<(string, V)>, age: V -> int): (i: nat)
    requires |e| > 0
    ensures i < |e|
    ensures forall j :: 0 <= j < |e| ==> age(e[i].1) <= age(e[j].1)
    ensures forall j :: 0 <= j < i ==> age(e[j].1) > age(e[i].1)
  {
    if |e| == 1 then 0
    else
      var j := OldestIndex(e[1..], age);
      if age(e[0].1) <= age(e[1 + j].1) then 0 else 1 + j
  }

  function RemoveAt<T>(s: seq<T>, i: nat): (r: seq<T>)
    requires i < |s|
    ensures |r| == |s| - 1
    ensures forall x :: x in r ==> x in s
    ensures forall x :: x in s && x != s[i] ==> x in r
  {
    s[..i] + s[i + 1..]
  }

  /** Removes the `n` entries with the smallest `age`, one at a time, the
      earliest-inserted first among equals. Sorting the entries by age with
      a stable sort and deleting the first `n` removes the same ones. */
  function EvictOldest<V(!new)>(e: seq<(string, V)>, n: nat, age: V -> int): (r: seq<(string, V)>)
    ensures |r| == if n >= |e| then 0 else |e| - n
    ensures forall x :: x in r ==> x in e
    ensures Unique(e) ==> Unique(r)
    ensures forall x, y :: x in e && x !in r && y in r ==> age(x.1) <= age(y.1)
    decreases n
  {
    if n == 0 || |e| == 0 then e
    else
      var i := OldestIndex(e, age);
      var rest := RemoveAt(e, i);
      assert Unique(e) ==> Unique(rest) by {
        if Unique(e) {
          forall a, b | 0 <= a < b < |rest| ensures rest[a].0 != rest[b].0 {
            var a' := if a < i then a else a + 1;
            var b' := if b < i then b else b + 1;
            assert rest[a] == e[a'] && rest[b] == e[b'];
          }
        }
      }
      var r := EvictOldest(rest, n - 1, age);
      assert forall y :: y in rest ==> age(e[i].1) <= age(y.1) by {
        forall y | y in rest ensures age(e[i].1) <= age(y.1) {
          var j :| 0 <= j < |e| && e[j] == y;
        }
      }
      r
  }
}

=== FILE: rate_limit.dfy ===
/** The fixed-window rate limiter of `src/lib/rate-limit.ts`: per-key
    request counters, the tier configurations, client-IP extraction and the
    retry message of `withRateLimit`.

    `Date.now()` is the parameter `now`; the five-minute `setInterval` that
    triggers `cleanup` is replaced by calling `Cleanup` explicitly. */
module RateLimit {
  import opened Wrappers
  import opened JsStrings
  import opened JsNumbers
  import OM = OrderedMap

  /** The counter of one key: requests seen in the current window, when the
      window closes, and the time of the last admitted request. */
  datatype RateLimitEntry = RateLimitEntry(count: int, resetTime: int, lastRequest: int)

  /** A `RateLimiter`: its `Map` of counters and its capacity. */
  datatype Limiter = Limiter(limits: seq<(string, RateLimitEntry)>, maxEntries: nat)

  predicate Valid(l: Limiter) {
    OM.Unique(l.limits)
  }

  function NewLimiter(maxEntries: nat): (l: Limiter)
    ensures Valid(l) && |l.limits| == 0
  {
    Limiter([], maxEntries)
  }

  function Entry(l: Limiter, key: string): Option<RateLimitEntry> {
    OM.Get(l.limits, key)
  }

  /** A window is over once `now` reaches its reset time. */
  predicate WindowOver(e: RateLimitEntry, now: int) {
    now >= e.resetTime
  }

  // ---------------------------------------------------------------------
  // check / reset / getStatus
  // ---------------------------------------------------------------------

  /** What `check` answers. */
  datatype CheckResult = CheckResult(allowed: bool, remaining: int, resetTime: int, retryAfter: Option<int>)

  /** `check`: the answer and the limiter afterwards. */
  datatype Checked = Checked(limiter: Limiter, result: CheckResult)

  /** `check(key, limit, windowMs)`. */
  function Check(l: Limiter, key: string, limit: int, windowMs: int, now: int): (r: Checked)
    requires Valid(l)
    ensures Valid(r.limiter) && r.limiter.maxEntries == l.maxEntries
    ensures forall k :: k != key ==> Entry(r.limiter, k) == Entry(l, k)
    // no counter, or its window is over: a new window opens with this request
    ensures Entry(l, key).None? || WindowOver(Entry(l, key).value, now) ==>
              && Entry(r.limiter, key) == Some(RateLimitEntry(1, now + windowMs, now))
              && r.result == CheckResult(true, limit - 1, now + windowMs, None)
    // inside a full window: rejected, nothing changes
    ensures Entry(l, key).Some? && !WindowOver(Entry(l, key).value, now)
            && Entry(l, key).value.count >= limit ==>
              && r.limiter == l
              && r.result == CheckResult(false, 0, Entry(l, key).value.resetTime,
                                         Some(Entry(l, key).value.resetTime - now))
    // inside a window with room: counted
    ensures Entry(l, key).Some? && !WindowOver(Entry(l, key).value, now)
            && Entry(l, key).value.count < limit ==>
              && Entry(r.limiter, key) == Some(Entry(l, key).value.(count := Entry(l, key).value.count + 1, lastRequest := now))
              && r.result.allowed
              && r.result.remaining == limit - Entry(r.limiter, key).value.count
    ensures limit >= 1 ==> r.result.remaining >= 0
    ensures r.result.allowed <==> r.result.retryAfter.None?
    ensures !r.result.allowed ==> r.result.retryAfter.Some? && r.result.retryAfter.value > 0
  {
    var entry := Entry(l, key);
    if entry.None? || WindowOver(entry.value, now) then
      var first := RateLimitEntry(1, now + windowMs, now);
      Checked(l.(limits := OM.Set(l.limits, key, first)), CheckResult(true, limit - 1, now + windowMs, None))
    else if entry.value.count >= limit then
      Checked(l, CheckResult(false, 0, entry.value.resetTime, Some(entry.value.resetTime - now)))
    else
      var e := entry.value.(count := entry.value.count + 1, lastRequest := now);
      Checked(l.(limits := OM.Set(l.limits, key, e)), CheckResult(true, limit - e.count, e.resetTime, None))
  }

  /** `reset(key)`: forgets the key's counter. */
  function Reset(l: Limiter, key: string): (r: Limiter)
    requires Valid(l)
    ensures Valid(r) && r.maxEntries == l.maxEntries
    ensures Entry(r, key).None?
    ensures forall k :: k != key ==> Entry(r, k) == Entry(l, k)
  {
    l.(limits := OM.Delete(l.limits, key))
  }

  /** After `reset(key)` the next `check` opens a new window and is
      admitted. */
  lemma ResetOpensWindow(l: Limiter, key: string, limit: int, windowMs: int, now: int)
    requires Valid(l)
    ensures Check(Reset(l, key), key, limit, windowMs, now).result.allowed
    ensures Entry(Check(Reset(l, key), key, limit, windowMs, now).limiter, key)
            == Some(RateLimitEntry(1, now + windowMs, now))
  {
  }

  datatype Status = Status(count: int, remaining: int, resetTime: int)

  /** `getStatus(key, limit)`: reads the counter without changing it. */
  function GetStatus(l: Limiter, key: string, limit: int, now: int): (s: Status)
    ensures Entry(l, key).None? || WindowOver(Entry(l, key).value, now) ==>
              s == Status(0, limit, now)
    ensures Entry(l, key).Some? && !WindowOver(Entry(l, key).value, now) ==>
              && s.count == Entry(l, key).value.count
              && s.resetTime == Entry(l, key).value.resetTime
              && s.remaining == if limit > s.count then limit - s.count else 0
  {
    match Entry(l, key)
    case None => Status(0, limit, now)
    case Some(e) =>
      if WindowOver(e, now) then Status(0, limit, now)
      else Status(e.count, NonNegative(limit - e.count), e.resetTime)
  }

  /** The status agrees with what `check` would do next: it reports room
      left exactly when `check` would admit the request. */
  lemma {:induction false} StatusPredictsCheck(l: Limiter, key: string, limit: int, windowMs: int, now: int)
    requires Valid(l) && limit >= 1
    ensures GetStatus(l, key, limit, now).remaining > 0 <==> Check(l, key, limit, windowMs, now).result.allowed
  {
    var c := Check(l, key, limit, windowMs, now);
    match Entry(l, key)
    case None =>
    case Some(e) =>
      if !WindowOver(e, now) && e.count >= limit {
        assert c.limiter == l;
      }
  }

  // ---------------------------------------------------------------------
  // At most `limit` admissions per window
  // ---------------------------------------------------------------------

  /** The requests for `key` at the given times, in order: the number
      admitted and the limiter afterwards. */
  datatype Run = Run(limiter: Limiter, admitted: nat)

  function CheckAll(l: Limiter, key: string, limit: int, windowMs: int, times: seq<int>): (r: Run)
    requires Valid(l)
    ensures Valid(r.limiter)
    ensures r.admitted <= |times|
    decreases |times|
  {
    if |times| == 0 then Run(l, 0)
    else
      var c := Check(l, key, limit, windowMs, times[0]);
      var rest := CheckAll(c.limiter, key, limit, windowMs, times[1..]);
      Run(rest.limiter, rest.admitted + if c.result.allowed then 1 else 0)
  }

  /** Inside an open window that has admitted `count <= limit` requests,
      further requests are admitted until the count reaches `limit` and
      rejected after that. */
  lemma {:induction false} WindowAdmits(l: Limiter, key: string, limit: int, windowMs: int, times: seq<int>)
    requires Valid(l) && Entry(l, key).Some?
    requires Entry(l, key).value.count <= limit
    requires forall i :: 0 <= i < |times| ==> times[i] < Entry(l, key).value.resetTime
    ensures CheckAll(l, key, limit, windowMs, times).admitted
            == Min(|times|, limit - Entry(l, key).value.count)
    ensures Entry(CheckAll(l, key, limit, windowMs, times).limiter, key).Some?
    ensures Entry(CheckAll(l, key, limit, windowMs, times).limiter, key).value.count
            == Entry(l, key).value.count + Min(|times|, limit - Entry(l, key).value.count)
    ensures Entry(CheckAll(l, key, limit, windowMs, times).limiter, key).value.resetTime
            == Entry(l, key).value.resetTime
    decreases |times|
  {
    if |times| > 0 {
      var c := Check(l, key, limit, windowMs, times[0]);
      WindowAdmits(c.limiter, key, limit, windowMs, times[1..]);
    }
  }

  function Min(a: int, b: int): int {
    if a <= b then a else b
  }

  /** A key checked at times that all fall inside the window its first
      request opens is admitted `min(n, limit)` times: never more than
      `limit` per window. */
  lemma OneWindowAdmitsAtMostLimit(l: Limiter, key: string, limit: int, windowMs: int, times: seq<int>)
    requires Valid(l) && limit >= 1 && |times| >= 1
    requires Entry(l, key).None? || WindowOver(Entry(l, key).value, times[0])
    requires forall i :: 0 <= i < |times| ==> times[i] < times[0] + windowMs
    ensures CheckAll(l, key, limit, windowMs, times).admitted == Min(|times|, limit)
  {
    var c := Check(l, key, limit, windowMs, times[0]);
    WindowAdmits(c.limiter, key, limit, windowMs, times[1..]);
  }

  // ---------------------------------------------------------------------
  // cleanup and statistics
  // ---------------------------------------------------------------------

  /** The counters whose window is still open. */
  function Open(l: Limiter, now: int): (r: seq<(string, RateLimitEntry)>)
    ensures forall x :: x in r <==> x in l.limits && !WindowOver(x.1, now)
    ensures Valid(l) ==> OM.Unique(r)
  {
    OM.Filter(l.limits, (_, e) => !WindowOver(e, now))
  }

  /** The private `cleanup()`: drop every counter whose window is over; if
      more than `maxEntries` remain, also drop the `floor(maxEntries * 0.1)`
      with the oldest `lastRequest`. */
  function Cleanup(l: Limiter, now: int): (r: Limiter)
    requires Valid(l)
    ensures Valid(r) && r.maxEntries == l.maxEntries
    ensures forall x :: x in r.limits ==> x in l.limits && !WindowOver(x.1, now)
    ensures |Open(l, now)| <= l.maxEntries ==> r.limits == Open(l, now)
    ensures |Open(l, now)| > l.maxEntries ==> |r.limits| == |Open(l, now)| - l.maxEntries / 10
    ensures forall x, y :: x in Open(l, now) && x !in r.limits && y in r.limits
              ==> x.1.lastRequest <= y.1.lastRequest
  {
    var open := Open(l, now);
    if |open| > l.maxEntries then
      l.(limits := OM.EvictOldest(open, l.maxEntries / 10, (e: RateLimitEntry) => e.lastRequest))
    else
      l.(limits := open)
  }

  datatype Stats = Stats(totalEntries: nat, maxEntries: nat, activeEntries: nat)

  function CountOpen(s: seq<(string, RateLimitEntry)>, now: int): (n: nat)
    ensures n <= |s|
  {
    if |s| == 0 then 0 else CountOpen(s[1..], now) + if !WindowOver(s[0].1, now) then 1 else 0
  }

  /** `getStats()`. */
  function GetStats(l: Limiter, now: int): (s: Stats)
    ensures s.activeEntries <= s.totalEntries == |l.limits|
    ensures s.maxEntries == l.maxEntries
  {
    Stats(|l.limits|, l.maxEntries, CountOpen(l.limits, now))
  }

  /** After any cleanup, every counter left is active. */
  lemma {:induction false} CleanupLeavesActive(l: Limiter, now: int)
    requires Valid(l)
    ensures GetStats(Cleanup(l, now), now).activeEntries == |Cleanup(l, now).limits|
  {
    AllOpenCounted(Cleanup(l, now).limits, now);
  }

  lemma {:induction false} AllOpenCounted(s: seq<(string, RateLimitEntry)>, now: int)
    requires forall i :: 0 <= i < |s| ==> !WindowOver(s[i].1, now)
    ensures CountOpen(s, now) == |s|
  {
    if |s| > 0 {
      AllOpenCounted(s[1..], now);
    }
  }

  // ---------------------------------------------------------------------
  // Configuration and the three limiters
  // ---------------------------------------------------------------------

  datatype LimitConfig = LimitConfig(limit: int, windowMs: int)

  const Minute: int := 60 * 1000
  const Hour: int := 60 * Minute
  const Day: int := 24 * Hour

  /** `RATE_LIMITS`. */
  const AnonymousGeneration := LimitConfig(5, Hour)
  const FreeUserGeneration := LimitConfig(10, Day)
  const PaidUserGeneration := LimitConfig(1000, Hour)
  const ApiPerIp := LimitConfig(100, Minute)
  const ApiPerUser := LimitConfig(200, Minute)
  const FingerprintPerIp := LimitConfig(10, Minute)

  /** The image-generation tier for a user type: `'anonymous'`, `'free'`,
      and anything else gets the paid tier. */
  function ImageGenerationConfig(userType: string): (c: LimitConfig)
    ensures userType == "anonymous" ==> c == LimitConfig(5, 60 * 60 * 1000)
    ensures userType == "free" ==> c == LimitConfig(10, 24 * 60 * 60 * 1000)
    ensures userType != "anonymous" && userType != "free" ==> c == LimitConfig(1000, 60 * 60 * 1000)
  {
    if userType == "anonymous" then AnonymousGeneration
    else if userType == "free" then FreeUserGeneration
    else PaidUserGeneration
  }

  /** The API tier: `'ip'`, and anything else gets the per-user tier. */
  function ApiConfig(kind: string): (c: LimitConfig)
    ensures kind == "ip" ==> c == LimitConfig(100, 60 * 1000)
    ensures kind != "ip" ==> c == LimitConfig(200, 60 * 1000)
  {
    if kind == "ip" then ApiPerIp else ApiPerUser
  }

  /** The three module-level limiters. */
  datatype Limiters = Limiters(global: Limiter, imageGeneration: Limiter, fingerprint: Limiter)

  function InitialLimiters(): (ls: Limiters)
    ensures ValidAll(ls)
    ensures ls.global.maxEntries == 10000 && ls.imageGeneration.maxEntries == 5000
    ensures ls.fingerprint.maxEntries == 1000
  {
    Limiters(NewLimiter(10000), NewLimiter(5000), NewLimiter(1000))
  }

  predicate ValidAll(ls: Limiters) {
    Valid(ls.global) && Valid(ls.imageGeneration) && Valid(ls.fingerprint)
  }

  datatype TierChecked = TierChecked(limiters: Limiters, result: CheckResult)

  /** `rateLimiters.checkImageGeneration`: only the image-generation limiter
      is consulted and changed. */
  function CheckImageGeneration(ls: Limiters, key: string, userType: string, now: int): (r: TierChecked)
    requires ValidAll(ls)
    ensures ValidAll(r.limiters)
    ensures r.limiters.global == ls.global && r.limiters.fingerprint == ls.fingerprint
    // the tier's limit and window are the ones applied
    ensures var cfg := ImageGenerationConfig(userType);
      var c := Check(ls.imageGeneration, key, cfg.limit, cfg.windowMs, now);
      r.limiters.imageGeneration == c.limiter && r.result == c.result
    ensures r.result.allowed <==> GetStatus(ls.imageGeneration, key, ImageGenerationConfig(userType).limit, now).remaining > 0
    ensures r.result.remaining >= 0
  {
    var cfg := ImageGenerationConfig(userType);
    var c := Check(ls.imageGeneration, key, cfg.limit, cfg.windowMs, now);
    StatusPredictsCheck(ls.imageGeneration, key, cfg.limit, cfg.windowMs, now);
    TierChecked(ls.(imageGeneration := c.limiter), c.result)
  }

  /** `rateLimiters.checkApiRequest`. */
  function CheckApiRequest(ls: Limiters, key: string, kind: string, now: int): (r: TierChecked)
    requires ValidAll(ls)
    ensures ValidAll(r.limiters)
    ensures r.limiters.imageGeneration == ls.imageGeneration && r.limiters.fingerprint == ls.fingerprint
    ensures var cfg := ApiConfig(kind);
      var c := Check(ls.global, key, cfg.limit, cfg.windowMs, now);
      r.limiters.global == c.limiter && r.result == c.result
    ensures r.result.allowed <==> GetStatus(ls.global, key, ApiConfig(kind).limit, now).remaining > 0
    ensures r.result.remaining >= 0
  {
    var cfg := ApiConfig(kind);
    var c := Check(ls.global, key, cfg.limit, cfg.windowMs, now);
    StatusPredictsCheck(ls.global, key, cfg.limit, cfg.windowMs, now);
    TierChecked(ls.(global := c.limiter), c.result)
  }

  /** `rateLimiters.checkFingerprint`. */
  function CheckFingerprint(ls: Limiters, key: string, now: int): (r: TierChecked)
    requires ValidAll(ls)
    ensures ValidAll(r.limiters)
    ensures r.limiters.global == ls.global && r.limiters.imageGeneration == ls.imageGeneration
    ensures var c := Check(ls.fingerprint, key, 10, Minute, now);
      r.limiters.fingerprint == c.limiter && r.result == c.result
    ensures r.result.allowed <==> GetStatus(ls.fingerprint, key, 10, now).remaining > 0
    ensures r.result.remaining >= 0
  {
    var c := Check(ls.fingerprint, key, FingerprintPerIp.limit, FingerprintPerIp.windowMs, now);
    StatusPredictsCheck(ls.fingerprint, key, FingerprintPerIp.limit, FingerprintPerIp.windowMs, now);
    TierChecked(ls.(fingerprint := c.limiter), c.result)
  }

  /** Image-generation requests for one key at the given times, each through
      `checkImageGeneration`: the limiters afterwards and the number
      admitted. */
  datatype TierRun = TierRun(limiters: Limiters, admitted: nat)

  function CheckImageGenerationAll(ls: Limiters, key: string, userType: string, times: seq<int>): (r: TierRun)
    requires ValidAll(ls)
    ensures ValidAll(r.limiters)
    ensures r.limiters.global == ls.global && r.limiters.fingerprint == ls.fingerprint
    ensures r.admitted <= |times|
    decreases |times|
  {
    if |times| == 0 then TierRun(ls, 0)
    else
      var c := CheckImageGeneration(ls, key, userType, times[0]);
      var rest := CheckImageGenerationAll(c.limiters, key, userType, times[1..]);
      TierRun(rest.limiters, rest.admitted + if c.result.allowed then 1 else 0)
  }

  /** Going through `checkImageGeneration` is running the image-generation
      limiter with the user type's tier. */
  lemma {:induction false} TierRunIsCheckAll(ls: Limiters, key: string, userType: string, times: seq<int>)
    requires ValidAll(ls)
    ensures var cfg := ImageGenerationConfig(userType);
      var a := CheckImageGenerationAll(ls, key, userType, times);
      var b := CheckAll(ls.imageGeneration, key, cfg.limit, cfg.windowMs, times);
      a.admitted == b.admitted && a.limiters.imageGeneration == b.limiter
    decreases |times|
  {
    if |times| > 0 {
      var c := CheckImageGeneration(ls, key, userType, times[0]);
      TierRunIsCheckAll(c.limiters, key, userType, times[1..]);
    }
  }

  /** Within one window of its tier, a key is admitted by
      `checkImageGeneration` at most the tier's limit times. */
  lemma TierAdmitsAtMostLimit(ls: Limiters, key: string, userType: string, times: seq<int>)
    requires ValidAll(ls) && |times| >= 1
    requires Entry(ls.imageGeneration, key).None? || WindowOver(Entry(ls.imageGeneration, key).value, times[0])
    requires forall i :: 0 <= i < |times| ==> times[i] < times[0] + ImageGenerationConfig(userType).windowMs
    ensures CheckImageGenerationAll(ls, key, userType, times).admitted
      == Min(|times|, ImageGenerationConfig(userType).limit)
  {
    var cfg := ImageGenerationConfig(userType);
    TierRunIsCheckAll(ls, key, userType, times);
    OneWindowAdmitsAtMostLimit(ls.imageGeneration, key, cfg.limit, cfg.windowMs, times);
  }

  /** Free users get at most ten image generations a day from the limiter:
      within a day, the first ten requests are admitted and no more. */
  lemma FreeTierTenPerDay(ls: Limiters, key: string, times: seq<int>)
    requires ValidAll(ls) && |times| >= 1
    requires Entry(ls.imageGeneration, key).None? || WindowOver(Entry(ls.imageGeneration, key).value, times[0])
    requires forall i :: 0 <= i < |times| ==> times[i] < times[0] + 24 * 60 * 60 * 1000
    ensures CheckImageGenerationAll(ls, key, "free", times).admitted == Min(|times|, 10)
  {
    TierAdmitsAtMostLimit(ls, key, "free", times);
  }

  // ---------------------------------------------------------------------
  // Client IP
  // ---------------------------------------------------------------------

  /** The headers `getClientIp` consults, in order. */
  const IpHeaders: seq<string> := [
    "x-forwarded-for", "x-real-ip", "x-client-ip", "cf-connecting-ip",
    "x-forwarded", "forwarded-for", "forwarded"]

  /** What one header offers: the trimmed part before its first comma,
      when the header is present and that part is neither empty nor
      `'unknown'`. `headers` maps lower-case names to values. */
  function Candidate(headers: map<string, string>, name: string): (r: Option<string>)
    ensures r.Some? ==> name in headers && r.value == Trim(BeforeFirst(headers[name], ','))
    ensures r.Some? ==> r.value != "" && r.value != "unknown" && ',' !in r.value
  {
    if name !in headers || headers[name] == "" then None
    else
      var ip := Trim(BeforeFirst(headers[name], ','));
      if ip != "" && ip != "unknown" then Some(ip) else None
  }

  /** The position of the first header along `names` that offers an
      address, or `|names|` when none does. */
  function FirstCandidate(headers: map<string, string>, names: seq<string>): (i: nat)
    ensures i <= |names|
    ensures forall j :: 0 <= j < i ==> Candidate(headers, names[j]).None?
    ensures i < |names| ==> Candidate(headers, names[i]).Some?
  {
    if |names| == 0 then 0
    else if Candidate(headers, names[0]).Some? then 0
    else
      var i := FirstCandidate(headers, names[1..]);
      assert forall j :: 1 <= j < i + 1 ==> names[j] == names[1..][j - 1];
      i + 1
  }

  /** `getClientIp`: the value offered by the first header that offers
      one, or `'unknown'` when none does. */
  function GetClientIp(headers: map<string, string>): (ip: string)
    ensures ip != "" && ',' !in ip
    ensures ip == "unknown" <==> forall i :: 0 <= i < |IpHeaders| ==> Candidate(headers, IpHeaders[i]).None?
    ensures ip != "unknown" ==> Candidate(headers, IpHeaders[FirstCandidate(headers, IpHeaders)]) == Some(ip)
  {
    var i := FirstCandidate(headers, IpHeaders);
    if i < |IpHeaders| then Candidate(headers, IpHeaders[i]).value else "unknown"
  }

  /** `x-forwarded-for` wins whenever it names an address. */
  lemma ForwardedForFirst(headers: map<string, string>)
    requires Candidate(headers, "x-forwarded-for").Some?
    ensures GetClientIp(headers) == Candidate(headers, "x-forwarded-for").value
  {
    assert IpHeaders[0] == "x-forwarded-for";
    assert FirstCandidate(headers, IpHeaders) == 0;
  }

  // ---------------------------------------------------------------------
  // withRateLimit
  // ---------------------------------------------------------------------

  /** The wait `withRateLimit` reports: the retry delay rounded up to whole
      seconds, or 60 when there is none (absent or zero). */
  function RetryAfterSeconds(retryAfter: Option<int>): (s: int)
    ensures retryAfter.None? || retryAfter == Some(0) ==> s == 60
    ensures retryAfter.Some? && retryAfter.value != 0 ==>
              (s - 1) * 1000 < retryAfter.value <= s * 1000
  {
    match retryAfter
    case Some(ms) => if ms != 0 then CeilDiv(ms, 1000) else 60
    case None => 60
  }

  /** `withRateLimit`: a rejected check becomes the error it throws; an
      admitted one lets the wrapped call run (its outcome is the caller's). */
  function RateLimitGate(result: CheckResult): (r: Result<(), string>)
    ensures r.Ok? <==> result.allowed
    ensures r.Err? ==> r.error == "Rate limit exceeded. Try again in "
                                  + IntToDecimal(RetryAfterSeconds(result.retryAfter)) + " seconds."
  {
    if result.allowed then Ok(())
    else Err("Rate limit exceeded. Try again in " + IntToDecimal(RetryAfterSeconds(result.retryAfter)) + " seconds.")
  }

  /** A rejection by `check` always names a positive wait of at most the
      remaining window, rounded up to seconds. */
  lemma RejectionWait(l: Limiter, key: string, limit: int, windowMs: int, now: int)
    requires Valid(l)
    requires !Check(l, key, limit, windowMs, now).result.allowed
    ensures RetryAfterSeconds(Check(l, key, limit, windowMs, now).result.retryAfter) >= 1
    ensures RetryAfterSeconds(Check(l, key, limit, windowMs, now).result.retryAfter) * 1000
            < Entry(l, key).value.resetTime - now + 1000
  {
  }
}

=== FILE: sorting.dfy ===
/** Stable sorting of sequences by an integer key, and counting, shared by
    the table models: `Array.prototype.sort` with a numeric comparator in
    `getUserCountByDate`, and `ORDER BY created_at DESC` in
    `getUserSubscriptionHistory`. */
module Sorting {

  /** Non-decreasing by `key`. */
  predicate SortedBy<T>(s: seq<T>, key: T -> int) {
    forall i, j :: 0 <= i < j < |s| ==> key(s[i]) <= key(s[j])
  }

  /** Inserts `x` before the first element whose key is at least `x`'s, so
      that `x` stays ahead of the elements it was ahead of with equal key. */
  function Insert<T>(x: T, s: seq<T>, key: T -> int): (r: seq<T>)
    requires SortedBy(s, key)
    ensures SortedBy(r, key)
    ensures multiset(r) == multiset(s) + multiset{x}
    ensures |r| == |s| + 1
  {
    if |s| == 0 then [x]
    else if key(x) <= key(s[0]) then
      assert forall i :: 0 <= i < |s| ==> key(s[0]) <= key(s[i]);
      [x] + s
    else
      SortedTail(s, key);
      var rest := Insert(x, s[1..], key);
      HeadBelowRest(s[0], x, s[1..], rest, key);
      assert multiset([s[0]] + rest) == multiset(s) + multiset{x} by {
        assert s == [s[0]] + s[1..];
      }
      [s[0]] + rest
  }

  /** The tail of a sorted sequence is sorted and bounded below by the head. */
  lemma SortedTail<T>(s: seq<T>, key: T -> int)
    requires |s| > 0 && SortedBy(s, key)
    ensures SortedBy(s[1..], key)
    ensures forall i :: 0 <= i < |s| - 1 ==> key(s[0]) <= key(s[1..][i])
  {
  }

  /** An element at or below everything in `s1` and below `x` is at or
      below every element of a permutation of `s1` plus `x`. */
  lemma HeadBelowRest<T>(h: T, x: T, s1: seq<T>, rest: seq<T>, key: T -> int)
    requires key(h) < key(x)
    requires forall i :: 0 <= i < |s1| ==> key(h) <= key(s1[i])
    requires multiset(rest) == multiset(s1) + multiset{x}
    ensures SortedBy(rest, key) ==> SortedBy([h] + rest, key)
  {
    forall i | 0 <= i < |rest| ensures key(h) <= key(rest[i]) {
      assert rest[i] in multiset(rest);
      if rest[i] != x {
        assert rest[i] in multiset(s1);
        var j :| 0 <= j < |s1| && s1[j] == rest[i];
      }
    }
    if SortedBy(rest, key) {
      var r := [h] + rest;
      forall i, j | 0 <= i < j < |r| ensures key(r[i]) <= key(r[j]) {
        if i > 0 { assert r[i] == rest[i - 1] && r[j] == rest[j - 1]; }
        else { assert r[j] == rest[j - 1]; }
      }
    }
  }

  /** A stable insertion sort, ascending by `key`. */
  function SortBy<T>(s: seq<T>, key: T -> int): (r: seq<T>)
    ensures SortedBy(r, key)
    ensures multiset(r) == multiset(s)
    ensures |r| == |s|
  {
    if |s| == 0 then []
    else
      assert s == [s[0]] + s[1..];
      Insert(s[0], SortBy(s[1..], key), key)
  }

  /** The number of elements satisfying `p`. */
  function Count<T>(s: seq<T>, p: T -> bool): (n: nat)
    ensures n <= |s|
  {
    if |s| == 0 then 0 else (if p(s[0]) then 1 else 0) + Count(s[1..], p)
  }

  lemma {:induction false} CountConcat<T>(a: seq<T>, b: seq<T>, p: T -> bool)
    ensures Count(a + b, p) == Count(a, p) + Count(b, p)
  {
    if |a| > 0 {
      assert (a + b)[0] == a[0];
      assert (a + b)[1..] == a[1..] + b;
      CountConcat(a[1..], b, p);
    } else {
      assert a + b == b;
    }
  }

  lemma {:induction false} CountInsert<T>(x: T, s: seq<T>, key: T -> int, p: T -> bool)
    requires SortedBy(s, key)
    ensures Count(Insert(x, s, key), p) == Count(s, p) + (if p(x) then 1 else 0)
  {
    if |s| > 0 && key(x) > key(s[0]) {
      var r := Insert(x, s, key);
      assert r[1..] == Insert(x, s[1..], key);
      CountInsert(x, s[1..], key, p);
    } else if |s| > 0 {
      assert ([x] + s)[1..] == s;
    }
  }

  /** Sorting does not change how many elements satisfy any predicate. */
  lemma {:induction false} CountSortBy<T>(s: seq<T>, key: T -> int, p: T -> bool)
    ensures Count(SortBy(s, key), p) == Count(s, p)
  {
    if |s| > 0 {
      CountSortBy(s[1..], key, p);
      CountInsert(s[0], SortBy(s[1..], key), key, p);
    }
  }
}

=== FILE: subscription.dfy ===
/** The rules of `SubscriptionService` in `src/services/subscription.ts`:
    the plan hierarchy, permission and active checks, the subscription
    summary and the record written after a successful payment.

    Each service method reads the active subscription once; `queriedAt` is
    the instant of that query and `now` the later instant the method reads
    the clock itself. `fault` makes the store read throw. */
module Subscription {
  import opened Wrappers
  import opened JsNumbers
  import US = UserSubscriptions

  // ---------------------------------------------------------------------
  // Plan hierarchy
  // ---------------------------------------------------------------------

  datatype PlanType = Basic | Pro | Premium | Ultimate

  function PlanTypeName(t: PlanType): string {
    match t
    case Basic => "basic"
    case Pro => "pro"
    case Premium => "premium"
    case Ultimate => "ultimate"
  }

  /** Reads a stored `type` column; any other string is unknown. */
  function ParsePlanType(s: string): (r: Option<PlanType>)
    ensures r.Some? ==> PlanTypeName(r.value) == s
  {
    if s == "basic" then Some(Basic)
    else if s == "pro" then Some(Pro)
    else if s == "premium" then Some(Premium)
    else if s == "ultimate" then Some(Ultimate)
    else None
  }

  lemma ParsePlanTypeName(t: PlanType)
    ensures ParsePlanType(PlanTypeName(t)) == Some(t)
  {
  }

  /** The `planHierarchy` table. */
  function Rank(t: PlanType): (n: int)
    ensures 1 <= n <= 4
  {
    match t
    case Basic => 1
    case Pro => 2
    case Premium => 3
    case Ultimate => 4
  }

  /** `isPlanSufficient`: the stored plan type ranks at least as high as
      the required one. An unknown stored type looks up `undefined`, and
      no comparison with `undefined` holds. */
  function IsPlanSufficient(userPlan: string, required: PlanType): (r: bool)
    ensures r <==> ParsePlanType(userPlan).Some? && Rank(ParsePlanType(userPlan).value) >= Rank(required)
  {
    match ParsePlanType(userPlan)
    case None => false
    case Some(t) => Rank(t) >= Rank(required)
  }

  /** The hierarchy is a total order on the four plans, with basic at the
      bottom and ultimate at the top; unknown types satisfy nothing. */
  lemma PlanOrder(a: PlanType, b: PlanType, c: PlanType, unknown: string)
    requires ParsePlanType(unknown).None?
    ensures IsPlanSufficient(PlanTypeName(a), a)
    ensures IsPlanSufficient(PlanTypeName(a), b) && IsPlanSufficient(PlanTypeName(b), c) ==>
      IsPlanSufficient(PlanTypeName(a), c)
    ensures IsPlanSufficient(PlanTypeName(a), b) && IsPlanSufficient(PlanTypeName(b), a) ==> a == b
    ensures IsPlanSufficient(PlanTypeName(a), b) || IsPlanSufficient(PlanTypeName(b), a)
    ensures IsPlanSufficient(PlanTypeName(Ultimate), a) && IsPlanSufficient(PlanTypeName(a), Basic)
    ensures !IsPlanSufficient(unknown, a)
  {
    ParsePlanTypeName(a);
    ParsePlanTypeName(b);
    ParsePlanTypeName(Ultimate);
  }

  // ---------------------------------------------------------------------
  // checkUserPermission
  // ---------------------------------------------------------------------

  /** The active subscription as a service method sees it: nothing when
      the store throws. */
  function Active(rows: seq<US.SubscriptionRow>, plans: seq<US.PlanRow>, userId: int, queriedAt: int, fault: bool)
    : (r: Option<US.WithPlan>)
    ensures fault ==> r.None?
    ensures !fault ==> r == US.GetUserActiveSubscription(rows, plans, userId, queriedAt)
  {
    if fault then None else US.GetUserActiveSubscription(rows, plans, userId, queriedAt)
  }

  /** A stored subscription that would grant `required`. */
  predicate Permits(s: US.SubscriptionRow, plans: seq<US.PlanRow>, userId: int, required: PlanType, queriedAt: int, now: int) {
    && US.Selectable(s, plans, userId, queriedAt)
    && s.endDate >= now
    && IsPlanSufficient(US.PlanOf(plans, s.planId).value.planType, required)
  }

  /** `checkUserPermission`: the active subscription has not ended by now
      (ending exactly now still passes), is active, and its plan ranks high
      enough; false when there is none or the store throws. */
  function CheckUserPermission(
    rows: seq<US.SubscriptionRow>, plans: seq<US.PlanRow>, userId: int, required: PlanType,
    queriedAt: int, now: int, fault: bool): (r: bool)
    ensures fault ==> !r
    ensures r ==> exists i :: 0 <= i < |rows| && Permits(rows[i], plans, userId, required, queriedAt, now)
    ensures !fault && queriedAt == now ==>
      var active := US.GetUserActiveSubscription(rows, plans, userId, now);
      (r <==> active.Some? && IsPlanSufficient(active.value.plan.planType, required))
  {
    match Active(rows, plans, userId, queriedAt, fault)
    case None => false
    case Some(w) =>
      if w.subscription.endDate < now || !w.subscription.isActive then false
      else
        var i :| 0 <= i < |rows| && US.Present(rows[i]) == w.subscription;
        assert rows[i].planId == w.subscription.planId;
        IsPlanSufficient(w.plan.planType, required)
  }

  /** Permission for a plan implies permission for every plan ranked no
      higher. */
  lemma PermissionMonotone(
    rows: seq<US.SubscriptionRow>, plans: seq<US.PlanRow>, userId: int, p: PlanType, q: PlanType,
    queriedAt: int, now: int, fault: bool)
    requires Rank(q) <= Rank(p)
    ensures CheckUserPermission(rows, plans, userId, p, queriedAt, now, fault) ==>
      CheckUserPermission(rows, plans, userId, q, queriedAt, now, fault)
  {
  }

  // ---------------------------------------------------------------------
  // getUserSubscriptionSummary / hasActiveSubscription / getUserPlanType
  // ---------------------------------------------------------------------

  const DayMs: int := 1000 * 60 * 60 * 24

  /** `Math.max(0, Math.ceil((end - now) / DAY))`: whole days left, a part
      day counting as one. */
  function DaysRemaining(endDate: int, now: int): (d: int)
    ensures d >= 0
    ensures endDate > now ==> (d - 1) * DayMs < endDate - now <= d * DayMs
    ensures endDate <= now ==> d == 0
    ensures d > 0 <==> endDate > now
  {
    NonNegative(CeilDiv(endDate - now, DayMs))
  }

  datatype SubscriptionSummary = SubscriptionSummary(
    userId: int,
    currentPlan: Option<US.PlanRow>,
    isActive: bool,
    expiresAt: Option<int>,
    daysRemaining: Option<int>)

  /** `getUserSubscriptionSummary`. */
  function GetUserSubscriptionSummary(
    rows: seq<US.SubscriptionRow>, plans: seq<US.PlanRow>, userId: int,
    queriedAt: int, now: int, fault: bool): (s: SubscriptionSummary)
    ensures s.userId == userId
    ensures Active(rows, plans, userId, queriedAt, fault).None? ==>
      s == SubscriptionSummary(userId, None, false, None, None)
    ensures Active(rows, plans, userId, queriedAt, fault).Some? ==>
      var w := Active(rows, plans, userId, queriedAt, fault).value;
      && s.currentPlan == Some(w.plan)
      && s.expiresAt == Some(w.subscription.endDate)
      && (s.isActive <==> w.subscription.isActive && w.subscription.endDate > now)
      && s.daysRemaining.Some? && s.daysRemaining.value >= 0
      && (s.daysRemaining.value > 0 <==> w.subscription.endDate > now)
  {
    match Active(rows, plans, userId, queriedAt, fault)
    case None => SubscriptionSummary(userId, None, false, None, None)
    case Some(w) =>
      SubscriptionSummary(
        userId, Some(w.plan), w.subscription.isActive && w.subscription.endDate > now,
        Some(w.subscription.endDate), Some(DaysRemaining(w.subscription.endDate, now)))
  }

  /** `hasActiveSubscription`: the active subscription is flagged active
      and ends strictly after now. */
  function HasActiveSubscription(
    rows: seq<US.SubscriptionRow>, plans: seq<US.PlanRow>, userId: int,
    queriedAt: int, now: int, fault: bool): (r: bool)
    ensures fault ==> !r
    ensures r ==> exists i :: 0 <= i < |rows| && US.Selectable(rows[i], plans, userId, queriedAt) && rows[i].endDate > now
  {
    match Active(rows, plans, userId, queriedAt, fault)
    case None => false
    case Some(w) =>
      var i :| 0 <= i < |rows| && US.Present(rows[i]) == w.subscription;
      w.subscription.isActive && w.subscription.endDate > now
  }

  /** The summary and `hasActiveSubscription` agree on whether the user is
      subscribed, and a subscribed user has at least one day left. */
  lemma SummaryAgreesWithHasActive(
    rows: seq<US.SubscriptionRow>, plans: seq<US.PlanRow>, userId: int, queriedAt: int, now: int, fault: bool)
    ensures var s := GetUserSubscriptionSummary(rows, plans, userId, queriedAt, now, fault);
      && (s.isActive <==> HasActiveSubscription(rows, plans, userId, queriedAt, now, fault))
      && (s.isActive ==> s.daysRemaining.Some? && s.daysRemaining.value >= 1)
  {
  }

  /** A user with an active subscription has permission for every plan up to
      theirs; permission can hold without `hasActiveSubscription` only on the
      instant the subscription ends. */
  lemma PermissionVersusHasActive(
    rows: seq<US.SubscriptionRow>, plans: seq<US.PlanRow>, userId: int, queriedAt: int, now: int, fault: bool)
    ensures var a := Active(rows, plans, userId, queriedAt, fault);
      && (HasActiveSubscription(rows, plans, userId, queriedAt, now, fault) ==>
            CheckUserPermission(rows, plans, userId, Basic, queriedAt, now, fault) == ParsePlanType(a.value.plan.planType).Some?)
      && (CheckUserPermission(rows, plans, userId, Basic, queriedAt, now, fault)
            && !HasActiveSubscription(rows, plans, userId, queriedAt, now, fault) ==>
            a.value.subscription.endDate == now)
  {
  }

  /** `getUserPlanType`: the stored type of the active subscription's plan,
      or nothing. */
  function GetUserPlanType(
    rows: seq<US.SubscriptionRow>, plans: seq<US.PlanRow>, userId: int, queriedAt: int, fault: bool)
    : (r: Option<string>)
    ensures r.Some? <==> Active(rows, plans, userId, queriedAt, fault).Some?
    ensures r.Some? ==> exists i :: 0 <= i < |plans| && plans[i].planType == r.value
  {
    match Active(rows, plans, userId, queriedAt, fault)
    case None => None
    case Some(w) =>
      var p := US.PlanOf(plans, w.subscription.planId).value;
      var i :| 0 <= i < |plans| && plans[i] == p;
      Some(w.plan.planType)
  }

  // ---------------------------------------------------------------------
  // handlePaymentSuccess
  // ---------------------------------------------------------------------

  const PaymentFailedMessage: string := "Failed to create subscription after payment"

  /** The subscription's end: a month or a year after the start for the two
      known periods, the start itself for any other. `addMonth` and
      `addYear` stand for `setMonth`/`setFullYear` on the local calendar. */
  function EndDate(period: string, start: int, addMonth: int -> int, addYear: int -> int): (e: int)
    ensures period == "monthly" ==> e == addMonth(start)
    ensures period == "yearly" ==> e == addYear(start)
    ensures period != "monthly" && period != "yearly" ==> e == start
  {
    if period == "monthly" then addMonth(start)
    else if period == "yearly" then addYear(start)
    else start
  }

  /** `handlePaymentSuccess`: looks up the plan and records a completed
      subscription for it starting now. A missing plan or a failing store
      gives the one wrapped error. */
  function HandlePaymentSuccess(
    rows: seq<US.SubscriptionRow>, nextId: int, plans: seq<US.PlanRow>,
    userId: int, planId: int, orderId: string, amountPaid: int, paymentMethod: Option<string>,
    now: int, addMonth: int -> int, addYear: int -> int, fault: bool)
    : (r: Result<(seq<US.SubscriptionRow>, US.SubscriptionRow), string>)
    ensures r.Err? <==> fault || US.PlanOf(plans, planId).None?
    ensures r.Err? ==> r.error == PaymentFailedMessage
    ensures r.Ok? ==>
      var (rows', row) := r.value;
      var plan := US.PlanOf(plans, planId).value;
      && |rows'| == |rows| + 1 && rows'[..|rows|] == rows
      && US.Present(rows'[|rows|]) == row
      && row.id == nextId && row.userId == userId && row.planId == planId
      && row.paymentStatus == US.Completed && row.isActive
      && row.startDate == now && row.endDate == EndDate(plan.period, now, addMonth, addYear)
      && rows'[|rows|].orderId == Some(orderId) && row.amountPaid == amountPaid
  {
    if fault then Err(PaymentFailedMessage)
    else
      match US.PlanOf(plans, planId)
      case None => Err(PaymentFailedMessage)
      case Some(plan) =>
        var endDate := EndDate(plan.period, now, addMonth, addYear);
        var (rows', row) := US.CreateUserSubscription(
          rows, nextId, userId, planId, now, endDate, US.Completed, paymentMethod, Some(orderId), amountPaid, now);
        assert rows'[..|rows|] == rows;
        Ok((rows', row))
  }

  /** Right after a successful payment whose period does not end in the
      past, the user has an active subscription that lasts at least as long
      as the one just bought. */
  lemma PaymentActivates(
    rows: seq<US.SubscriptionRow>, nextId: int, plans: seq<US.PlanRow>,
    userId: int, planId: int, orderId: string, amountPaid: int, paymentMethod: Option<string>,
    now: int, addMonth: int -> int, addYear: int -> int)
    requires addMonth(now) >= now && addYear(now) >= now
    ensures var r := HandlePaymentSuccess(rows, nextId, plans, userId, planId, orderId, amountPaid,
      paymentMethod, now, addMonth, addYear, false);
      r.Ok? ==>
        var active := US.GetUserActiveSubscription(r.value.0, plans, userId, now);
        active.Some? && active.value.subscription.endDate >= r.value.1.endDate
  {
    var r := HandlePaymentSuccess(rows, nextId, plans, userId, planId, orderId, amountPaid,
      paymentMethod, now, addMonth, addYear, false);
    if r.Ok? {
      var rows' := r.value.0;
      assert US.Selectable(rows'[|rows|], plans, userId, now);
    }
  }
}

=== FILE: usage_cache.dfy ===
/** The in-memory TTL cache of `src/lib/usage-cache.ts` (`SimpleCache`), its
    key scheme, invalidation helpers and hit/miss counters.

    `Date.now()` is the parameter `now` (milliseconds). The cache is a value:
    every operation that changes it returns the new cache. */
module UsageCache {
  import opened Wrappers
  import opened JsStrings
  import OM = OrderedMap

  /** The default capacity of a `SimpleCache`. */
  const DefaultMaxSize: nat := 1000
  /** Capacity of the usage-status cache and of the fingerprint cache. */
  const UsageCacheMaxSize: nat := 500
  const FingerprintCacheMaxSize: nat := 100
  /** Default lifetimes in milliseconds: of `SimpleCache.set`, of
      `usageCache.set` and of `fingerprintCacheUtil.set`. */
  const DefaultTtl: int := 5 * 60 * 1000
  const UsageTtl: int := 2 * 60 * 1000
  const FingerprintTtl: int := 30 * 60 * 1000

  datatype CacheEntry<T> = CacheEntry(data: T, timestamp: int, ttl: int)

  /** A `SimpleCache`: entries in `Map` insertion order, and the capacity. */
  datatype Cache<T> = Cache(entries: seq<(string, CacheEntry<T>)>, maxSize: nat)

  /** The representation invariant: a `Map` holds each key once. */
  predicate Valid<T>(c: Cache<T>) {
    OM.Unique(c.entries)
  }

  /** A fresh cache. */
  function Empty<T>(maxSize: nat): (c: Cache<T>)
    ensures Valid(c) && Size(c) == 0 && c.maxSize == maxSize
  {
    Cache([], maxSize)
  }

  /** The raw entry under `key`, expired or not. */
  function Lookup<T>(c: Cache<T>, key: string): Option<CacheEntry<T>> {
    OM.Get(c.entries, key)
  }

  /** `size()`. */
  function Size<T>(c: Cache<T>): nat {
    |c.entries|
  }

  /** An entry is stale once strictly more than `ttl` milliseconds have
      passed since it was stored; at exactly `ttl` it is still served. */
  predicate Expired<T>(e: CacheEntry<T>, now: int) {
    now - e.timestamp > e.ttl
  }

  // ---------------------------------------------------------------------
  // Cleanup
  // ---------------------------------------------------------------------

  /** The entries that have not expired at `now`, in order. */
  function Live<T(!new)>(c: Cache<T>, now: int): (r: seq<(string, CacheEntry<T>)>)
    ensures forall x :: x in r <==> x in c.entries && !Expired(x.1, now)
    ensures Valid(c) ==> OM.Unique(r)
    ensures |r| <= |c.entries|
  {
    OM.Filter(c.entries, (_, e) => !Expired(e, now))
  }

  /** The private `cleanup()`: drop the expired entries; if the cache is
      still at capacity, also drop the `floor(maxSize * 0.2)` entries with
      the smallest timestamps (earliest inserted first among equals, as the
      stable sort orders them). */
  function Cleanup<T(!new)>(c: Cache<T>, now: int): (r: Cache<T>)
    requires Valid(c)
    ensures Valid(r) && r.maxSize == c.maxSize
    ensures forall x :: x in r.entries ==> x in c.entries && !Expired(x.1, now)
    ensures |Live(c, now)| < c.maxSize ==> r.entries == Live(c, now)
    ensures |Live(c, now)| >= c.maxSize ==> |r.entries| == |Live(c, now)| - c.maxSize / 5
    ensures forall x, y :: x in Live(c, now) && x !in r.entries && y in r.entries
              ==> x.1.timestamp <= y.1.timestamp
  {
    var live := Live(c, now);
    if |live| >= c.maxSize then
      c.(entries := OM.EvictOldest(live, c.maxSize / 5, (e: CacheEntry<T>) => e.timestamp))
    else
      c.(entries := live)
  }

  // ---------------------------------------------------------------------
  // set / get / delete / clear
  // ---------------------------------------------------------------------

  /** `set(key, data, ttl)`: cleans up first when the cache is at capacity,
      then stores the entry stamped with `now`. */
  function Set<T(!new)>(c: Cache<T>, key: string, data: T, ttl: int, now: int): (r: Cache<T>)
    requires Valid(c)
    ensures Valid(r) && r.maxSize == c.maxSize
    ensures Lookup(r, key) == Some(CacheEntry(data, now, ttl))
    ensures |c.entries| < c.maxSize ==>
              forall k :: k != key ==> Lookup(r, k) == Lookup(c, k)
    ensures forall x :: x in r.entries && x.0 != key ==> x in c.entries
    ensures forall k :: k != key && Lookup(r, k).Some? ==> Lookup(r, k) == Lookup(c, k)
  {
    var base := if |c.entries| >= c.maxSize then Cleanup(c, now) else c;
    var r := base.(entries := OM.Set(base.entries, key, CacheEntry(data, now, ttl)));
    assert forall x :: x in r.entries && x.0 != key ==> x in c.entries by {
      OM.SetKeepsOthers(base.entries, key, CacheEntry(data, now, ttl));
    }
    assert forall k :: k != key && Lookup(r, k).Some? ==> Lookup(r, k) == Lookup(c, k) by {
      forall k | k != key && Lookup(r, k).Some? ensures Lookup(r, k) == Lookup(c, k) {
        assert Lookup(r, k) == Lookup(base, k);
        OM.GetIn(c.entries, (k, Lookup(r, k).value));
      }
    }
    r
  }

  /** `get(key)`: the outcome and the cache afterwards. */
  datatype GetResult<T> = GetResult(cache: Cache<T>, value: Option<T>)

  /** `get(key)`: nothing for an absent key; an expired entry is deleted
      and reported absent; otherwise the stored data. */
  function Get<T(!new)>(c: Cache<T>, key: string, now: int): (r: GetResult<T>)
    requires Valid(c)
    ensures Valid(r.cache) && r.cache.maxSize == c.maxSize
    ensures Lookup(c, key).None? ==> r.value.None? && r.cache == c
    ensures r.value.Some? <==> Lookup(c, key).Some? && !Expired(Lookup(c, key).value, now)
    ensures r.value.Some? ==> r.value.value == Lookup(c, key).value.data && r.cache == c
    ensures r.value.None? ==> Lookup(r.cache, key).None?
    ensures forall k :: k != key ==> Lookup(r.cache, k) == Lookup(c, k)
  {
    match Lookup(c, key)
    case None => GetResult(c, None)
    case Some(e) =>
      if Expired(e, now) then GetResult(c.(entries := OM.Delete(c.entries, key)), None)
      else GetResult(c, Some(e.data))
  }

  /** `delete(key)`: the cache afterwards and whether the key was present. */
  datatype DeleteResult<T> = DeleteResult(cache: Cache<T>, existed: bool)

  function Delete<T(!new)>(c: Cache<T>, key: string): (r: DeleteResult<T>)
    requires Valid(c)
    ensures Valid(r.cache) && r.cache.maxSize == c.maxSize
    ensures r.existed <==> Lookup(c, key).Some?
    ensures Lookup(r.cache, key).None?
    ensures forall k :: k != key ==> Lookup(r.cache, k) == Lookup(c, k)
    ensures Size(r.cache) == if r.existed then Size(c) - 1 else Size(c)
  {
    DeleteResult(c.(entries := OM.Delete(c.entries, key)), key in OM.Keys(c.entries))
  }

  /** `clear()`. */
  function Clear<T>(c: Cache<T>): (r: Cache<T>)
    ensures Valid(r) && Size(r) == 0 && r.maxSize == c.maxSize
    ensures forall k :: Lookup(r, k).None?
  {
    c.(entries := [])
  }

  // ---------------------------------------------------------------------
  // Properties
  // ---------------------------------------------------------------------

  /** What was stored is served back at any time up to `ttl` later. */
  lemma SetThenGet<T(!new)>(c: Cache<T>, key: string, data: T, ttl: int, now: int, later: int)
    requires Valid(c)
    requires now <= later <= now + ttl
    ensures Get(Set(c, key, data, ttl, now), key, later).value == Some(data)
  {
  }

  /** ... and is gone (and removed) once the lifetime has passed. */
  lemma SetThenGetExpired<T(!new)>(c: Cache<T>, key: string, data: T, ttl: int, now: int, later: int)
    requires Valid(c)
    requires later > now + ttl
    ensures Get(Set(c, key, data, ttl, now), key, later).value == None
    ensures Lookup(Get(Set(c, key, data, ttl, now), key, later).cache, key) == None
  {
  }

  /** After `delete(key)` a `get(key)` finds nothing. */
  lemma DeleteThenGet<T(!new)>(c: Cache<T>, key: string, now: int)
    requires Valid(c)
    ensures Get(Delete(c, key).cache, key, now).value == None
  {
  }

  /** With a capacity of at least 5 the cache never holds more than its
      capacity: `cleanup` then removes at least one entry when full, and
      `set` adds at most one. */
  lemma {:induction false} SetKeepsBound<T(!new)>(c: Cache<T>, key: string, data: T, ttl: int, now: int)
    requires Valid(c) && c.maxSize >= 5 && Size(c) <= c.maxSize
    ensures Size(Set(c, key, data, ttl, now)) <= c.maxSize
  {
    var base := if |c.entries| >= c.maxSize then Cleanup(c, now) else c;
    assert |base.entries| < c.maxSize by {
      if |c.entries| >= c.maxSize {
        var live := Live(c, now);
        if |live| >= c.maxSize {
          assert |base.entries| == |live| - c.maxSize / 5;
        }
      }
    }
    assert Set(c, key, data, ttl, now).entries == OM.Set(base.entries, key, CacheEntry(data, now, ttl));
  }

  /** Reads and deletions never grow the cache. */
  lemma GetDeleteShrink<T(!new)>(c: Cache<T>, key: string, now: int)
    requires Valid(c)
    ensures Size(Get(c, key, now).cache) <= Size(c)
    ensures Size(Delete(c, key).cache) <= Size(c)
  {
  }

  // ---------------------------------------------------------------------
  // Keys
  // ---------------------------------------------------------------------

  const UserUsagePrefix: string := "user_usage:"
  const AnonymousUsagePrefix: string := "anonymous_usage:"
  const FingerprintPrefix: string := "fingerprint:"

  /** `getCacheKey.userUsage`, `.anonymousUsage` and `.fingerprint`. */
  function UserUsageKey(userUuid: string): string {
    UserUsagePrefix + userUuid
  }

  function AnonymousUsageKey(fingerprintHash: string): string {
    AnonymousUsagePrefix + fingerprintHash
  }

  function FingerprintKey(sessionId: string): string {
    FingerprintPrefix + sessionId
  }

  /** The three key families never collide, and each is injective. */
  lemma CacheKeysDistinct(a: string, b: string)
    ensures UserUsageKey(a) != AnonymousUsageKey(b)
    ensures UserUsageKey(a) != FingerprintKey(b)
    ensures AnonymousUsageKey(a) != FingerprintKey(b)
    ensures UserUsageKey(a) == UserUsageKey(b) ==> a == b
    ensures AnonymousUsageKey(a) == AnonymousUsageKey(b) ==> a == b
    ensures FingerprintKey(a) == FingerprintKey(b) ==> a == b
  {
    assert UserUsageKey(a)[0] == 'u' && AnonymousUsageKey(b)[0] == 'a' && FingerprintKey(b)[0] == 'f';
    assert AnonymousUsageKey(a)[0] == 'a';
    if UserUsageKey(a) == UserUsageKey(b) {
      assert a == UserUsageKey(a)[|UserUsagePrefix|..];
    }
    if AnonymousUsageKey(a) == AnonymousUsageKey(b) {
      assert a == AnonymousUsageKey(a)[|AnonymousUsagePrefix|..];
    }
    if FingerprintKey(a) == FingerprintKey(b) {
      assert a == FingerprintKey(a)[|FingerprintPrefix|..];
    }
  }

  /** A part of a generated key: a string or an (integer) number. */
  datatype KeyPart = Text(s: string) | Number(n: int)

  function RenderPart(p: KeyPart): string {
    match p
    case Text(s) => s
    case Number(n) => IntToDecimal(n)
  }

  function RenderParts(parts: seq<KeyPart>): (r: seq<string>)
    ensures |r| == |parts|
    ensures forall i :: 0 <= i < |parts| ==> r[i] == RenderPart(parts[i])
  {
    seq(|parts|, i requires 0 <= i < |parts| => RenderPart(parts[i]))
  }

  /** `generateCacheKey(prefix, ...parts)`. */
  function GenerateCacheKey(prefix: string, parts: seq<KeyPart>): string {
    prefix + ":" + Join(RenderParts(parts), ":")
  }

  /** When neither the prefix nor any part contains ':', splitting a
      generated key on ':' gives back the prefix and the rendered parts, so
      distinct inputs give distinct keys. */
  lemma GenerateCacheKeySplits(prefix: string, parts: seq<KeyPart>)
    requires |parts| >= 1
    requires ':' !in prefix
    requires forall i :: 0 <= i < |parts| ==> ':' !in RenderPart(parts[i])
    ensures Split(GenerateCacheKey(prefix, parts), ':') == [prefix] + RenderParts(parts)
  {
    var rendered := RenderParts(parts);
    var all := [prefix] + rendered;
    assert all[1..] == rendered;
    assert Join(all, ":") == GenerateCacheKey(prefix, parts);
    SplitJoin(all, ':');
  }

  // ---------------------------------------------------------------------
  // Invalidation
  // ---------------------------------------------------------------------

  /** `invalidateCache.userUsage`: removes exactly the user's key. */
  function InvalidateUserUsage<T(!new)>(c: Cache<T>, userUuid: string): (r: Cache<T>)
    requires Valid(c)
    ensures Valid(r) && r.maxSize == c.maxSize
    ensures Lookup(r, UserUsageKey(userUuid)).None?
    ensures forall k :: k != UserUsageKey(userUuid) ==> Lookup(r, k) == Lookup(c, k)
  {
    Delete(c, UserUsageKey(userUuid)).cache
  }

  /** `invalidateCache.anonymousUsage`: removes exactly the fingerprint's key. */
  function InvalidateAnonymousUsage<T(!new)>(c: Cache<T>, fingerprintHash: string): (r: Cache<T>)
    requires Valid(c)
    ensures Valid(r) && r.maxSize == c.maxSize
    ensures Lookup(r, AnonymousUsageKey(fingerprintHash)).None?
    ensures forall k :: k != AnonymousUsageKey(fingerprintHash) ==> Lookup(r, k) == Lookup(c, k)
  {
    Delete(c, AnonymousUsageKey(fingerprintHash)).cache
  }

  /** Invalidating one user's entry leaves every anonymous entry alone. */
  lemma InvalidateUserKeepsAnonymous<T(!new)>(c: Cache<T>, userUuid: string, fingerprintHash: string)
    requires Valid(c)
    ensures Lookup(InvalidateUserUsage(c, userUuid), AnonymousUsageKey(fingerprintHash))
            == Lookup(c, AnonymousUsageKey(fingerprintHash))
  {
    CacheKeysDistinct(userUuid, fingerprintHash);
  }

  // ---------------------------------------------------------------------
  // Metrics
  // ---------------------------------------------------------------------

  /** `cacheMetrics`: hit and miss counters. */
  datatype Metrics = Metrics(hits: nat, misses: nat)

  function RecordHit(m: Metrics): (r: Metrics)
    ensures r.hits == m.hits + 1 && r.misses == m.misses
  {
    m.(hits := m.hits + 1)
  }

  function RecordMiss(m: Metrics): (r: Metrics)
    ensures r.misses == m.misses + 1 && r.hits == m.hits
  {
    m.(misses := m.misses + 1)
  }

  function ResetMetrics(): Metrics {
    Metrics(0, 0)
  }

  /** `getHitRate()`: the share of lookups that hit, or 0 before any
      lookup. */
  function HitRate(m: Metrics): (r: real)
    ensures 0.0 <= r <= 1.0
    ensures m.hits + m.misses > 0 ==> r * (m.hits + m.misses) as real == m.hits as real
    ensures m.hits + m.misses == 0 ==> r == 0.0
  {
    var total := m.hits + m.misses;
    if total > 0 then m.hits as real / total as real else 0.0
  }

  /** A hit never lowers the rate and a miss never raises it. */
  lemma HitRateMonotone(m: Metrics)
    ensures HitRate(RecordHit(m)) >= HitRate(m)
    ensures HitRate(RecordMiss(m)) <= HitRate(m)
  {
    var h := m.hits as real;
    var t := (m.hits + m.misses) as real;
    if m.hits + m.misses > 0 {
      assert HitRate(m) == h / t;
      assert HitRate(RecordHit(m)) == (h + 1.0) / (t + 1.0);
      assert HitRate(RecordMiss(m)) == h / (t + 1.0);
      CrossMultiply(h, t, h + 1.0, t + 1.0);
      CrossMultiply(h, t + 1.0, h, t);
    }
  }

  /** Comparing two quotients of positive denominators by cross
      multiplication. */
  lemma CrossMultiply(a: real, b: real, c: real, d: real)
    requires b > 0.0 && d > 0.0 && a * d <= c * b
    ensures a / b <= c / d
  {
    var x := a / b;
    var y := c / d;
    assert x * b == a && y * d == c;
    assert x * (b * d) <= y * (b * d) by {
      assert x * (b * d) == a * d;
      assert y * (b * d) == c * b;
    }
  }
}

=== FILE: usage_limits.dfy ===
/** Usage-limit configuration, status records, limit errors and the small
    validators of `src/lib/usage-limits.ts`. */
module UsageLimits {
  import opened Wrappers
  import opened JsStrings

  /** Lifetime generations for an anonymous fingerprint (default of
      `NEXT_PUBLIC_ANONYMOUS_LIMIT`). */
  const AnonymousLimit: int := 5
  /** Generations per calendar day for a free account (default of
      `NEXT_PUBLIC_FREE_DAILY_LIMIT`). */
  const FreeDailyLimit: int := 10
  /** The sentinel reported for paid accounts: no limit. */
  const Unlimited: int := -1

  datatype UserPlan = Free | Paid
  datatype UserType = Anonymous | Authenticated

  /** What a caller is told about its quota. `resetTime` is a timestamp in
      milliseconds. */
  datatype UsageStatus = UsageStatus(
    userType: UserType,
    plan: Option<UserPlan>,
    remainingCount: int,
    dailyLimit: int,
    canUse: bool,
    resetTime: Option<int>,
    isUnlimited: Option<bool>)

  datatype UsageLimitErrorType =
    | AnonymousLimitExceeded
    | DailyLimitExceeded
    | FingerprintGenerationFailed
    | DatabaseError
    | AuthenticationError
    | ValidationError

  datatype UsageLimitError = UsageLimitError(
    errorType: UsageLimitErrorType,
    message: string,
    upgradeRequired: Option<bool>,
    retryable: bool,
    resetTime: Option<int>)

  datatype UsageCheckResult = UsageCheckResult(
    canUse: bool,
    usageStatus: UsageStatus,
    error: Option<UsageLimitError>)

  // ---------------------------------------------------------------------
  // Plans
  // ---------------------------------------------------------------------

  /** The string stored in the `plan` column for each plan. */
  function PlanName(p: UserPlan): string {
    match p
    case Free => "free"
    case Paid => "paid"
  }

  /** `validateUserPlan`: is the stored string one of the two plan names? */
  predicate ValidateUserPlan(s: string) {
    s == "free" || s == "paid"
  }

  /** The plan a stored string denotes, if any. */
  function ParsePlan(s: string): (p: Option<UserPlan>)
    ensures p.Some? ==> PlanName(p.value) == s
  {
    if s == "free" then Some(Free) else if s == "paid" then Some(Paid) else None
  }

  /** `validateUserPlan` accepts exactly the names of the plans, and each
      name reads back as its plan. */
  lemma ValidateUserPlanExact(s: string, p: UserPlan)
    ensures ValidateUserPlan(s) <==> ParsePlan(s).Some?
    ensures ParsePlan(PlanName(p)) == Some(p)
    ensures ValidateUserPlan(s) <==> exists q :: PlanName(q) == s
  {
    if ValidateUserPlan(s) {
      assert PlanName(ParsePlan(s).value) == s;
    }
  }

  /** The plan the checks act on: a stored value other than `'free'` or
      `'paid'` counts as `'free'`. */
  function EffectivePlan(stored: string): (p: UserPlan)
    ensures p == Paid <==> stored == PlanName(Paid)
  {
    if ValidateUserPlan(stored) && stored == "paid" then Paid else Free
  }

  // ---------------------------------------------------------------------
  // Days
  // ---------------------------------------------------------------------

  /** `isNewDay`: an absent (or empty) last-usage date always starts a new
      day; otherwise a new day starts when the stored date string differs
      from today's. `today` is `getCurrentDateString()`. */
  function IsNewDay(lastUsageDate: Option<string>, today: string): (r: bool)
    ensures lastUsageDate.None? ==> r
    ensures today != "" ==> (r <==> lastUsageDate != Some(today))
  {
    match lastUsageDate
    case None => true
    case Some(d) => if d == "" then true else d != today
  }

  /** The shape `validateDateString` demands before any calendar check:
      four digits, `-`, two digits, `-`, two digits, and nothing else. */
  predicate DateShape(s: string) {
    && |s| == 10
    && AllDigits(s[0..4]) && s[4] == '-'
    && AllDigits(s[5..7]) && s[7] == '-'
    && AllDigits(s[8..10])
  }

  /** `validateDateString`. Whether `new Date(s)` yields a valid date is
      calendar arithmetic supplied by the caller as `isCalendarDate`. */
  function ValidateDateString(s: string, isCalendarDate: string -> bool): (ok: bool)
    ensures ok <==>
      && |s| == 10 && s[4] == '-' && s[7] == '-'
      && (forall i :: 0 <= i < 10 && i != 4 && i != 7 ==> IsDigit(s[i]))
      && isCalendarDate(s)
  {
    if !DateShape(s) then false else isCalendarDate(s)
  }

  // ---------------------------------------------------------------------
  // Counts
  // ---------------------------------------------------------------------

  /** `validateUsageCount` on a JavaScript number (NaN and the infinities,
      which it also rejects, have no `real` counterpart). */
  function ValidateUsageCount(x: real): (ok: bool)
    ensures ok ==> x >= 0.0
  {
    x == x.Floor as real && x >= 0.0
  }

  /** A count is accepted exactly when it is a natural number. */
  lemma ValidateUsageCountNatural(x: real, n: nat)
    ensures ValidateUsageCount(n as real)
    ensures ValidateUsageCount(x) ==> x.Floor >= 0 && x.Floor as real == x
    ensures x < 0.0 || x != x.Floor as real ==> !ValidateUsageCount(x)
  {
  }

  // ---------------------------------------------------------------------
  // Messages and errors
  // ---------------------------------------------------------------------

  /** The three texts `getUsageLimitMessage` can produce, before the numbers
      and the reset time are printed into them. */
  datatype LimitMessage =
    | SignInMessage(limit: int)
    | DailyLimitMessage(limit: int, resetTime: Option<int>)
    | GenericMessage

  /** Which message a status gets: it depends on the user type and plan
      only; the limit and reset time are copied in. */
  function LimitMessageFor(s: UsageStatus): (m: LimitMessage)
    ensures m.SignInMessage? <==> s.userType.Anonymous?
    ensures m.DailyLimitMessage? <==> s.userType.Authenticated? && s.plan == Some(Free)
    ensures !m.GenericMessage? ==> m.limit == s.dailyLimit
    ensures m.DailyLimitMessage? ==> m.resetTime == s.resetTime
  {
    if s.userType.Anonymous? then SignInMessage(s.dailyLimit)
    else if s.plan == Some(Free) then DailyLimitMessage(s.dailyLimit, s.resetTime)
    else GenericMessage
  }

  /** The message text. `localeTime` stands for `toLocaleTimeString`. */
  function RenderMessage(m: LimitMessage, localeTime: int -> string): string {
    match m
    case SignInMessage(limit) =>
      "You've reached your limit of " + IntToDecimal(limit)
      + " free generations. Please sign in for more."
    case DailyLimitMessage(limit, resetTime) =>
      var when := match resetTime case Some(t) => localeTime(t) case None => "midnight";
      "You've reached your daily limit of " + IntToDecimal(limit)
      + " generations. Resets at " + when + " or upgrade to Pro for unlimited access."
    case GenericMessage =>
      "Usage limit exceeded."
  }

  /** `getUsageLimitMessage`. */
  function GetUsageLimitMessage(s: UsageStatus, localeTime: int -> string): string {
    RenderMessage(LimitMessageFor(s), localeTime)
  }

  /** `createUsageLimitError`: an upgrade is suggested exactly to free
      account holders, a limit error is never retryable, and the reset time
      is the status's own. */
  function CreateUsageLimitError(t: UsageLimitErrorType, s: UsageStatus, localeTime: int -> string)
    : (e: UsageLimitError)
    ensures e.errorType == t
    ensures e.upgradeRequired == Some(s.userType == Authenticated && s.plan == Some(Free))
    ensures !e.retryable
    ensures e.resetTime == s.resetTime
    ensures e.message == GetUsageLimitMessage(s, localeTime)
  {
    UsageLimitError(
      t,
      GetUsageLimitMessage(s, localeTime),
      Some(s.userType == Authenticated && s.plan == Some(Free)),
      false,
      s.resetTime)
  }

  /** The upgrade flag of a limit error is set exactly when its message is
      the daily-limit text that offers the upgrade; an anonymous user is
      told to sign in instead. */
  lemma UpgradeFlagMatchesMessage(t: UsageLimitErrorType, s: UsageStatus, localeTime: int -> string)
    ensures CreateUsageLimitError(t, s, localeTime).upgradeRequired == Some(LimitMessageFor(s).DailyLimitMessage?)
    ensures s.userType == Anonymous ==>
      CreateUsageLimitError(t, s, localeTime).upgradeRequired == Some(false)
      && LimitMessageFor(s) == SignInMessage(s.dailyLimit)
  {
  }
}

=== FILE: usage_verification.dfy ===
/** The admission checks and consumption commits of
    `src/lib/usage-verification.ts`, over an environment holding the two
    tables, the shared usage cache and its hit/miss counters.

    The clock (`now`), today's date string (`today`), the next local
    midnight (`nextReset`) and `toLocaleTimeString` (`localeTime`) are
    parameters. `fault` makes the store call of the operation throw. */
module UsageVerification {
  import opened Wrappers
  import opened UsageLimits
  import opened JsNumbers
  import U = Users
  import A = AnonymousUsage
  import UC = UsageCache

  /** The cache holds whatever record was put under a key: user rows under
      `user_usage:` keys, anonymous rows under `anonymous_usage:` keys. */
  datatype Cached = CachedUser(user: U.UserRow) | CachedAnon(anon: A.AnonRow)

  datatype Env = Env(
    users: seq<U.UserRow>,
    anon: A.AnonTable,
    cache: UC.Cache<Cached>,
    metrics: UC.Metrics)

  predicate ValidEnv(e: Env) {
    U.UniqueUuids(e.users) && A.Valid(e.anon) && UC.Valid(e.cache)
  }

  /** Time-to-live of cached anonymous records. */
  const AnonymousCacheTtl: int := 5 * 60 * 1000

  // ---------------------------------------------------------------------
  // What the checks read from a record
  // ---------------------------------------------------------------------

  /** The three fields the authenticated check reads. */
  datatype UsageRecord = UsageRecord(plan: string, usageCount: int, lastUsageDate: Option<string>)

  function UserRecord(u: U.UserRow): UsageRecord {
    UsageRecord(u.plan, u.usageCount, u.lastUsageDate)
  }

  /** A cached record read as a user. Were an anonymous row found under a
      user key, its missing `plan` fails `validateUserPlan` (so the plan is
      `'free'`) and its missing `last_usage_date` starts a new day. */
  function ReadUser(c: Cached): (r: UsageRecord)
    ensures c.CachedUser? ==> r == UserRecord(c.user)
    ensures c.CachedAnon? ==> EffectivePlan(r.plan) == Free && r.lastUsageDate.None?
  {
    match c
    case CachedUser(u) => UserRecord(u)
    case CachedAnon(a) => UsageRecord("", a.usageCount, None)
  }

  /** `usage?.usage_count || 0` on a cached record. */
  function ReadAnonCount(c: Cached): int {
    match c
    case CachedAnon(a) => a.usageCount
    case CachedUser(u) => u.usageCount
  }

  // ---------------------------------------------------------------------
  // Statuses
  // ---------------------------------------------------------------------

  /** The status every paid account gets. */
  const PaidStatus: UsageStatus :=
    UsageStatus(Authenticated, Some(Paid), Unlimited, Unlimited, true, None, Some(true))

  /** Usage counted today: 0 on a new day, the stored count otherwise. */
  function EffectiveUsage(r: UsageRecord, today: string): (n: int)
    ensures today != "" ==> n == (if r.lastUsageDate == Some(today) then r.usageCount else 0)
  {
    if IsNewDay(r.lastUsageDate, today) then 0 else r.usageCount
  }

  /** The status of a free account that has used `used` generations today. */
  function FreeStatus(used: int, nextReset: int): (s: UsageStatus)
    ensures s.userType == Authenticated && s.plan == Some(Free)
    ensures s.dailyLimit == FreeDailyLimit
    ensures used >= 0 ==> s.remainingCount <= FreeDailyLimit
    ensures s.remainingCount == NonNegative(FreeDailyLimit - used)
    ensures s.canUse <==> used < FreeDailyLimit
    ensures s.resetTime == Some(nextReset) && s.isUnlimited.None?
  {
    var remaining := NonNegative(FreeDailyLimit - used);
    UsageStatus(Authenticated, Some(Free), remaining, FreeDailyLimit, remaining > 0, Some(nextReset), None)
  }

  /** The status of an anonymous fingerprint with `used` lifetime
      generations; it carries no reset time. */
  function AnonStatus(used: int): (s: UsageStatus)
    ensures s.userType == Anonymous && s.plan.None?
    ensures s.dailyLimit == AnonymousLimit
    ensures s.remainingCount == NonNegative(AnonymousLimit - used)
    ensures used >= 0 ==> s.remainingCount <= AnonymousLimit
    ensures s.canUse <==> used < AnonymousLimit
    ensures s.resetTime.None? && s.isUnlimited.None?
  {
    var remaining := NonNegative(AnonymousLimit - used);
    UsageStatus(Anonymous, None, remaining, AnonymousLimit, remaining > 0, None, None)
  }

  /** The status of a found account, as all three functions compute it. */
  function AccountStatus(r: UsageRecord, today: string, nextReset: int): (s: UsageStatus)
    ensures EffectivePlan(r.plan) == Paid ==> s == PaidStatus
    ensures EffectivePlan(r.plan) == Free ==> s == FreeStatus(EffectiveUsage(r, today), nextReset)
  {
    if EffectivePlan(r.plan) == Paid then PaidStatus
    else FreeStatus(EffectiveUsage(r, today), nextReset)
  }

  // ---------------------------------------------------------------------
  // checkAuthenticatedUserLimits
  // ---------------------------------------------------------------------

  const UserNotFoundStatus: UsageStatus :=
    UsageStatus(Authenticated, None, 0, 0, false, None, None)

  const UserNotFoundError: UsageLimitError :=
    UsageLimitError(AuthenticationError, "User not found", None, false, None)

  /** The fail-closed answer when the store throws. */
  function StoreFailure(t: UserType): (r: UsageCheckResult)
    ensures !r.canUse && !r.usageStatus.canUse && r.usageStatus.remainingCount == 0
    ensures r.usageStatus.userType == t
    ensures r.error.Some? && r.error.value.errorType == DatabaseError && r.error.value.retryable
  {
    var status := UsageStatus(t, None, 0, if t == Anonymous then AnonymousLimit else 0, false, None, None);
    var message := if t == Anonymous then "Failed to check usage limits" else "Failed to check user limits";
    UsageCheckResult(false, status, Some(UsageLimitError(DatabaseError, message, None, true, None)))
  }

  /** Grants or denies on a status: a denial carries the limit error of the
      given type. */
  function Admit(s: UsageStatus, t: UsageLimitErrorType, localeTime: int -> string): (r: UsageCheckResult)
    ensures r.usageStatus == s && r.canUse == s.canUse
    ensures r.error.None? <==> s.canUse
    ensures r.error.Some? ==> r.error.value == CreateUsageLimitError(t, s, localeTime)
  {
    if s.canUse then UsageCheckResult(true, s, None)
    else UsageCheckResult(false, s, Some(CreateUsageLimitError(t, s, localeTime)))
  }

  /** The decision once the record is known (or known to be absent). */
  function DecideAuthenticated(rec: Option<UsageRecord>, today: string, nextReset: int, localeTime: int -> string)
    : (r: UsageCheckResult)
    ensures rec.None? ==> r == UsageCheckResult(false, UserNotFoundStatus, Some(UserNotFoundError))
    ensures rec.Some? ==> r == Admit(AccountStatus(rec.value, today, nextReset), DailyLimitExceeded, localeTime)
  {
    match rec
    case None => UsageCheckResult(false, UserNotFoundStatus, Some(UserNotFoundError))
    case Some(u) => Admit(AccountStatus(u, today, nextReset), DailyLimitExceeded, localeTime)
  }

  /** `checkAuthenticatedUserLimits`. A live cache entry answers without
      reading the store; on a miss the store row is read and, when found,
      cached for two minutes. */
  function CheckAuthenticated(
    e: Env, userUuid: string, now: int, today: string, nextReset: int, fault: bool,
    localeTime: int -> string): (r: (Env, UsageCheckResult))
    requires ValidEnv(e)
    ensures ValidEnv(r.0)
    ensures r.0.users == e.users && r.0.anon == e.anon
    ensures r.1.canUse == r.1.usageStatus.canUse
    ensures r.1.canUse ==> r.1.error.None?
    ensures !r.1.canUse ==> r.1.error.Some?
    ensures r.1.usageStatus.plan == Some(Paid) ==> r.1.canUse && r.1.usageStatus == PaidStatus
    ensures r.1.usageStatus.plan == Some(Free) ==>
      && r.1.usageStatus.remainingCount >= 0
      && (r.1.canUse <==> r.1.usageStatus.remainingCount > 0)
      && (!r.1.canUse ==> r.1.error.Some? && r.1.error.value.errorType == DailyLimitExceeded && r.1.error.value.upgradeRequired == Some(true))
    ensures
      var g := UC.Get(e.cache, UC.UserUsageKey(userUuid), now);
      && (g.value.Some? ==>
            && r.0.metrics == UC.RecordHit(e.metrics)
            && r.0.cache == g.cache
            && r.1 == DecideAuthenticated(Some(ReadUser(g.value.value)), today, nextReset, localeTime))
      && (g.value.None? ==> r.0.metrics == UC.RecordMiss(e.metrics))
      && (g.value.None? && fault ==> r.1 == StoreFailure(Authenticated) && r.0.cache == g.cache)
      && (g.value.None? && !fault ==>
            var found := U.GetUserUsageInfo(e.users, userUuid);
            && r.1 == DecideAuthenticated(if found.Some? then Some(UserRecord(found.value)) else None, today, nextReset, localeTime)
            && (found.Some? ==> UC.Lookup(r.0.cache, UC.UserUsageKey(userUuid)) == Some(UC.CacheEntry(CachedUser(found.value), now, UC.UsageTtl)))
            && (found.None? ==> r.0.cache == g.cache))
    ensures forall k :: k != UC.UserUsageKey(userUuid) && UC.Lookup(r.0.cache, k).Some? ==>
      UC.Lookup(r.0.cache, k) == UC.Lookup(e.cache, k)
  {
    var key := UC.UserUsageKey(userUuid);
    var g := UC.Get(e.cache, key, now);
    match g.value
    case Some(c) =>
      (e.(cache := g.cache, metrics := UC.RecordHit(e.metrics)),
       DecideAuthenticated(Some(ReadUser(c)), today, nextReset, localeTime))
    case None =>
      var e1 := e.(cache := g.cache, metrics := UC.RecordMiss(e.metrics));
      if fault then (e1, StoreFailure(Authenticated))
      else
        match U.GetUserUsageInfo(e.users, userUuid)
        case None => (e1, DecideAuthenticated(None, today, nextReset, localeTime))
        case Some(u) =>
          (e1.(cache := UC.Set(g.cache, key, CachedUser(u), UC.UsageTtl, now)),
           DecideAuthenticated(Some(UserRecord(u)), today, nextReset, localeTime))
  }

  /** A cache hit does not read the store: the answer is the same whatever
      the tables hold and whether or not the store would fail. */
  lemma CacheHitSkipsStore(
    e: Env, users': seq<U.UserRow>, anon': A.AnonTable, userUuid: string, fingerprintHash: string,
    now: int, today: string, nextReset: int, fault: bool, fault': bool, localeTime: int -> string)
    requires ValidEnv(e) && U.UniqueUuids(users') && A.Valid(anon')
    ensures UC.Get(e.cache, UC.UserUsageKey(userUuid), now).value.Some? ==>
      CheckAuthenticated(e, userUuid, now, today, nextReset, fault, localeTime).1
        == CheckAuthenticated(e.(users := users', anon := anon'), userUuid, now, today, nextReset, fault', localeTime).1
    ensures UC.Get(e.cache, UC.AnonymousUsageKey(fingerprintHash), now).value.Some? ==>
      CheckAnonymous(e, fingerprintHash, now, fault, localeTime).1
        == CheckAnonymous(e.(users := users', anon := anon'), fingerprintHash, now, fault', localeTime).1
  {
  }

  // ---------------------------------------------------------------------
  // checkAnonymousUserLimits
  // ---------------------------------------------------------------------

  /** `checkAnonymousUserLimits`: a live cache entry answers; on a miss the
      row is read and, when found, cached for five minutes. An absent row
      counts as no use. */
  function CheckAnonymous(e: Env, fingerprintHash: string, now: int, fault: bool, localeTime: int -> string)
    : (r: (Env, UsageCheckResult))
    requires ValidEnv(e)
    ensures ValidEnv(r.0)
    ensures r.0.users == e.users && r.0.anon == e.anon
    ensures r.1.usageStatus.userType == Anonymous
    ensures r.1.canUse == r.1.usageStatus.canUse
    ensures r.1.usageStatus.remainingCount >= 0
    ensures r.1.usageStatus.dailyLimit == AnonymousLimit
    ensures r.1.usageStatus.resetTime.None?
    ensures !r.1.canUse ==> r.1.error.Some?
    ensures
      var g := UC.Get(e.cache, UC.AnonymousUsageKey(fingerprintHash), now);
      && (g.value.Some? ==>
            && r.0.metrics == UC.RecordHit(e.metrics) && r.0.cache == g.cache
            && r.1 == Admit(AnonStatus(ReadAnonCount(g.value.value)), AnonymousLimitExceeded, localeTime))
      && (g.value.None? ==> r.0.metrics == UC.RecordMiss(e.metrics))
      && (g.value.None? && fault ==> r.1 == StoreFailure(Anonymous) && r.0.cache == g.cache)
      && (g.value.None? && !fault ==>
            var found := A.Find(e.anon, fingerprintHash);
            && r.1 == Admit(AnonStatus(if found.Some? then found.value.usageCount else 0), AnonymousLimitExceeded, localeTime)
            && (found.Some? ==> UC.Lookup(r.0.cache, UC.AnonymousUsageKey(fingerprintHash)) == Some(UC.CacheEntry(CachedAnon(found.value), now, AnonymousCacheTtl)))
            && (found.None? ==> r.0.cache == g.cache))
    ensures forall k :: k != UC.AnonymousUsageKey(fingerprintHash) && UC.Lookup(r.0.cache, k).Some? ==>
      UC.Lookup(r.0.cache, k) == UC.Lookup(e.cache, k)
  {
    var key := UC.AnonymousUsageKey(fingerprintHash);
    var g := UC.Get(e.cache, key, now);
    match g.value
    case Some(c) =>
      (e.(cache := g.cache, metrics := UC.RecordHit(e.metrics)),
       Admit(AnonStatus(ReadAnonCount(c)), AnonymousLimitExceeded, localeTime))
    case None =>
      var e1 := e.(cache := g.cache, metrics := UC.RecordMiss(e.metrics));
      if fault then (e1, StoreFailure(Anonymous))
      else
        match A.Find(e.anon, fingerprintHash)
        case None => (e1, Admit(AnonStatus(0), AnonymousLimitExceeded, localeTime))
        case Some(row) =>
          (e1.(cache := UC.Set(g.cache, key, CachedAnon(row), AnonymousCacheTtl, now)),
           Admit(AnonStatus(row.usageCount), AnonymousLimitExceeded, localeTime))
  }

  /** A denied anonymous check tells the user to sign in and offers no
      upgrade. */
  lemma AnonymousDenialSaysSignIn(e: Env, fingerprintHash: string, now: int, fault: bool, localeTime: int -> string)
    requires ValidEnv(e)
    ensures var r := CheckAnonymous(e, fingerprintHash, now, fault, localeTime).1;
      !r.canUse && r.error.value.errorType != DatabaseError ==>
        && r.error.value.errorType == AnonymousLimitExceeded
        && r.error.value.upgradeRequired == Some(false)
        && !r.error.value.retryable
        && LimitMessageFor(r.usageStatus) == SignInMessage(AnonymousLimit)
  {
  }

  // ---------------------------------------------------------------------
  // updateAuthenticatedUserUsage / updateAnonymousUserUsage
  // ---------------------------------------------------------------------

  /** Why a commit throws. */
  datatype CommitError = UserNotFound | UpdateFailed | StoreFault

  /** `updateAuthenticatedUserUsage`, run after a successful generation. A
      paid account is not written. A free account's count restarts at 1 with
      today's date on a new day and goes up by one otherwise; the cache
      entry is invalidated and replaced by the written row. */
  function UpdateAuthenticated(e: Env, userUuid: string, now: int, today: string, nextReset: int, fault: bool)
    : (r: Result<(Env, UsageStatus), CommitError>)
    requires ValidEnv(e)
    ensures fault ==> r == Err(StoreFault)
    ensures !fault && U.GetUserUsageInfo(e.users, userUuid).None? ==> r == Err(UserNotFound)
    ensures r.Ok? ==> ValidEnv(r.value.0) && r.value.0.anon == e.anon && r.value.0.metrics == e.metrics
    ensures r.Ok? ==> U.OnlyRowChanged(e.users, r.value.0.users, userUuid)
    ensures r.Ok? && r.value.1.plan == Some(Paid) ==> r.value.0 == e && r.value.1 == PaidStatus
    ensures r.Ok? && r.value.1.plan != Some(Paid) ==>
      var before := U.GetUserUsageInfo(e.users, userUuid).value;
      var after := U.GetUserUsageInfo(r.value.0.users, userUuid).value;
      && EffectivePlan(before.plan) == Free
      && after.usageCount == (if IsNewDay(before.lastUsageDate, today) then 1 else before.usageCount + 1)
      && after.lastUsageDate == (if IsNewDay(before.lastUsageDate, today) then Some(today) else before.lastUsageDate)
      && after.plan == before.plan
      && r.value.1 == FreeStatus(after.usageCount, nextReset)
      && UC.Lookup(r.value.0.cache, UC.UserUsageKey(userUuid)) == Some(UC.CacheEntry(CachedUser(after), now, UC.UsageTtl))
    ensures r.Ok? ==> forall k :: k != UC.UserUsageKey(userUuid) && UC.Lookup(r.value.0.cache, k).Some? ==>
      UC.Lookup(r.value.0.cache, k) == UC.Lookup(e.cache, k)
    ensures !fault && U.GetUserUsageInfo(e.users, userUuid).Some? ==> r.Ok?
  {
    if fault then Err(StoreFault)
    else
      match U.GetUserUsageInfo(e.users, userUuid)
      case None => Err(UserNotFound)
      case Some(user) =>
        if EffectivePlan(user.plan) == Paid then Ok((e, PaidStatus))
        else
          var (users', updated) :=
            if IsNewDay(user.lastUsageDate, today) then U.ResetUserDailyUsage(e.users, userUuid, today, now)
            else U.IncrementUserUsageCount(e.users, userUuid, now);
          match updated
          case None => Err(UpdateFailed)
          case Some(row) =>
            U.GetUserUsageInfoIsTheRow(users', row);
            var cache1 := UC.InvalidateUserUsage(e.cache, userUuid);
            var status := FreeStatus(row.usageCount, nextReset);
            var cache2 := UC.Set(cache1, UC.UserUsageKey(userUuid), CachedUser(row), UC.UsageTtl, now);
            Ok((e.(users := users', cache := cache2), status))
  }

  /** `updateAnonymousUserUsage`: upserts the row, invalidates its cache
      entry and caches the written row for five minutes. */
  function UpdateAnonymous(e: Env, fingerprintHash: string, now: int, fault: bool)
    : (r: Result<(Env, UsageStatus), CommitError>)
    requires ValidEnv(e)
    ensures fault <==> r.Err?
    ensures r.Ok? ==>
      var (e', status) := r.value;
      var row := A.Upsert(e.anon, fingerprintHash, now).1;
      && ValidEnv(e') && e'.users == e.users && e'.metrics == e.metrics
      && e'.anon == A.Upsert(e.anon, fingerprintHash, now).0
      && status == AnonStatus(row.usageCount)
      && UC.Lookup(e'.cache, UC.AnonymousUsageKey(fingerprintHash)) == Some(UC.CacheEntry(CachedAnon(row), now, AnonymousCacheTtl))
    ensures r.Ok? ==> forall k :: k != UC.AnonymousUsageKey(fingerprintHash) && UC.Lookup(r.value.0.cache, k).Some? ==>
      UC.Lookup(r.value.0.cache, k) == UC.Lookup(e.cache, k)
  {
    if fault then Err(StoreFault)
    else
      var (anon', row) := A.Upsert(e.anon, fingerprintHash, now);
      var cache1 := UC.InvalidateAnonymousUsage(e.cache, fingerprintHash);
      var status := AnonStatus(row.usageCount);
      var cache2 := UC.Set(cache1, UC.AnonymousUsageKey(fingerprintHash), CachedAnon(row), AnonymousCacheTtl, now);
      Ok((e.(anon := anon', cache := cache2), status))
  }

  /** After a commit, a check within the cache lifetime is answered from
      the freshly written record, never the pre-commit one: it reports
      exactly the status the commit returned. */
  lemma CommitThenCheckAgrees(
    e: Env, userUuid: string, now: int, later: int, today: string, nextReset: int,
    fault: bool, localeTime: int -> string)
    requires ValidEnv(e) && today != ""
    requires now <= later <= now + UC.UsageTtl
    requires UpdateAuthenticated(e, userUuid, now, today, nextReset, false).Ok?
    requires UpdateAuthenticated(e, userUuid, now, today, nextReset, false).value.1.plan == Some(Free)
    ensures var (e', status) := UpdateAuthenticated(e, userUuid, now, today, nextReset, false).value;
      CheckAuthenticated(e', userUuid, later, today, nextReset, fault, localeTime).1.usageStatus == status
  {
    var (e', status) := UpdateAuthenticated(e, userUuid, now, today, nextReset, false).value;
    var before := U.GetUserUsageInfo(e.users, userUuid).value;
    var after := U.GetUserUsageInfo(e'.users, userUuid).value;
    assert !UC.Expired(UC.CacheEntry(CachedUser(after), now, UC.UsageTtl), later);
    assert after.lastUsageDate == Some(today) by {
      if !IsNewDay(before.lastUsageDate, today) {
        assert before.lastUsageDate == Some(today);
      }
    }
  }

  /** The same for an anonymous commit and check. */
  lemma AnonymousCommitThenCheckAgrees(
    e: Env, fingerprintHash: string, now: int, later: int, fault: bool, localeTime: int -> string)
    requires ValidEnv(e)
    requires now <= later <= now + AnonymousCacheTtl
    ensures var (e', status) := UpdateAnonymous(e, fingerprintHash, now, false).value;
      CheckAnonymous(e', fingerprintHash, later, fault, localeTime).1.usageStatus == status
  {
    var (e', status) := UpdateAnonymous(e, fingerprintHash, now, false).value;
    var row := A.Upsert(e.anon, fingerprintHash, now).1;
    assert !UC.Expired(UC.CacheEntry(CachedAnon(row), now, AnonymousCacheTtl), later);
  }

  // ---------------------------------------------------------------------
  // getCurrentUsageStatus
  // ---------------------------------------------------------------------

  /** `if (userUuid)`: a present, non-empty uuid. */
  predicate Signed(userUuid: Option<string>) {
    userUuid.Some? && userUuid.value != ""
  }

  /** The safe default returned when anything throws. */
  function DefaultStatus(userUuid: Option<string>): (s: UsageStatus)
    ensures !s.canUse && s.remainingCount == 0
    ensures s.userType == (if Signed(userUuid) then Authenticated else Anonymous)
    ensures s.dailyLimit == (if Signed(userUuid) then FreeDailyLimit else AnonymousLimit)
  {
    if Signed(userUuid) then UsageStatus(Authenticated, None, 0, FreeDailyLimit, false, None, None)
    else UsageStatus(Anonymous, None, 0, AnonymousLimit, false, None, None)
  }

  /** `getCurrentUsageStatus`: reads the store directly (no cache) and never
      throws; a missing user or a store fault gives the default. */
  function GetCurrentUsageStatus(
    e: Env, userUuid: Option<string>, fingerprintHash: string, today: string, nextReset: int, fault: bool)
    : (s: UsageStatus)
    ensures fault ==> s == DefaultStatus(userUuid)
    ensures s.userType == (if Signed(userUuid) then Authenticated else Anonymous)
    ensures Signed(userUuid) && U.GetUserUsageInfo(e.users, userUuid.value).None? ==> s == DefaultStatus(userUuid)
    ensures !fault && Signed(userUuid) && U.GetUserUsageInfo(e.users, userUuid.value).Some? ==>
      s == AccountStatus(UserRecord(U.GetUserUsageInfo(e.users, userUuid.value).value), today, nextReset)
    ensures !fault && !Signed(userUuid) ==>
      var found := A.Find(e.anon, fingerprintHash);
      s == AnonStatus(if found.Some? then found.value.usageCount else 0)
  {
    if fault then DefaultStatus(userUuid)
    else if Signed(userUuid) then
      match U.GetUserUsageInfo(e.users, userUuid.value)
      case None => DefaultStatus(userUuid)
      case Some(u) => AccountStatus(UserRecord(u), today, nextReset)
    else
      var found := A.Find(e.anon, fingerprintHash);
      AnonStatus(if found.Some? then found.value.usageCount else 0)
  }

  /** On a cache miss the check reports the same status as
      `getCurrentUsageStatus` for every account that exists. */
  lemma FreshCheckMatchesCurrentStatus(
    e: Env, userUuid: string, fingerprintHash: string, now: int, today: string, nextReset: int,
    localeTime: int -> string)
    requires ValidEnv(e) && userUuid != ""
    requires UC.Get(e.cache, UC.UserUsageKey(userUuid), now).value.None?
    requires U.GetUserUsageInfo(e.users, userUuid).Some?
    ensures CheckAuthenticated(e, userUuid, now, today, nextReset, false, localeTime).1.usageStatus
      == GetCurrentUsageStatus(e, Some(userUuid), fingerprintHash, today, nextReset, false)
  {
  }

  /** A commit spends exactly one generation: the remaining count read from
      the store afterwards is one less (but never below zero) than before. */
  lemma CommitSpendsOne(e: Env, userUuid: string, fingerprintHash: string, now: int, today: string, nextReset: int)
    requires ValidEnv(e) && userUuid != "" && today != ""
    requires UpdateAuthenticated(e, userUuid, now, today, nextReset, false).Ok?
    ensures var e' := UpdateAuthenticated(e, userUuid, now, today, nextReset, false).value.0;
      var before := GetCurrentUsageStatus(e, Some(userUuid), fingerprintHash, today, nextReset, false);
      var after := GetCurrentUsageStatus(e', Some(userUuid), fingerprintHash, today, nextReset, false);
      after.remainingCount == if before.plan == Some(Paid) then Unlimited else NonNegative(before.remainingCount - 1)
  {
    var (e', status) := UpdateAuthenticated(e, userUuid, now, today, nextReset, false).value;
    var b := U.GetUserUsageInfo(e.users, userUuid).value;
    if EffectivePlan(b.plan) == Free {
      var a := U.GetUserUsageInfo(e'.users, userUuid).value;
      assert a.lastUsageDate == Some(today) by {
        if !IsNewDay(b.lastUsageDate, today) {
          assert b.lastUsageDate == Some(today);
        }
      }
    }
  }

  /** The anonymous commit spends exactly one generation too. */
  lemma AnonymousCommitSpendsOne(e: Env, fingerprintHash: string, now: int, today: string, nextReset: int)
    requires ValidEnv(e) && A.NonNegativeCounts(e.anon)
    ensures var e' := UpdateAnonymous(e, fingerprintHash, now, false).value.0;
      var before := GetCurrentUsageStatus(e, None, fingerprintHash, today, nextReset, false);
      var after := GetCurrentUsageStatus(e', None, fingerprintHash, today, nextReset, false);
      after.remainingCount == NonNegative(before.remainingCount - 1)
  {
    var e' := UpdateAnonymous(e, fingerprintHash, now, false).value.0;
    var row := A.Upsert(e.anon, fingerprintHash, now).1;
    assert A.Find(e'.anon, fingerprintHash) == Some(row);
    A.UpsertAtLeastOne(e.anon, fingerprintHash, now);
  }

  // ---------------------------------------------------------------------
  // Cache coherence
  // ---------------------------------------------------------------------

  /** The entry under `u`'s user key, if any, holds `u`'s current row. */
  predicate UserEntryCoherent(e: Env, u: string) {
    var l := UC.Lookup(e.cache, UC.UserUsageKey(u));
    var found := U.GetUserUsageInfo(e.users, u);
    l.Some? ==> found.Some? && l.value.data == CachedUser(found.value)
  }

  /** The entry under `f`'s anonymous key, if any, holds `f`'s current row. */
  predicate AnonEntryCoherent(e: Env, f: string) {
    var l := UC.Lookup(e.cache, UC.AnonymousUsageKey(f));
    var found := A.Find(e.anon, f);
    l.Some? ==> found.Some? && l.value.data == CachedAnon(found.value)
  }

  /** Every usage entry in the cache, live or expired, agrees with the
      tables. */
  ghost predicate Coherent(e: Env) {
    && (forall u :: UserEntryCoherent(e, u))
    && (forall f :: AnonEntryCoherent(e, f))
  }

  /** An empty cache is coherent with any tables. */
  lemma EmptyCacheCoherent(e: Env)
    requires forall k :: UC.Lookup(e.cache, k).None?
    ensures Coherent(e)
  {
  }

  /** The authenticated check keeps the cache coherent, and whenever it
      grants, or the store does not fail, its answer is the one the tables
      give: a cached answer is never stale. */
  lemma CheckAuthenticatedCoherent(
    e: Env, userUuid: string, now: int, today: string, nextReset: int, fault: bool,
    localeTime: int -> string)
    requires ValidEnv(e) && Coherent(e)
    ensures var r := CheckAuthenticated(e, userUuid, now, today, nextReset, fault, localeTime);
      var found := U.GetUserUsageInfo(e.users, userUuid);
      var direct := DecideAuthenticated(if found.Some? then Some(UserRecord(found.value)) else None, today, nextReset, localeTime);
      && Coherent(r.0)
      && (!fault || r.1.canUse ==> r.1 == direct)
  {
    var r := CheckAuthenticated(e, userUuid, now, today, nextReset, fault, localeTime);
    assert UserEntryCoherent(e, userUuid);
    UserWriteKeepsCoherent(e, r.0, userUuid);
  }

  /** The same for the anonymous check. */
  lemma CheckAnonymousCoherent(e: Env, fingerprintHash: string, now: int, fault: bool, localeTime: int -> string)
    requires ValidEnv(e) && Coherent(e)
    ensures var r := CheckAnonymous(e, fingerprintHash, now, fault, localeTime);
      var found := A.Find(e.anon, fingerprintHash);
      var direct := Admit(AnonStatus(if found.Some? then found.value.usageCount else 0), AnonymousLimitExceeded, localeTime);
      && Coherent(r.0)
      && (!fault || r.1.canUse ==> r.1 == direct)
  {
    var r := CheckAnonymous(e, fingerprintHash, now, fault, localeTime);
    assert AnonEntryCoherent(e, fingerprintHash);
    AnonWriteKeepsCoherent(e, r.0, fingerprintHash);
  }

  /** Rewriting one user's row and cache entry keeps the cache coherent,
      provided the new entry holds the new row and every other entry is
      either gone or untouched. */
  lemma UserWriteKeepsCoherent(e: Env, e': Env, userUuid: string)
    requires Coherent(e) && e'.anon == e.anon
    requires forall u :: u != userUuid ==> U.GetUserUsageInfo(e'.users, u) == U.GetUserUsageInfo(e.users, u)
    requires forall k :: k != UC.UserUsageKey(userUuid) && UC.Lookup(e'.cache, k).Some? ==>
      UC.Lookup(e'.cache, k) == UC.Lookup(e.cache, k)
    requires UserEntryCoherent(e', userUuid)
    ensures Coherent(e')
  {
    forall u ensures UserEntryCoherent(e', u) {
      if u != userUuid {
        assert UserEntryCoherent(e, u);
        UC.CacheKeysDistinct(u, userUuid);
      }
    }
    forall f ensures AnonEntryCoherent(e', f) {
      assert AnonEntryCoherent(e, f);
      UC.CacheKeysDistinct(userUuid, f);
    }
  }

  /** The same for one fingerprint's row and cache entry. */
  lemma AnonWriteKeepsCoherent(e: Env, e': Env, fingerprintHash: string)
    requires Coherent(e) && e'.users == e.users
    requires forall f :: f != fingerprintHash ==> A.Find(e'.anon, f) == A.Find(e.anon, f)
    requires forall k :: k != UC.AnonymousUsageKey(fingerprintHash) && UC.Lookup(e'.cache, k).Some? ==>
      UC.Lookup(e'.cache, k) == UC.Lookup(e.cache, k)
    requires AnonEntryCoherent(e', fingerprintHash)
    ensures Coherent(e')
  {
    forall f ensures AnonEntryCoherent(e', f) {
      if f != fingerprintHash {
        assert AnonEntryCoherent(e, f);
        UC.CacheKeysDistinct(f, fingerprintHash);
      }
    }
    forall u ensures UserEntryCoherent(e', u) {
      assert UserEntryCoherent(e, u);
      UC.CacheKeysDistinct(u, fingerprintHash);
    }
  }

  /** A successful authenticated commit keeps the cache coherent. */
  lemma UpdateAuthenticatedCoherent(e: Env, userUuid: string, now: int, today: string, nextReset: int)
    requires ValidEnv(e) && Coherent(e)
    ensures var r := UpdateAuthenticated(e, userUuid, now, today, nextReset, false);
      r.Ok? ==> Coherent(r.value.0)
  {
    var r := UpdateAuthenticated(e, userUuid, now, today, nextReset, false);
    if r.Ok? && r.value.1.plan != Some(Paid) {
      var e' := r.value.0;
      assert forall u :: u != userUuid ==> U.GetUserUsageInfo(e'.users, u) == U.GetUserUsageInfo(e.users, u) by {
        forall u | u != userUuid ensures U.GetUserUsageInfo(e'.users, u) == U.GetUserUsageInfo(e.users, u) {
          U.LookupUnchanged(e.users, e'.users, userUuid, u);
        }
      }
      UserWriteKeepsCoherent(e, e', userUuid);
    }
  }

  /** A successful anonymous commit keeps the cache coherent. */
  lemma UpdateAnonymousCoherent(e: Env, fingerprintHash: string, now: int)
    requires ValidEnv(e) && Coherent(e)
    ensures Coherent(UpdateAnonymous(e, fingerprintHash, now, false).value.0)
  {
    var e' := UpdateAnonymous(e, fingerprintHash, now, false).value.0;
    AnonWriteKeepsCoherent(e, e', fingerprintHash);
  }

  /** A granted anonymous check followed by its commit never takes the
      fingerprint past the anonymous limit, provided the cache was
      coherent. */
  lemma AnonymousGrantStaysWithinLimit(
    e: Env, fingerprintHash: string, now: int, later: int, fault: bool, localeTime: int -> string)
    requires ValidEnv(e) && Coherent(e)
    requires CheckAnonymous(e, fingerprintHash, now, fault, localeTime).1.canUse
    ensures var e1 := CheckAnonymous(e, fingerprintHash, now, fault, localeTime).0;
      var e2 := UpdateAnonymous(e1, fingerprintHash, later, false).value.0;
      && A.Find(e2.anon, fingerprintHash).Some?
      && A.Find(e2.anon, fingerprintHash).value.usageCount <= AnonymousLimit
      && Coherent(e2)
  {
    var e1 := CheckAnonymous(e, fingerprintHash, now, fault, localeTime).0;
    CheckAnonymousCoherent(e, fingerprintHash, now, fault, localeTime);
    UpdateAnonymousCoherent(e1, fingerprintHash, later);
  }

  /** A granted check of a free account followed by its commit on the same
      day never takes the day's usage past the daily limit, provided the
      cache was coherent. */
  lemma FreeGrantStaysWithinLimit(
    e: Env, userUuid: string, now: int, later: int, today: string, nextReset: int, laterReset: int, fault: bool,
    localeTime: int -> string)
    requires ValidEnv(e) && Coherent(e) && today != ""
    requires CheckAuthenticated(e, userUuid, now, today, nextReset, fault, localeTime).1.canUse
    requires CheckAuthenticated(e, userUuid, now, today, nextReset, fault, localeTime).1.usageStatus.plan == Some(Free)
    ensures var e1 := CheckAuthenticated(e, userUuid, now, today, nextReset, fault, localeTime).0;
      var r := UpdateAuthenticated(e1, userUuid, later, today, laterReset, false);
      && r.Ok?
      && U.GetUserUsageInfo(r.value.0.users, userUuid).Some?
      && EffectiveUsage(UserRecord(U.GetUserUsageInfo(r.value.0.users, userUuid).value), today) <= FreeDailyLimit
      && Coherent(r.value.0)
  {
    var e1 := CheckAuthenticated(e, userUuid, now, today, nextReset, fault, localeTime).0;
    CheckAuthenticatedCoherent(e, userUuid, now, today, nextReset, fault, localeTime);
    UpdateAuthenticatedCoherent(e1, userUuid, later, today, laterReset);
    var r := UpdateAuthenticated(e1, userUuid, later, today, laterReset, false);
    var before := U.GetUserUsageInfo(e1.users, userUuid).value;
    var after := U.GetUserUsageInfo(r.value.0.users, userUuid).value;
    assert after.lastUsageDate == Some(today) by {
      if !IsNewDay(before.lastUsageDate, today) {
        assert before.lastUsageDate == Some(today);
      }
    }
  }
}

=== FILE: user_subscriptions.dfy ===
/** The `user_subscriptions` table and the functions of
    `src/models/user-subscriptions.ts` over it, joined with the
    `subscription_plans` table where the source joins.

    Timestamps are integers (milliseconds); the clock is a parameter. A
    table is a sequence of rows; `id` is the primary key of both tables. */
module UserSubscriptions {
  import opened Wrappers
  import S = Sorting

  datatype PaymentStatus = Pending | Completed | Failed | Refunded

  /** A `subscription_plans` row; `planType` and `period` are free-form
      strings in the table. */
  datatype PlanRow = PlanRow(
    id: int,
    name: string,
    planType: string,
    price: int,
    currency: string,
    period: string,
    productId: Option<string>,
    createdAt: int)

  /** A `user_subscriptions` row. `amountPaid` is kept in minor units. */
  datatype SubscriptionRow = SubscriptionRow(
    id: int,
    userId: int,
    planId: int,
    startDate: int,
    endDate: int,
    paymentStatus: PaymentStatus,
    paymentMethod: Option<string>,
    orderId: Option<string>,
    amountPaid: int,
    isActive: bool,
    createdAt: int,
    updatedAt: Option<int>)

  /** A subscription joined with its plan. */
  datatype WithPlan = WithPlan(subscription: SubscriptionRow, plan: PlanRow)

  predicate UniqueIds(rows: seq<SubscriptionRow>) {
    forall i, j :: 0 <= i < j < |rows| ==> rows[i].id != rows[j].id
  }

  predicate UniquePlanIds(plans: seq<PlanRow>) {
    forall i, j :: 0 <= i < j < |plans| ==> plans[i].id != plans[j].id
  }

  /** The row as every function returns it: an empty payment method or
      order id reads as absent. */
  function Present(s: SubscriptionRow): (r: SubscriptionRow)
    ensures r.paymentMethod == Truthy(s.paymentMethod) && r.orderId == Truthy(s.orderId)
    ensures r.(paymentMethod := s.paymentMethod, orderId := s.orderId) == s
  {
    s.(paymentMethod := Truthy(s.paymentMethod), orderId := Truthy(s.orderId))
  }

  /** The plan as every join returns it: a missing or empty product id reads
      as the empty string. */
  function PresentPlan(p: PlanRow): (r: PlanRow)
    ensures r.productId.Some?
    ensures r.productId.value == "" <==> Truthy(p.productId).None?
    ensures Truthy(p.productId).Some? ==> r.productId == p.productId
    ensures r.(productId := p.productId) == p
  {
    p.(productId := Some(p.productId.GetOr("")))
  }

  /** A joined row as every join returns it. */
  function PresentJoin(w: WithPlan): WithPlan {
    WithPlan(Present(w.subscription), PresentPlan(w.plan))
  }

  /** A joined row that presenting again leaves as it is. */
  predicate Presented(w: WithPlan) {
    Present(w.subscription) == w.subscription && PresentPlan(w.plan) == w.plan
  }

  /** Presenting is idempotent: a presented row is a fixpoint. */
  lemma PresentJoinPresented(w: WithPlan)
    ensures Presented(PresentJoin(w))
  {
    var s := Present(w.subscription);
    assert Truthy(s.paymentMethod) == s.paymentMethod && Truthy(s.orderId) == s.orderId;
    var p := PresentPlan(w.plan);
    assert p.productId.GetOr("") == p.productId.value;
  }

  /** The plan row with this id (the inner join's partner), if any. */
  function PlanOf(plans: seq<PlanRow>, id: int): (r: Option<PlanRow>)
    ensures r.Some? ==> r.value in plans && r.value.id == id
    ensures r.None? <==> forall i :: 0 <= i < |plans| ==> plans[i].id != id
  {
    if |plans| == 0 then None
    else if plans[0].id == id then Some(plans[0])
    else PlanOf(plans[1..], id)
  }

  /** With distinct ids, the plan found is the plan stored under that id. */
  lemma {:induction false} PlanOfIsThePlan(plans: seq<PlanRow>, p: PlanRow)
    requires UniquePlanIds(plans) && p in plans
    ensures PlanOf(plans, p.id) == Some(p)
  {
    if plans[0] != p {
      assert p in plans[1..];
      assert UniquePlanIds(plans[1..]) by {
        forall i, j | 0 <= i < j < |plans[1..]| ensures plans[1..][i].id != plans[1..][j].id {
          assert plans[1..][i] == plans[i + 1] && plans[1..][j] == plans[j + 1];
        }
      }
      PlanOfIsThePlan(plans[1..], p);
      var k :| 0 <= k < |plans[1..]| && plans[1..][k] == p;
      assert plans[k + 1] == p;
    }
  }

  /** `createUserSubscription`: inserts the row with the next id; `is_active`
      defaults to true and `created_at` to now. */
  function CreateUserSubscription(
    rows: seq<SubscriptionRow>, nextId: int, userId: int, planId: int, startDate: int, endDate: int,
    paymentStatus: PaymentStatus, paymentMethod: Option<string>, orderId: Option<string>,
    amountPaid: int, now: int): (r: (seq<SubscriptionRow>, SubscriptionRow))
    ensures r.0 == rows + [r.1.(paymentMethod := paymentMethod, orderId := orderId)]
    ensures r.1.id == nextId && r.1.userId == userId && r.1.planId == planId
    ensures r.1.startDate == startDate && r.1.endDate == endDate
    ensures r.1.paymentStatus == paymentStatus && r.1.amountPaid == amountPaid
    ensures r.1.isActive && r.1.createdAt == now && r.1.updatedAt.None?
    ensures r.1.paymentMethod == Truthy(paymentMethod) && r.1.orderId == Truthy(orderId)
  {
    var row := SubscriptionRow(
      nextId, userId, planId, startDate, endDate, paymentStatus, paymentMethod, orderId,
      amountPaid, true, now, None);
    (rows + [row], Present(row))
  }

  // ---------------------------------------------------------------------
  // getUserActiveSubscription
  // ---------------------------------------------------------------------

  /** The filter of `getUserActiveSubscription`. */
  predicate Eligible(s: SubscriptionRow, userId: int, now: int) {
    s.userId == userId && s.isActive && s.paymentStatus == Completed && s.endDate >= now
  }

  /** An eligible row that has a plan to join with. */
  predicate Selectable(s: SubscriptionRow, plans: seq<PlanRow>, userId: int, now: int) {
    Eligible(s, userId, now) && PlanOf(plans, s.planId).Some?
  }

  /** The selectable row with the greatest `end_date` (the earliest such in
      table order on a tie), joined with its plan. */
  function Latest(rows: seq<SubscriptionRow>, plans: seq<PlanRow>, userId: int, now: int): (r: Option<WithPlan>)
    ensures r.Some? <==> exists i :: 0 <= i < |rows| && Selectable(rows[i], plans, userId, now)
    ensures r.Some? ==>
      && r.value.subscription in rows
      && Selectable(r.value.subscription, plans, userId, now)
      && PlanOf(plans, r.value.subscription.planId) == Some(r.value.plan)
    ensures r.Some? ==> forall i :: 0 <= i < |rows| && Selectable(rows[i], plans, userId, now) ==>
      rows[i].endDate <= r.value.subscription.endDate
  {
    if |rows| == 0 then None
    else
      var rest := Latest(rows[1..], plans, userId, now);
      assert forall i :: 1 <= i < |rows| ==> rows[i] == rows[1..][i - 1];
      var head := rows[0];
      if Selectable(head, plans, userId, now) && (rest.None? || rest.value.subscription.endDate <= head.endDate) then
        Some(WithPlan(head, PlanOf(plans, head.planId).value))
      else
        rest
  }

  /** `getUserActiveSubscription`: the user's active, paid, unexpired
      subscription with the latest end date, or nothing. */
  function GetUserActiveSubscription(rows: seq<SubscriptionRow>, plans: seq<PlanRow>, userId: int, now: int)
    : (r: Option<WithPlan>)
    ensures r.Some? <==> exists i :: 0 <= i < |rows| && Selectable(rows[i], plans, userId, now)
    ensures r.Some? ==>
      && r.value.subscription.userId == userId && r.value.subscription.isActive
      && r.value.subscription.paymentStatus == Completed && r.value.subscription.endDate >= now
      && PlanOf(plans, r.value.subscription.planId).Some?
      && PresentPlan(PlanOf(plans, r.value.subscription.planId).value) == r.value.plan
      && Present(r.value.subscription) == r.value.subscription
      && exists i :: 0 <= i < |rows| && Present(rows[i]) == r.value.subscription
    ensures r.Some? ==> forall i :: 0 <= i < |rows| && Selectable(rows[i], plans, userId, now) ==>
      rows[i].endDate <= r.value.subscription.endDate
  {
    match Latest(rows, plans, userId, now)
    case None => None
    case Some(w) => Some(PresentJoin(w))
  }

  // ---------------------------------------------------------------------
  // getUserSubscriptionHistory
  // ---------------------------------------------------------------------

  /** The user's rows that have a plan, joined, in table order. */
  function Joined(rows: seq<SubscriptionRow>, plans: seq<PlanRow>, userId: int): (r: seq<WithPlan>)
    ensures forall w :: w in r <==>
      w.subscription in rows && w.subscription.userId == userId && PlanOf(plans, w.subscription.planId) == Some(w.plan)
    ensures |r| <= |rows|
  {
    if |rows| == 0 then []
    else
      var rest := Joined(rows[1..], plans, userId);
      assert forall s :: s in rows <==> s == rows[0] || s in rows[1..];
      if rows[0].userId == userId && PlanOf(plans, rows[0].planId).Some? then
        [WithPlan(rows[0], PlanOf(plans, rows[0].planId).value)] + rest
      else rest
  }

  /** Sort key for `ORDER BY created_at DESC`. */
  function NewestFirst(w: WithPlan): int {
    -w.subscription.createdAt
  }

  /** Every joined row as the source returns it, in the same order. */
  function PresentAll(ws: seq<WithPlan>): (r: seq<WithPlan>)
    ensures |r| == |ws|
    ensures forall i :: 0 <= i < |ws| ==> r[i] == PresentJoin(ws[i])
  {
    seq(|ws|, i requires 0 <= i < |ws| => PresentJoin(ws[i]))
  }

  /** The presented rows are exactly the presentations of the rows, and
      each is a fixpoint of presenting. */
  lemma PresentAllMembers(ws: seq<WithPlan>)
    ensures forall w :: w in PresentAll(ws) ==> Presented(w)
    ensures forall w :: w in PresentAll(ws) <==> exists v :: v in ws && PresentJoin(v) == w
  {
    var p := PresentAll(ws);
    forall w | w in p ensures Presented(w) && exists v :: v in ws && PresentJoin(v) == w {
      var i :| 0 <= i < |p| && p[i] == w;
      PresentJoinPresented(ws[i]);
      assert ws[i] in ws;
    }
    forall w | exists v :: v in ws && PresentJoin(v) == w ensures w in p {
      var v :| v in ws && PresentJoin(v) == w;
      var i :| 0 <= i < |ws| && ws[i] == v;
      assert p[i] == w;
    }
  }

  /** `getUserSubscriptionHistory`: every subscription of the user that has
      a plan, joined and presented as the other readers present them, newest
      first. */
  function GetUserSubscriptionHistory(rows: seq<SubscriptionRow>, plans: seq<PlanRow>, userId: int)
    : (r: seq<WithPlan>)
    ensures forall i, j :: 0 <= i < j < |r| ==> r[i].subscription.createdAt >= r[j].subscription.createdAt
    ensures |r| == |Joined(rows, plans, userId)|
    ensures multiset(r) == multiset(PresentAll(Joined(rows, plans, userId)))
    ensures forall w :: w in r ==> Presented(w)
    ensures forall w :: w in r <==> exists v :: v in Joined(rows, plans, userId) && PresentJoin(v) == w
  {
    var p := PresentAll(Joined(rows, plans, userId));
    var r := S.SortBy(p, NewestFirst);
    SameMembers(r, p);
    PresentAllMembers(Joined(rows, plans, userId));
    NewestFirstDescending(r);
    r
  }

  lemma SameMembers(a: seq<WithPlan>, b: seq<WithPlan>)
    requires multiset(a) == multiset(b)
    ensures forall w :: w in a <==> w in b
  {
    assert forall w :: w in a <==> w in multiset(a);
    assert forall w :: w in b <==> w in multiset(b);
  }

  lemma NewestFirstDescending(r: seq<WithPlan>)
    requires S.SortedBy(r, NewestFirst)
    ensures forall i, j :: 0 <= i < j < |r| ==> r[i].subscription.createdAt >= r[j].subscription.createdAt
  {
    assert forall i, j :: 0 <= i < j < |r| ==> NewestFirst(r[i]) <= NewestFirst(r[j]);
  }

  /** The history holds each of the user's subscriptions that has a plan,
      presented, and joined with that plan as presented. */
  lemma HistoryHasEveryJoinedRow(rows: seq<SubscriptionRow>, plans: seq<PlanRow>, userId: int, s: SubscriptionRow)
    requires s in rows && s.userId == userId && PlanOf(plans, s.planId).Some?
    ensures WithPlan(Present(s), PresentPlan(PlanOf(plans, s.planId).value)) in GetUserSubscriptionHistory(rows, plans, userId)
  {
    var v := WithPlan(s, PlanOf(plans, s.planId).value);
    assert v in Joined(rows, plans, userId);
    assert PresentJoin(v) == WithPlan(Present(s), PresentPlan(PlanOf(plans, s.planId).value));
  }

  // ---------------------------------------------------------------------
  // updateSubscriptionStatus
  // ---------------------------------------------------------------------

  /** The `set` of `updateSubscriptionStatus`: the status always, `is_active`
      only when a value is given. */
  function SetStatus(s: SubscriptionRow, status: PaymentStatus, isActive: Option<bool>, now: int): SubscriptionRow {
    s.(paymentStatus := status,
       isActive := if isActive.Some? then isActive.value else s.isActive,
       updatedAt := Some(now))
  }

  function SetStatusWhere(rows: seq<SubscriptionRow>, id: int, status: PaymentStatus, isActive: Option<bool>, now: int)
    : (r: seq<SubscriptionRow>)
    ensures |r| == |rows|
    ensures forall i :: 0 <= i < |rows| && rows[i].id == id ==> r[i] == SetStatus(rows[i], status, isActive, now)
    ensures forall i :: 0 <= i < |rows| && rows[i].id != id ==> r[i] == rows[i]
  {
    if |rows| == 0 then []
    else
      var head := if rows[0].id == id then SetStatus(rows[0], status, isActive, now) else rows[0];
      [head] + SetStatusWhere(rows[1..], id, status, isActive, now)
  }

  /** Position of the first row with this id, or `|rows|`. */
  function IndexOfId(rows: seq<SubscriptionRow>, id: int): (i: nat)
    ensures i <= |rows|
    ensures i < |rows| ==> rows[i].id == id
    ensures forall j :: 0 <= j < i ==> rows[j].id != id
  {
    if |rows| == 0 then 0
    else if rows[0].id == id then 0
    else 1 + IndexOfId(rows[1..], id)
  }

  /** `updateSubscriptionStatus`: the updated row, or nothing when no row
      has the id; other rows are untouched. */
  function UpdateSubscriptionStatus(
    rows: seq<SubscriptionRow>, id: int, status: PaymentStatus, isActive: Option<bool>, now: int)
    : (r: (seq<SubscriptionRow>, Option<SubscriptionRow>))
    ensures |r.0| == |rows|
    ensures forall i :: 0 <= i < |rows| && rows[i].id != id ==> r.0[i] == rows[i]
    ensures forall i :: 0 <= i < |rows| && rows[i].id == id ==>
      && r.0[i].paymentStatus == status
      && r.0[i].isActive == (if isActive.Some? then isActive.value else rows[i].isActive)
      && r.0[i].updatedAt == Some(now)
      && r.0[i].(paymentStatus := rows[i].paymentStatus, isActive := rows[i].isActive, updatedAt := rows[i].updatedAt) == rows[i]
    ensures r.1.None? <==> forall i :: 0 <= i < |rows| ==> rows[i].id != id
    ensures r.1.None? ==> r.0 == rows
    ensures r.1.Some? ==> exists i :: 0 <= i < |rows| && rows[i].id == id && r.1.value == Present(r.0[i])
    ensures UniqueIds(rows) ==> UniqueIds(r.0)
  {
    var updated := SetStatusWhere(rows, id, status, isActive, now);
    assert forall i :: 0 <= i < |rows| ==> updated[i].id == rows[i].id;
    assert (forall i :: 0 <= i < |rows| ==> rows[i].id != id) ==> updated == rows;
    var i := IndexOfId(rows, id);
    (updated, if i < |rows| then Some(Present(updated[i])) else None)
  }

  // ---------------------------------------------------------------------
  // getSubscriptionByOrderId
  // ---------------------------------------------------------------------

  /** `getSubscriptionByOrderId`: a row whose `order_id` is this order id
      (a missing order id never matches), or nothing. */
  function GetSubscriptionByOrderId(rows: seq<SubscriptionRow>, orderId: string): (r: Option<SubscriptionRow>)
    ensures r.None? <==> forall i :: 0 <= i < |rows| ==> rows[i].orderId != Some(orderId)
    ensures r.Some? ==> exists i :: 0 <= i < |rows| && rows[i].orderId == Some(orderId) && r.value == Present(rows[i])
  {
    if |rows| == 0 then None
    else if rows[0].orderId == Some(orderId) then Some(Present(rows[0]))
    else
      var r := GetSubscriptionByOrderId(rows[1..], orderId);
      assert forall i :: 1 <= i < |rows| ==> rows[i] == rows[1..][i - 1];
      r
  }

  // ---------------------------------------------------------------------
  // deactivateExpiredSubscriptions
  // ---------------------------------------------------------------------

  /** The filter of `deactivateExpiredSubscriptions`. */
  predicate Expired(s: SubscriptionRow, now: int) {
    s.isActive && s.endDate < now
  }

  function Deactivate(rows: seq<SubscriptionRow>, now: int): (r: seq<SubscriptionRow>)
    ensures |r| == |rows|
    ensures forall i :: 0 <= i < |rows| && Expired(rows[i], now) ==>
      r[i] == rows[i].(isActive := false, updatedAt := Some(now))
    ensures forall i :: 0 <= i < |rows| && !Expired(rows[i], now) ==> r[i] == rows[i]
  {
    if |rows| == 0 then []
    else
      var head := if Expired(rows[0], now) then rows[0].(isActive := false, updatedAt := Some(now)) else rows[0];
      [head] + Deactivate(rows[1..], now)
  }

  /** `deactivateExpiredSubscriptions`: turns off exactly the active rows
      that ended before now and reports how many. */
  function DeactivateExpiredSubscriptions(rows: seq<SubscriptionRow>, now: int): (r: (seq<SubscriptionRow>, nat))
    ensures r.0 == Deactivate(rows, now)
    ensures r.1 == S.Count(rows, (s: SubscriptionRow) => Expired(s, now))
    ensures forall i :: 0 <= i < |r.0| ==> !Expired(r.0[i], now)
  {
    (Deactivate(rows, now), S.Count(rows, (s: SubscriptionRow) => Expired(s, now)))
  }

  /** A second run right after the first finds nothing to do. */
  lemma DeactivateIdempotent(rows: seq<SubscriptionRow>, now: int)
    ensures var (once, _) := DeactivateExpiredSubscriptions(rows, now);
      DeactivateExpiredSubscriptions(once, now) == (once, 0)
  {
    var once := Deactivate(rows, now);
    NoneExpiredCountsZero(once, now);
    assert Deactivate(once, now) == once;
  }

  lemma {:induction false} NoneExpiredCountsZero(rows: seq<SubscriptionRow>, now: int)
    requires forall i :: 0 <= i < |rows| ==> !Expired(rows[i], now)
    ensures S.Count(rows, (s: SubscriptionRow) => Expired(s, now)) == 0
  {
    if |rows| > 0 {
      assert forall i :: 0 <= i < |rows[1..]| ==> rows[1..][i] == rows[i + 1];
      NoneExpiredCountsZero(rows[1..], now);
    }
  }

  /** Deactivation never changes which subscription is active at the same
      instant: the rows it turns off had already ended. */
  lemma {:induction false} DeactivateKeepsActiveSubscription(
    rows: seq<SubscriptionRow>, plans: seq<PlanRow>, userId: int, now: int)
    ensures Latest(Deactivate(rows, now), plans, userId, now) == Latest(rows, plans, userId, now)
  {
    if |rows| > 0 {
      var d := Deactivate(rows, now);
      assert d[1..] == Deactivate(rows[1..], now);
      DeactivateKeepsActiveSubscription(rows[1..], plans, userId, now);
    }
  }
}

=== FILE: users.dfy ===
/** The usage columns of the `users` table and the functions of
    `src/models/user.ts` that read and write them, plus the page offset of
    `getUsers` and the per-day sign-up counts of `getUserCountByDate`.

    A row keeps only the columns these functions touch. The table is a
    sequence of rows with distinct `uuid`s (the column is `unique`). */
module Users {
  import opened Wrappers
  import OM = OrderedMap
  import S = Sorting

  datatype UserRow = UserRow(
    id: int,
    uuid: string,
    email: string,
    plan: string,
    usageCount: int,
    lastUsageDate: Option<string>,
    createdAt: Option<int>,
    updatedAt: Option<int>)

  /** Column defaults: `plan` is `'free'` and `usage_count` is 0. */
  const DefaultPlan: string := "free"
  const DefaultUsageCount: int := 0

  predicate UniqueUuids(rows: seq<UserRow>) {
    forall i, j :: 0 <= i < j < |rows| ==> rows[i].uuid != rows[j].uuid
  }

  predicate HasUuid(rows: seq<UserRow>, uuid: string) {
    exists i :: 0 <= i < |rows| && rows[i].uuid == uuid
  }

  /** Position of the first row with the given uuid, or `|rows|`. */
  function IndexOf(rows: seq<UserRow>, uuid: string): (i: nat)
    ensures i <= |rows|
    ensures i < |rows| ==> rows[i].uuid == uuid
    ensures forall j :: 0 <= j < i ==> rows[j].uuid != uuid
  {
    if |rows| == 0 then 0
    else if rows[0].uuid == uuid then 0
    else 1 + IndexOf(rows[1..], uuid)
  }

  /** `getUserUsageInfo` (and `findUserByUuid`): the row with this uuid, or
      nothing. */
  function GetUserUsageInfo(rows: seq<UserRow>, uuid: string): (r: Option<UserRow>)
    ensures r.Some? <==> HasUuid(rows, uuid)
    ensures r.Some? ==> r.value in rows && r.value.uuid == uuid
  {
    var i := IndexOf(rows, uuid);
    if i < |rows| then Some(rows[i]) else None
  }

  /** With distinct uuids, the row found is the row stored under that uuid. */
  lemma GetUserUsageInfoIsTheRow(rows: seq<UserRow>, row: UserRow)
    requires UniqueUuids(rows) && row in rows
    ensures GetUserUsageInfo(rows, row.uuid) == Some(row)
  {
    var k :| 0 <= k < |rows| && rows[k] == row;
    var i := IndexOf(rows, row.uuid);
    assert i <= k;
    assert rows[i].uuid == rows[k].uuid;
  }

  // ---------------------------------------------------------------------
  // Updates
  // ---------------------------------------------------------------------

  /** The `SET` clauses of the four update functions; each also sets
      `updated_at`. */
  datatype UserChange =
    | SetUsage(count: int, date: string)   // updateUserUsageCount
    | ResetDaily(date: string)             // resetUserDailyUsage
    | SetPlan(plan: string)                // updateUserPlan
    | IncrementUsage                       // incrementUserUsageCount

  function Apply(c: UserChange, row: UserRow, now: int): (r: UserRow)
    ensures r.id == row.id && r.uuid == row.uuid && r.email == row.email
    ensures r.createdAt == row.createdAt && r.updatedAt == Some(now)
  {
    match c
    case SetUsage(count, date) => row.(usageCount := count, lastUsageDate := Some(date), updatedAt := Some(now))
    case ResetDaily(date) => row.(usageCount := 1, lastUsageDate := Some(date), updatedAt := Some(now))
    case SetPlan(plan) => row.(plan := plan, updatedAt := Some(now))
    case IncrementUsage => row.(usageCount := row.usageCount + 1, updatedAt := Some(now))
  }

  /** `UPDATE users SET ... WHERE uuid = ?` over every row. */
  function UpdateRows(rows: seq<UserRow>, uuid: string, c: UserChange, now: int): (r: seq<UserRow>)
    ensures |r| == |rows|
    ensures forall i :: 0 <= i < |rows| && rows[i].uuid == uuid ==> r[i] == Apply(c, rows[i], now)
    ensures forall i :: 0 <= i < |rows| && rows[i].uuid != uuid ==> r[i] == rows[i]
  {
    if |rows| == 0 then []
    else
      var head := if rows[0].uuid == uuid then Apply(c, rows[0], now) else rows[0];
      [head] + UpdateRows(rows[1..], uuid, c, now)
  }

  /** The update with `.returning()`; the caller keeps the first returned
      row, which is `undefined` when no row matched. */
  function UpdateWhere(rows: seq<UserRow>, uuid: string, c: UserChange, now: int)
    : (r: (seq<UserRow>, Option<UserRow>))
    ensures r.0 == UpdateRows(rows, uuid, c, now)
    ensures r.1.None? <==> !HasUuid(rows, uuid)
    ensures r.1.None? ==> r.0 == rows
    ensures r.1.Some? ==> r.1.value == Apply(c, GetUserUsageInfo(rows, uuid).value, now)
    ensures r.1.Some? ==> r.1.value in r.0
    ensures UniqueUuids(rows) ==> UniqueUuids(r.0)
  {
    var updated := UpdateRows(rows, uuid, c, now);
    assert !HasUuid(rows, uuid) ==> updated == rows;
    assert forall i :: 0 <= i < |updated| ==> updated[i].uuid == rows[i].uuid;
    var i := IndexOf(rows, uuid);
    (updated, if i < |rows| then Some(updated[i]) else None)
  }

  /** Everything an update promises about the rows it does not match: they
      are unchanged, and the table keeps its size. */
  predicate OnlyRowChanged(before: seq<UserRow>, after: seq<UserRow>, uuid: string) {
    && |after| == |before|
    && (forall i :: 0 <= i < |before| && before[i].uuid != uuid ==> after[i] == before[i])
    && (forall i :: 0 <= i < |before| ==> after[i].uuid == before[i].uuid && after[i].id == before[i].id)
  }

  /** An update of one uuid's row leaves every other uuid's lookup
      unchanged. */
  lemma LookupUnchanged(before: seq<UserRow>, after: seq<UserRow>, uuid: string, u: string)
    requires UniqueUuids(before) && UniqueUuids(after) && OnlyRowChanged(before, after, uuid)
    requires u != uuid
    ensures GetUserUsageInfo(after, u) == GetUserUsageInfo(before, u)
  {
    if GetUserUsageInfo(after, u).Some? {
      var row := GetUserUsageInfo(after, u).value;
      var i :| 0 <= i < |after| && after[i] == row;
      assert before[i] == row;
      GetUserUsageInfoIsTheRow(before, row);
    } else {
      forall i | 0 <= i < |before| ensures before[i].uuid != u {
        assert after[i].uuid == before[i].uuid;
      }
    }
  }

  /** `updateUserUsageCount`: sets both the count and the date. */
  function UpdateUserUsageCount(rows: seq<UserRow>, uuid: string, count: int, date: string, now: int)
    : (r: (seq<UserRow>, Option<UserRow>))
    ensures OnlyRowChanged(rows, r.0, uuid)
    ensures r.1.Some? <==> HasUuid(rows, uuid)
    ensures forall i :: 0 <= i < |rows| && rows[i].uuid == uuid ==>
      && r.0[i].usageCount == count && r.0[i].lastUsageDate == Some(date)
      && r.0[i].plan == rows[i].plan
    ensures r.1.Some? ==> r.1.value.usageCount == count && r.1.value.lastUsageDate == Some(date)
  {
    UpdateWhere(rows, uuid, SetUsage(count, date), now)
  }

  /** `resetUserDailyUsage`: the count becomes 1 and the date the given
      one. */
  function ResetUserDailyUsage(rows: seq<UserRow>, uuid: string, date: string, now: int)
    : (r: (seq<UserRow>, Option<UserRow>))
    ensures OnlyRowChanged(rows, r.0, uuid)
    ensures r.1.Some? <==> HasUuid(rows, uuid)
    ensures forall i :: 0 <= i < |rows| && rows[i].uuid == uuid ==>
      && r.0[i].usageCount == 1 && r.0[i].lastUsageDate == Some(date)
      && r.0[i].plan == rows[i].plan
    ensures r.1.Some? ==> r.1.value.usageCount == 1 && r.1.value.lastUsageDate == Some(date)
  {
    UpdateWhere(rows, uuid, ResetDaily(date), now)
  }

  /** A daily reset is the usage update with count 1. */
  lemma ResetIsUsageUpdateWithOne(rows: seq<UserRow>, uuid: string, date: string, now: int)
    ensures ResetUserDailyUsage(rows, uuid, date, now) == UpdateUserUsageCount(rows, uuid, 1, date, now)
  {
    var a := ResetUserDailyUsage(rows, uuid, date, now).0;
    var b := UpdateUserUsageCount(rows, uuid, 1, date, now).0;
    assert a == b;
  }

  /** `updateUserPlan`: changes the plan and nothing about usage. */
  function UpdateUserPlan(rows: seq<UserRow>, uuid: string, plan: string, now: int)
    : (r: (seq<UserRow>, Option<UserRow>))
    ensures OnlyRowChanged(rows, r.0, uuid)
    ensures r.1.Some? <==> HasUuid(rows, uuid)
    ensures forall i :: 0 <= i < |rows| && rows[i].uuid == uuid ==>
      && r.0[i].plan == plan
      && r.0[i].usageCount == rows[i].usageCount && r.0[i].lastUsageDate == rows[i].lastUsageDate
    ensures r.1.Some? ==> r.1.value.plan == plan
  {
    UpdateWhere(rows, uuid, SetPlan(plan), now)
  }

  /** `incrementUserUsageCount`: adds exactly one; the date and plan stay. */
  function IncrementUserUsageCount(rows: seq<UserRow>, uuid: string, now: int)
    : (r: (seq<UserRow>, Option<UserRow>))
    ensures OnlyRowChanged(rows, r.0, uuid)
    ensures r.1.Some? <==> HasUuid(rows, uuid)
    ensures forall i :: 0 <= i < |rows| && rows[i].uuid == uuid ==>
      && r.0[i].usageCount == rows[i].usageCount + 1
      && r.0[i].lastUsageDate == rows[i].lastUsageDate && r.0[i].plan == rows[i].plan
    ensures r.1.Some? ==>
      var before := GetUserUsageInfo(rows, uuid).value;
      && r.1.value.usageCount == before.usageCount + 1
      && r.1.value.lastUsageDate == before.lastUsageDate
      && r.1.value.plan == before.plan
  {
    UpdateWhere(rows, uuid, IncrementUsage, now)
  }

  /** After any update the lookup by uuid sees the row the update
      returned. */
  lemma UpdateThenLookup(rows: seq<UserRow>, uuid: string, c: UserChange, now: int)
    requires UniqueUuids(rows)
    ensures var (after, row) := UpdateWhere(rows, uuid, c, now);
      GetUserUsageInfo(after, uuid) == row
  {
    var (after, row) := UpdateWhere(rows, uuid, c, now);
    if row.Some? {
      GetUserUsageInfoIsTheRow(after, row.value);
    } else {
      assert after == rows;
    }
  }

  // ---------------------------------------------------------------------
  // getUsers paging
  // ---------------------------------------------------------------------

  const DefaultPage: int := 1
  const DefaultPageSize: int := 50

  /** The `offset` of `getUsers`. */
  function PageOffset(page: int, limit: int): int {
    (page - 1) * limit
  }

  /** Pages of a positive size tile the result list: position `n` lies on
      page `n / limit + 1` and on no other page. */
  lemma PagesTile(n: nat, page: int, limit: int)
    requires limit > 0
    ensures PageOffset(page, limit) <= n < PageOffset(page, limit) + limit <==> page == n / limit + 1
  {
    var q := n / limit;
    assert q * limit <= n < q * limit + limit;
    if page <= q {
      assert (page - 1) * limit + limit == page * limit <= q * limit;
    } else if page > q + 1 {
      assert (page - 1) * limit >= (q + 1) * limit;
    }
  }

  // ---------------------------------------------------------------------
  // getUserCountByDate
  // ---------------------------------------------------------------------

  /** The `created_at` values of the rows with `created_at >= start`, in
      table order; a null `created_at` fails the comparison. */
  function CreatedSince(rows: seq<UserRow>, start: int): (ts: seq<int>)
    ensures |ts| == S.Count(rows, (r: UserRow) => r.createdAt.Some? && r.createdAt.value >= start)
    ensures forall i :: 0 <= i < |ts| ==> ts[i] >= start
  {
    if |rows| == 0 then []
    else
      var rest := CreatedSince(rows[1..], start);
      match rows[0].createdAt
      case Some(t) => if t >= start then [t] + rest else rest
      case None => rest
  }

  /** `p(t)` holds for the timestamps that render to the date key `k`. */
  function OnDay(day: int -> string, k: string): int -> bool {
    t => day(t) == k
  }

  /** The sum of a count map's values. */
  function SumValues(m: seq<(string, int)>): int {
    if |m| == 0 then 0 else SumValues(m[..|m| - 1]) + m[|m| - 1].1
  }

  lemma {:induction false} SumValuesUpdate(m: seq<(string, int)>, i: nat, x: (string, int))
    requires i < |m|
    ensures SumValues(m[i := x]) == SumValues(m) - m[i].1 + x.1
  {
    var m' := m[i := x];
    if i < |m| - 1 {
      assert m'[..|m'| - 1] == m[..|m| - 1][i := x];
      SumValuesUpdate(m[..|m| - 1], i, x);
    } else {
      assert m'[..|m'| - 1] == m[..|m| - 1];
    }
  }

  lemma SumValuesAppend(m: seq<(string, int)>, x: (string, int))
    ensures SumValues(m + [x]) == SumValues(m) + x.1
  {
    assert (m + [x])[..|m|] == m;
  }

  /** One iteration of the loop body: `map.set(k, (map.get(k) || 0) + 1)`. */
  function Tally(m: seq<(string, int)>, k: string): seq<(string, int)> {
    OM.Set(m, k, OM.Get(m, k).GetOr(0) + 1)
  }

  /** Adding one to key `k` (inserting it with 1 when absent) adds one to
      the sum. */
  lemma Bump(m: seq<(string, int)>, k: string)
    requires OM.Unique(m)
    ensures SumValues(Tally(m, k)) == SumValues(m) + 1
  {
    var i := OM.IndexOf(m, k);
    var v := OM.Get(m, k).GetOr(0) + 1;
    if i >= 0 {
      assert v == m[i].1 + 1;
      assert OM.Set(m, k, v) == m[i := (k, v)];
      SumValuesUpdate(m, i, (k, v));
    } else {
      assert v == 1;
      assert OM.Set(m, k, v) == m + [(k, v)];
      SumValuesAppend(m, (k, v));
    }
  }

  /** The `forEach` loop: one `Tally` per timestamp, in order. */
  function CountByDay(ts: seq<int>, day: int -> string): (m: seq<(string, int)>)
    ensures OM.Unique(m)
    ensures forall k :: OM.Get(m, k).GetOr(0) == S.Count(ts, OnDay(day, k))
    ensures forall k :: OM.Get(m, k).Some? ==> OM.Get(m, k).value >= 1
  {
    if |ts| == 0 then
      CountByDayEmpty(day);
      []
    else
      var init, last := ts[..|ts| - 1], ts[|ts| - 1];
      SplitLast(ts);
      var m0 := CountByDay(init, day);
      CountByDayStep(m0, init, last, day);
      Tally(m0, day(last))
  }

  /** Every timestamp is counted once: the counts add up to `|ts|`. */
  lemma {:induction false} CountByDaySum(ts: seq<int>, day: int -> string)
    ensures SumValues(CountByDay(ts, day)) == |ts|
  {
    if |ts| > 0 {
      var init := ts[..|ts| - 1];
      CountByDaySum(init, day);
      Bump(CountByDay(init, day), day(ts[|ts| - 1]));
    }
  }

  lemma SplitLast(ts: seq<int>)
    requires |ts| > 0
    ensures ts == ts[..|ts| - 1] + [ts[|ts| - 1]]
  {
  }

  /** Before the loop every count is zero. */
  lemma CountByDayEmpty(day: int -> string)
    ensures forall k :: OM.Get([], k).GetOr(0) == S.Count([], OnDay(day, k))
  {
    forall k ensures OM.Get([], k).GetOr(0) == S.Count([], OnDay(day, k)) {
      assert OM.Get<int>([], k) == None;
    }
  }

  /** One iteration of the loop, on timestamp `last`, keeps the count of
      every key exact. */
  lemma CountByDayStep(m0: seq<(string, int)>, init: seq<int>, last: int, day: int -> string)
    requires OM.Unique(m0)
    requires forall k :: OM.Get(m0, k).GetOr(0) == S.Count(init, OnDay(day, k))
    ensures OM.Unique(Tally(m0, day(last)))
    ensures forall k :: OM.Get(Tally(m0, day(last)), k).GetOr(0) == S.Count(init + [last], OnDay(day, k))
  {
    forall k ensures OM.Get(Tally(m0, day(last)), k).GetOr(0) == S.Count(init + [last], OnDay(day, k)) {
      CountAt(m0, init, last, day, k);
    }
  }

  /** The count of one key after one iteration. */
  lemma CountAt(m0: seq<(string, int)>, init: seq<int>, last: int, day: int -> string, k: string)
    requires OM.Unique(m0)
    requires OM.Get(m0, k).GetOr(0) == S.Count(init, OnDay(day, k))
    ensures OM.Get(Tally(m0, day(last)), k).GetOr(0) == S.Count(init + [last], OnDay(day, k))
  {
    S.CountConcat(init, [last], OnDay(day, k));
    assert [last][1..] == [];
    assert S.Count([last], OnDay(day, k)) == if day(last) == k then 1 else 0;
  }

  /** `getUserCountByDate`: the users created at or after `start`, sorted by
      creation time, counted per ISO date. `day` renders a timestamp as its
      `YYYY-MM-DD` date (`toISOString().split("T")[0]`). */
  function GetUserCountByDate(rows: seq<UserRow>, start: int, day: int -> string): (m: seq<(string, int)>)
    ensures OM.Unique(m)
    ensures forall k :: OM.Get(m, k).GetOr(0) == S.Count(CreatedSince(rows, start), OnDay(day, k))
    ensures forall k :: OM.Get(m, k).Some? ==> OM.Get(m, k).value >= 1
  {
    var ts := CreatedSince(rows, start);
    var sorted := S.SortBy(ts, t => t);
    assert forall k :: S.Count(sorted, OnDay(day, k)) == S.Count(ts, OnDay(day, k)) by {
      forall k ensures S.Count(sorted, OnDay(day, k)) == S.Count(ts, OnDay(day, k)) {
        S.CountSortBy(ts, t => t, OnDay(day, k));
      }
    }
    CountByDay(sorted, day)
  }

  /** The per-day counts add up to the number of users created since
      `start`: each such user is counted under exactly one date. */
  lemma CountByDateTotal(rows: seq<UserRow>, start: int, day: int -> string)
    ensures SumValues(GetUserCountByDate(rows, start, day))
      == S.Count(rows, (r: UserRow) => r.createdAt.Some? && r.createdAt.value >= start)
  {
    var ts := CreatedSince(rows, start);
    CountByDaySum(S.SortBy(ts, t => t), day);
    assert |S.SortBy(ts, t => t)| == |ts|;
  }
}

=== FILE: validation.dfy ===
/** The input validators and sanitisers of `src/lib/validation.ts`.

    Regular expressions are written out as the string functions they
    compute. JavaScript's `\b` and `\w` are ASCII-only, and the `i` flag
    (without `u`) folds only ASCII letters onto each other, so word matches
    compare ASCII-lower-cased characters. */
module Validation {
  import opened Wrappers
  import opened JsStrings
  import opened JsNumbers

  /** `ValidationResult`: `error` and `sanitized` are optional fields. */
  datatype ValidationResult = ValidationResult(isValid: bool, error: Option<string>, sanitized: Option<string>)

  function Invalid(message: string): (r: ValidationResult)
    ensures !r.isValid && r.error == Some(message) && r.sanitized.None?
  {
    ValidationResult(false, Some(message), None)
  }

  function Accepted(sanitized: string): (r: ValidationResult)
    ensures r.isValid && r.error.None? && r.sanitized == Some(sanitized)
  {
    ValidationResult(true, None, Some(sanitized))
  }

  // ---------------------------------------------------------------------
  // Character removal
  // ---------------------------------------------------------------------

  /** The class `[<>'"&]`. */
  predicate IsHtmlSpecial(c: char) {
    c == '<' || c == '>' || c == '\'' || c == '"' || c == '&'
  }

  predicate NoHtmlSpecial(s: string) {
    forall i :: 0 <= i < |s| ==> !IsHtmlSpecial(s[i])
  }

  /** No substring of the form `<[^>]*>`: no `<` is followed, anywhere
      later, by a `>`. */
  predicate NoTag(s: string) {
    forall i, j :: 0 <= i < j < |s| && s[i] == '<' ==> s[j] != '>'
  }

  /** `s.replace(/<[^>]*>/g, '')`: from each `<` that has a `>` somewhere
      after it, everything up to and including the first such `>` goes;
      scanning resumes after it. */
  function StripTags(s: string): (r: string)
    ensures |r| <= |s|
    ensures forall c :: c in r ==> c in s
    ensures NoTag(r)
    ensures '<' !in s ==> r == s
    decreases |s|
  {
    if |s| == 0 then ""
    else if s[0] == '<' && '>' in s[1..] then
      var close := BeforeFirst(s[1..], '>');
      StripTags(s[|close| + 2..])
    else
      var rest := StripTags(s[1..]);
      assert s[0] == '<' ==> '>' !in rest;
      [s[0]] + rest
  }

  /** `s.replace(/[<>'"&]/g, '')`. */
  function StripHtmlSpecial(s: string): (r: string)
    ensures |r| <= |s|
    ensures NoHtmlSpecial(r)
    ensures forall c :: c in r ==> c in s
    ensures NoHtmlSpecial(s) ==> r == s
  {
    if |s| == 0 then ""
    else if IsHtmlSpecial(s[0]) then StripHtmlSpecial(s[1..])
    else [s[0]] + StripHtmlSpecial(s[1..])
  }

  /** A string without special characters has no tag either. */
  lemma NoSpecialNoTag(s: string)
    requires NoHtmlSpecial(s)
    ensures NoTag(s)
  {
  }

  // ---------------------------------------------------------------------
  // Whole-word matching
  // ---------------------------------------------------------------------

  /** Position `i` of `s` holds a `\w` character. */
  predicate WordAt(s: string, i: int) {
    0 <= i < |s| && IsWordChar(s[i])
  }

  /** `\b` at position `i`. */
  predicate Boundary(s: string, i: int) {
    WordAt(s, i - 1) != WordAt(s, i)
  }

  /** `\bw\b` matches at `p` under the `i` flag (`w` is lower case). */
  predicate WholeWordAt(s: string, p: nat, w: string) {
    && p + |w| <= |s|
    && Boundary(s, p) && Boundary(s, p + |w|)
    && forall k :: 0 <= k < |w| ==> LowerAscii(s[p + k]) == w[k]
  }

  /** The words of `/\b(script|javascript|vbscript|onload|onerror|onclick)\b/gi`. */
  const BlockedWords: seq<string> := ["script", "javascript", "vbscript", "onload", "onerror", "onclick"]

  /** The regular expression matches somewhere in `s`. */
  predicate HasBlockedWord(s: string) {
    exists p, k :: 0 <= p <= |s| && 0 <= k < |BlockedWords| && WholeWordAt(s, p, BlockedWords[k])
  }

  /** `test` as the regular-expression engine runs it: try each start
      position from the left, each alternative in order. */
  method TestBlockedWord(s: string) returns (found: bool)
    ensures found <==> HasBlockedWord(s)
  {
    found := false;
    var p := 0;
    while p <= |s| && !found
      invariant 0 <= p <= |s| + 1
      invariant !found ==> forall q, k :: 0 <= q < p && 0 <= k < |BlockedWords| ==> !WholeWordAt(s, q, BlockedWords[k])
      invariant found ==> HasBlockedWord(s)
      decreases |s| + 1 - p, if found then 0 else 1
    {
      var k := 0;
      while k < |BlockedWords| && !found
        invariant 0 <= k <= |BlockedWords|
        invariant !found ==> forall j :: 0 <= j < k ==> !WholeWordAt(s, p, BlockedWords[j])
        invariant found ==> HasBlockedWord(s)
      {
        if WholeWordAt(s, p, BlockedWords[k]) {
          found := true;
        }
        k := k + 1;
      }
      if !found {
        p := p + 1;
      }
    }
  }

  // ---------------------------------------------------------------------
  // validatePrompt
  // ---------------------------------------------------------------------

  /** The text a prompt is reduced to: tags, then special characters,
      removed from the trimmed prompt. */
  function SanitizePrompt(trimmed: string): (r: string)
    ensures NoHtmlSpecial(r) && NoTag(r)
    ensures |r| <= |trimmed|
  {
    var r := StripHtmlSpecial(StripTags(trimmed));
    NoSpecialNoTag(r);
    r
  }

  /** `validatePrompt`. The length bounds apply to the trimmed prompt in
      UTF-16 units, before anything is stripped; the three blocked patterns
      are then tested on the stripped text, where only the word pattern can
      still match. */
  function ValidatePrompt(prompt: string): (r: ValidationResult)
    ensures r.isValid <==>
              && prompt != ""
              && 3 <= JsLength(Trim(prompt)) <= 1000
              && !HasBlockedWord(SanitizePrompt(Trim(prompt)))
    ensures r.isValid ==> r.sanitized == Some(SanitizePrompt(Trim(prompt))) && r.error.None?
    ensures !r.isValid ==> r.sanitized.None? && r.error.Some?
  {
    if prompt == "" then Invalid("Prompt must be a non-empty string")
    else
      var trimmed := Trim(prompt);
      if JsLength(trimmed) == 0 then Invalid("Prompt cannot be empty")
      else if JsLength(trimmed) < 3 then Invalid("Prompt must be at least 3 characters long")
      else if JsLength(trimmed) > 1000 then Invalid("Prompt cannot exceed 1000 characters")
      else
        var sanitized := SanitizePrompt(trimmed);
        if HasBlockedWord(sanitized) || !NoTag(sanitized) || !NoHtmlSpecial(sanitized) then
          Invalid("Prompt contains invalid characters or patterns")
        else
          Accepted(sanitized)
  }

  /** Which message a rejected prompt gets. */
  lemma PromptErrors(prompt: string)
    ensures prompt == "" ==> ValidatePrompt(prompt).error == Some("Prompt must be a non-empty string")
    ensures prompt != "" && Trim(prompt) == "" ==> ValidatePrompt(prompt).error == Some("Prompt cannot be empty")
    ensures prompt != "" && 0 < JsLength(Trim(prompt)) < 3 ==>
              ValidatePrompt(prompt).error == Some("Prompt must be at least 3 characters long")
    ensures prompt != "" && JsLength(Trim(prompt)) > 1000 ==>
              ValidatePrompt(prompt).error == Some("Prompt cannot exceed 1000 characters")
  {
  }

  /** An accepted prompt's text holds none of `<>'"&`, no whole blocked
      word, and is no longer than the trimmed prompt. */
  lemma ValidPromptIsClean(prompt: string)
    requires ValidatePrompt(prompt).isValid
    ensures var s := ValidatePrompt(prompt).sanitized.value;
      NoHtmlSpecial(s) && !HasBlockedWord(s) && |s| <= |Trim(prompt)|
  {
  }

  // ---------------------------------------------------------------------
  // validateFingerprint and validateUserUuid
  // ---------------------------------------------------------------------

  /** `/^[a-f0-9]{8,64}$/i`. Hex digits are single UTF-16 units, so the
      count of characters is the count the regular expression sees. */
  predicate FingerprintFormat(s: string) {
    8 <= |s| <= 64 && AllHex(s)
  }

  /** `validateFingerprint`. */
  function ValidateFingerprint(fingerprint: string): (r: ValidationResult)
    ensures r.isValid <==> FingerprintFormat(Trim(fingerprint))
    ensures r.isValid ==> r.sanitized == Some(LowerString(Trim(fingerprint))) && r.error.None?
    ensures !r.isValid ==> r.sanitized.None? && r.error.Some?
  {
    if fingerprint == "" then Invalid("Fingerprint must be a non-empty string")
    else
      var trimmed := Trim(fingerprint);
      if |trimmed| == 0 then Invalid("Fingerprint cannot be empty")
      else if !FingerprintFormat(trimmed) then Invalid("Invalid fingerprint format")
      else Accepted(LowerString(trimmed))
  }

  /** A hex string read in lower case is still a hex string of the same
      length, without whitespace at either end, and lower-casing it again
      changes nothing. */
  lemma LowerHex(s: string)
    requires AllHex(s)
    ensures |LowerString(s)| == |s| && AllHex(LowerString(s))
    ensures LowerString(LowerString(s)) == LowerString(s)
    ensures Trim(LowerString(s)) == LowerString(s)
    ensures forall i :: 0 <= i < |s| ==> !('A' <= LowerString(s)[i] <= 'Z')
  {
    var l := LowerString(s);
    assert AllHex(l) by {
      forall i | 0 <= i < |l| ensures IsHexDigit(l[i]) {
      }
    }
    assert forall i :: 0 <= i < |s| ==> !('A' <= l[i] <= 'Z') by {
      forall i | 0 <= i < |s| ensures !('A' <= l[i] <= 'Z') {
      }
    }
    assert LowerString(l) == l by {
      LowerNoUpper(l);
    }
    assert Trim(l) == l by {
      if |l| > 0 {
        PrintableNotWhitespace(l[0]);
        PrintableNotWhitespace(l[|l| - 1]);
      }
      TrimNoOp(l);
    }
  }

  /** Validating a sanitised fingerprint accepts it and returns it as is. */
  lemma ValidateFingerprintIdempotent(fingerprint: string)
    requires ValidateFingerprint(fingerprint).isValid
    ensures var s := ValidateFingerprint(fingerprint).sanitized.value;
      ValidateFingerprint(s) == ValidateFingerprint(fingerprint)
  {
    LowerHex(Trim(fingerprint));
  }

  /** The class `[a-f0-9-]` under `i`. */
  predicate IsUuidChar(c: char) {
    IsHexDigit(c) || c == '-'
  }

  /** `/^[a-f0-9-]{8,36}$/i`. */
  predicate UuidFormat(s: string) {
    8 <= |s| <= 36 && forall i :: 0 <= i < |s| ==> IsUuidChar(s[i])
  }

  /** `validateUserUuid`. */
  function ValidateUserUuid(uuid: string): (r: ValidationResult)
    ensures r.isValid <==> UuidFormat(Trim(uuid))
    ensures r.isValid ==> r.sanitized == Some(LowerString(Trim(uuid))) && r.error.None?
    ensures !r.isValid ==> r.sanitized.None? && r.error.Some?
  {
    if uuid == "" then Invalid("UUID must be a non-empty string")
    else
      var trimmed := Trim(uuid);
      if |trimmed| == 0 then Invalid("UUID cannot be empty")
      else if !UuidFormat(trimmed) then Invalid("Invalid UUID format")
      else Accepted(LowerString(trimmed))
  }

  /** Validating a sanitised UUID accepts it and returns it as is. */
  lemma ValidateUserUuidIdempotent(uuid: string)
    requires ValidateUserUuid(uuid).isValid
    ensures var s := ValidateUserUuid(uuid).sanitized.value;
      ValidateUserUuid(s) == ValidateUserUuid(uuid)
  {
    var l := LowerString(Trim(uuid));
    LowerUuid(Trim(uuid));
    UuidCharNotWhitespace(l);
    TrimNoOp(l);
  }

  /** Lower-casing keeps UUID characters UUID characters, and doing it
      twice is doing it once. */
  lemma LowerUuid(s: string)
    requires forall i :: 0 <= i < |s| ==> IsUuidChar(s[i])
    ensures forall i :: 0 <= i < |s| ==> IsUuidChar(LowerString(s)[i])
    ensures LowerString(LowerString(s)) == LowerString(s)
  {
  }

  /** A UUID string has no whitespace at either end. */
  lemma UuidCharNotWhitespace(s: string)
    requires forall i :: 0 <= i < |s| ==> IsUuidChar(s[i])
    ensures |s| > 0 ==> !IsWhitespace(s[0]) && !IsWhitespace(s[|s| - 1])
  {
  }

  // ---------------------------------------------------------------------
  // validateRateLimit
  // ---------------------------------------------------------------------

  /** `validateRateLimit(lastRequestTime, minInterval)` at time `now`. */
  function ValidateRateLimit(lastRequestTime: int, minInterval: int, now: int): (r: ValidationResult)
    ensures r.isValid <==> now - lastRequestTime >= minInterval
    ensures r.sanitized.None?
    ensures !r.isValid ==> r.error == Some("Please wait " + IntToDecimal(CeilDiv(minInterval - (now - lastRequestTime), 1000))
                                          + " second(s) before making another request")
  {
    var since := now - lastRequestTime;
    if since < minInterval then
      var remaining := CeilDiv(minInterval - since, 1000);
      Invalid("Please wait " + IntToDecimal(remaining) + " second(s) before making another request")
    else
      ValidationResult(true, None, None)
  }

  /** The default interval is one second. */
  const DefaultMinInterval: int := 1000

  /** A rejected request is always told to wait at least one second, and
      never more than the time actually left, rounded up. */
  lemma RateLimitWait(lastRequestTime: int, minInterval: int, now: int)
    requires now - lastRequestTime < minInterval
    ensures var w := CeilDiv(minInterval - (now - lastRequestTime), 1000);
      w >= 1 && (w - 1) * 1000 < minInterval - (now - lastRequestTime)
  {
  }

  // ---------------------------------------------------------------------
  // sanitizeInput
  // ---------------------------------------------------------------------

  /** No two whitespace characters are adjacent. */
  predicate NoDoubleSpace(s: string) {
    forall i :: 0 <= i < |s| - 1 ==> !(IsWhitespace(s[i]) && IsWhitespace(s[i + 1]))
  }

  /** `s.replace(/\s+/g, ' ')`: each run of whitespace becomes one space. */
  function CollapseSpace(s: string): (r: string)
    ensures NoDoubleSpace(r)
    ensures forall i :: 0 <= i < |r| && IsWhitespace(r[i]) ==> r[i] == ' '
    ensures forall c :: c in r && c != ' ' ==> c in s
    ensures |r| > 0 ==> |s| > 0 && (IsWhitespace(r[0]) <==> IsWhitespace(s[0]))
    ensures |r| <= |s|
    decreases |s|
  {
    if |s| == 0 then ""
    else if IsWhitespace(s[0]) then
      var rest := CollapseSpace(TrimStart(s));
      assert |TrimStart(s)| < |s|;
      ConsSingleSpaced(' ', rest);
      [' '] + rest
    else
      var rest := CollapseSpace(s[1..]);
      ConsSingleSpaced(s[0], rest);
      [s[0]] + rest
  }

  /** Putting a character in front of single-spaced text keeps it single
      spaced, unless both it and the text's first character are
      whitespace. */
  lemma ConsSingleSpaced(c: char, r: string)
    requires NoDoubleSpace(r) && forall i :: 0 <= i < |r| && IsWhitespace(r[i]) ==> r[i] == ' '
    requires IsWhitespace(c) ==> c == ' ' && (|r| > 0 ==> !IsWhitespace(r[0]))
    ensures NoDoubleSpace([c] + r)
    ensures forall i :: 0 <= i < |[c] + r| && IsWhitespace(([c] + r)[i]) ==> ([c] + r)[i] == ' '
  {
    var s := [c] + r;
    forall i | 1 <= i < |s| ensures s[i] == r[i - 1] {
    }
  }

  /** `sanitizeInput`. */
  function SanitizeInput(input: string): (r: string)
    ensures NoHtmlSpecial(r) && NoDoubleSpace(r)
    ensures forall c :: c in r && c != ' ' ==> c in input
  {
    if input == "" then ""
    else
      var stripped := StripHtmlSpecial(StripTags(Trim(input)));
      var r := CollapseSpace(stripped);
      CollapseKeepsNoHtml(stripped);
      assert forall c :: c in r && c != ' ' ==> c in input by {
        TrimChars(input);
      }
      r
  }

  /** Collapsing white space adds no HTML-special character. */
  lemma CollapseKeepsNoHtml(s: string)
    requires NoHtmlSpecial(s)
    ensures NoHtmlSpecial(CollapseSpace(s))
  {
    var r := CollapseSpace(s);
    forall i | 0 <= i < |r| ensures !IsHtmlSpecial(r[i]) {
      if r[i] != ' ' {
        assert r[i] in r;
        var j :| 0 <= j < |s| && s[j] == r[i];
      }
    }
  }

  /** Text that is already clean (trimmed, no tag characters, single
      spaces) passes through unchanged. */
  lemma {:induction false} SanitizeInputKeepsCleanText(s: string)
    requires NoHtmlSpecial(s) && NoDoubleSpace(s)
    requires forall i :: 0 <= i < |s| && IsWhitespace(s[i]) ==> s[i] == ' '
    requires |s| > 0 ==> !IsWhitespace(s[0]) && !IsWhitespace(s[|s| - 1])
    ensures SanitizeInput(s) == s
  {
    TrimNoOp(s);
    assert '<' !in s;
    CollapseSpaceKeeps(s);
  }

  lemma {:induction false} CollapseSpaceKeeps(s: string)
    requires NoDoubleSpace(s)
    requires forall i :: 0 <= i < |s| && IsWhitespace(s[i]) ==> s[i] == ' '
    ensures CollapseSpace(s) == s
    decreases |s|
  {
    if |s| > 0 {
      if IsWhitespace(s[0]) {
        assert |s| > 1 ==> !IsWhitespace(s[1]);
        assert TrimStart(s) == s[1..];
      }
      CollapseSpaceKeeps(s[1..]);
    }
  }

  // ---------------------------------------------------------------------
  // preventSqlInjection
  // ---------------------------------------------------------------------

  /** The class `['";\\]`. */
  predicate IsSqlQuote(c: char) {
    c == '\'' || c == '"' || c == ';' || c == '\\'
  }

  function StripSqlQuotes(s: string): (r: string)
    ensures forall i :: 0 <= i < |r| ==> !IsSqlQuote(r[i])
    ensures forall c :: c in r ==> c in s
    ensures (forall i :: 0 <= i < |s| ==> !IsSqlQuote(s[i])) ==> r == s
  {
    if |s| == 0 then ""
    else if IsSqlQuote(s[0]) then StripSqlQuotes(s[1..])
    else [s[0]] + StripSqlQuotes(s[1..])
  }

  /** The words of `/\b(SELECT|INSERT|UPDATE|DELETE|DROP|CREATE|ALTER|EXEC|UNION|SCRIPT)\b/gi`,
      lower-cased for comparison. */
  const SqlKeywords: seq<string> := ["select", "insert", "update", "delete", "drop", "create", "alter", "exec", "union", "script"]

  /** The length of the keyword matching at `p`, if any (the first
      alternative that matches). */
  function KeywordAt(t: string, p: nat): (r: Option<nat>)
    ensures r.Some? ==> r.value > 0 && p + r.value <= |t|
    ensures r.None? <==> forall k :: 0 <= k < |SqlKeywords| ==> !WholeWordAt(t, p, SqlKeywords[k])
  {
    FirstKeywordFrom(t, p, 0)
  }

  function FirstKeywordFrom(t: string, p: nat, k: nat): (r: Option<nat>)
    requires k <= |SqlKeywords|
    ensures r.Some? ==> r.value > 0 && p + r.value <= |t|
    ensures r.None? <==> forall j :: k <= j < |SqlKeywords| ==> !WholeWordAt(t, p, SqlKeywords[j])
    decreases |SqlKeywords| - k
  {
    if k == |SqlKeywords| then None
    else if WholeWordAt(t, p, SqlKeywords[k]) then Some(|SqlKeywords[k]|)
    else FirstKeywordFrom(t, p, k + 1)
  }

  /** The global replace of the keyword pattern by '' on `t`, from position
      `p` on: boundaries are judged in `t` itself, and the scan resumes
      after each match. */
  function RemoveKeywordsFrom(t: string, p: nat): (r: string)
    requires p <= |t|
    ensures forall c :: c in r ==> c in t[p..]
    ensures (forall q :: p <= q < |t| ==> KeywordAt(t, q).None?) ==> r == t[p..]
    decreases |t| - p
  {
    if p == |t| then ""
    else match KeywordAt(t, p)
      case Some(n) =>
        SuffixChars(t, p, n);
        RemoveKeywordsFrom(t, p + n)
      case None =>
        var r := RemoveKeywordsFrom(t, p + 1);
        ConsSuffix(t, p);
        [t[p]] + r
  }

  lemma SuffixChars(t: string, p: nat, n: nat)
    requires p + n <= |t|
    ensures forall c :: c in t[p + n..] ==> c in t[p..]
  {
    assert t[p + n..] == t[p..][n..];
  }

  lemma ConsSuffix(t: string, p: nat)
    requires p < |t|
    ensures t[p..] == [t[p]] + t[p + 1..]
  {
  }

  /** `preventSqlInjection`. */
  function PreventSqlInjection(input: string): (r: string)
    ensures forall i :: 0 <= i < |r| ==> !IsSqlQuote(r[i])
    ensures forall c :: c in r ==> c in input
  {
    if input == "" then ""
    else
      var t := StripSqlQuotes(input);
      var removed := RemoveKeywordsFrom(t, 0);
      var r := Trim(removed);
      assert t[0..] == t;
      TrimChars(removed);
      forall i | 0 <= i < |r| ensures !IsSqlQuote(r[i]) && r[i] in input {
        assert r[i] in removed;
        assert r[i] in t;
        var j :| 0 <= j < |t| && t[j] == r[i];
      }
      r
  }

  /** Input without quotes, keywords or surrounding whitespace passes
      through unchanged. */
  lemma PreventSqlInjectionKeepsCleanText(s: string)
    requires forall i :: 0 <= i < |s| ==> !IsSqlQuote(s[i])
    requires forall q :: 0 <= q < |s| ==> KeywordAt(s, q).None?
    requires |s| > 0 ==> !IsWhitespace(s[0]) && !IsWhitespace(s[|s| - 1])
    ensures PreventSqlInjection(s) == s
  {
    TrimNoOp(s);
    assert s[0..] == s;
  }

  // ---------------------------------------------------------------------
  // preventXss
  // ---------------------------------------------------------------------

  /** `s.replace(/c/g, rep)` for a single character `c`. */
  function ReplaceChar(s: string, c: char, rep: string): (r: string)
    ensures c !in rep ==> c !in r
    ensures c !in s ==> r == s
  {
    if |s| == 0 then "" else (if s[0] == c then rep else [s[0]]) + ReplaceChar(s[1..], c, rep)
  }

  lemma {:induction false} ReplaceCharConcat(a: string, b: string, c: char, rep: string)
    ensures ReplaceChar(a + b, c, rep) == ReplaceChar(a, c, rep) + ReplaceChar(b, c, rep)
    decreases |a|
  {
    if |a| > 0 {
      var x, t := a[0], a[1..];
      assert a == [x] + t && a + b == [x] + (t + b);
      ReplaceCharHead(x, t + b, c, rep);
      ReplaceCharHead(x, t, c, rep);
      ReplaceCharConcat(t, b, c, rep);
    } else {
      assert a + b == b;
    }
  }

  /** The five replacements of `preventXss`, in source order. */
  function XssChain(s: string): string {
    var s1 := ReplaceChar(s, '<', "&lt;");
    var s2 := ReplaceChar(s1, '>', "&gt;");
    var s3 := ReplaceChar(s2, '"', "&quot;");
    var s4 := ReplaceChar(s3, '\'', "&#x27;");
    ReplaceChar(s4, '&', "&amp;")
  }

  /** `preventXss`. */
  function PreventXss(input: string): (r: string)
    ensures forall i :: 0 <= i < |r| ==> r[i] != '<' && r[i] != '>' && r[i] != '"' && r[i] != '\''
  {
    if input == "" then ""
    else
      XssIsEscape(input);
      XssChain(input)
  }

  /** What `preventXss` makes of one character. Because `&` is replaced
      last, the entities introduced for the other four are escaped once
      more. */
  function EscapeChar(c: char): (r: string)
    ensures '<' !in r && '>' !in r && '"' !in r && '\'' !in r
  {
    if c == '<' then "&amp;lt;"
    else if c == '>' then "&amp;gt;"
    else if c == '"' then "&amp;quot;"
    else if c == '\'' then "&amp;#x27;"
    else if c == '&' then "&amp;"
    else [c]
  }

  function Escape(s: string): (r: string)
    ensures forall i :: 0 <= i < |r| ==> r[i] != '<' && r[i] != '>' && r[i] != '"' && r[i] != '\''
  {
    if |s| == 0 then "" else EscapeChar(s[0]) + Escape(s[1..])
  }

  /** The five replacements together escape each character on its own. */
  lemma {:induction false} XssIsEscape(s: string)
    ensures XssChain(s) == Escape(s)
    decreases |s|
  {
    if |s| > 0 {
      var x := [s[0]];
      var rest := s[1..];
      assert s == x + rest;
      ReplaceCharConcat(x, rest, '<', "&lt;");
      var a1, b1 := ReplaceChar(x, '<', "&lt;"), ReplaceChar(rest, '<', "&lt;");
      ReplaceCharConcat(a1, b1, '>', "&gt;");
      var a2, b2 := ReplaceChar(a1, '>', "&gt;"), ReplaceChar(b1, '>', "&gt;");
      ReplaceCharConcat(a2, b2, '"', "&quot;");
      var a3, b3 := ReplaceChar(a2, '"', "&quot;"), ReplaceChar(b2, '"', "&quot;");
      ReplaceCharConcat(a3, b3, '\'', "&#x27;");
      var a4, b4 := ReplaceChar(a3, '\'', "&#x27;"), ReplaceChar(b3, '\'', "&#x27;");
      ReplaceCharConcat(a4, b4, '&', "&amp;");
      EscapeOne(s[0]);
      XssIsEscape(rest);
    }
  }

  lemma ReplaceCharHead(x: char, rest: string, c: char, rep: string)
    ensures ReplaceChar([x] + rest, c, rep) == (if x == c then rep else [x]) + ReplaceChar(rest, c, rep)
  {
    assert ([x] + rest)[1..] == rest;
  }

  /** An entity whose only `&` is its first character gets that `&`
      escaped and nothing else. */
  lemma AmpEscapedOnce(entity: string)
    requires |entity| > 0 && entity[0] == '&' && '&' !in entity[1..]
    ensures ReplaceChar(entity, '&', "&amp;") == "&amp;" + entity[1..]
  {
    assert entity == [entity[0]] + entity[1..];
    ReplaceCharHead('&', entity[1..], '&', "&amp;");
  }

  /** A character with its own entity: its replacement produces the
      entity, the other replacements before the last leave the entity
      alone, and the final one escapes its leading `&`. */
  lemma EscapeEntity(c: char, entity: string)
    requires |entity| > 1 && entity[0] == '&' && '&' !in entity[1..]
    requires '<' !in entity && '>' !in entity && '"' !in entity && '\'' !in entity
    requires c == '<' ==> entity == "&lt;"
    requires c == '>' ==> entity == "&gt;"
    requires c == '"' ==> entity == "&quot;"
    requires c == '\'' ==> entity == "&#x27;"
    requires c == '<' || c == '>' || c == '"' || c == '\''
    ensures XssChain([c]) == "&amp;" + entity[1..]
  {
    assert [c] == [c] + "";
    var s1 := ReplaceChar([c], '<', "&lt;");
    var s2 := ReplaceChar(s1, '>', "&gt;");
    var s3 := ReplaceChar(s2, '"', "&quot;");
    var s4 := ReplaceChar(s3, '\'', "&#x27;");
    ReplaceCharHead(c, "", '<', "&lt;");
    ReplaceCharHead(c, "", '>', "&gt;");
    ReplaceCharHead(c, "", '"', "&quot;");
    ReplaceCharHead(c, "", '\'', "&#x27;");
    assert s4 == entity;
    AmpEscapedOnce(entity);
  }

  lemma EscapeOne(c: char)
    ensures XssChain([c]) == EscapeChar(c)
  {
    if c == '<' || c == '>' || c == '"' || c == '\'' {
      EscapeSpecial(c);
    } else {
      EscapePlain(c);
    }
  }

  /** The four characters that become entities, one at a time. */
  lemma EscapeSpecial(c: char)
    requires c == '<' || c == '>' || c == '"' || c == '\''
    ensures XssChain([c]) == EscapeChar(c)
  {
    if c == '<' {
      EscapeLt(c);
    } else if c == '>' {
      EscapeGt(c);
    } else if c == '"' {
      EscapeQuot(c);
    } else {
      EscapeApos(c);
    }
  }

  lemma EscapeLt(c: char)
    requires c == '<'
    ensures XssChain([c]) == EscapeChar(c)
  {
    EscapeEntity(c, "&lt;");
    assert EscapeChar(c) == "&amp;" + "&lt;"[1..];
  }

  lemma EscapeGt(c: char)
    requires c == '>'
    ensures XssChain([c]) == EscapeChar(c)
  {
    EscapeEntity(c, "&gt;");
    assert EscapeChar(c) == "&amp;" + "&gt;"[1..];
  }

  lemma EscapeQuot(c: char)
    requires c == '"'
    ensures XssChain([c]) == EscapeChar(c)
  {
    EscapeEntity(c, "&quot;");
    assert EscapeChar(c) == "&amp;" + "&quot;"[1..];
  }

  lemma EscapeApos(c: char)
    requires c == '\''
    ensures XssChain([c]) == EscapeChar(c)
  {
    EscapeEntity(c, "&#x27;");
    assert EscapeChar(c) == "&amp;" + "&#x27;"[1..];
  }

  /** Any other character passes the first four replacements untouched. */
  lemma EscapePlain(c: char)
    requires c != '<' && c != '>' && c != '"' && c != '\''
    ensures XssChain([c]) == EscapeChar(c)
  {
    var s := [c];
    assert '<' !in s && '>' !in s && '"' !in s && '\'' !in s;
    assert XssChain(s) == ReplaceChar(s, '&', "&amp;");
    assert s == [c] + "";
    ReplaceCharHead(c, "", '&', "&amp;");
  }

  /** Text without any of `<>"'&` is left as it is. */
  lemma PreventXssKeepsPlainText(s: string)
    requires NoHtmlSpecial(s)
    ensures PreventXss(s) == s
  {
    PlainEscape(s);
  }

  lemma {:induction false} PlainEscape(s: string)
    requires NoHtmlSpecial(s)
    ensures Escape(s) == s
    decreases |s|
  {
    if |s| > 0 {
      PlainEscape(s[1..]);
    }
  }

  // ---------------------------------------------------------------------
  // validateAndSanitize and withValidation
  // ---------------------------------------------------------------------

  /** `validateAndSanitize(input, type)`: any type other than `'prompt'`,
      `'fingerprint'` or `'uuid'` is `'general'`. A valid result with a
      non-empty sanitised text is then passed through `preventXss`. */
  function ValidateAndSanitize(input: string, kind: string): (r: ValidationResult)
    ensures var base := BaseValidation(input, kind);
      && r.isValid == base.isValid && r.error == base.error
      && r.sanitized == (if base.isValid && base.sanitized.Some? && base.sanitized.value != ""
                         then Some(PreventXss(base.sanitized.value)) else base.sanitized)
  {
    var result := BaseValidation(input, kind);
    if result.isValid && result.sanitized.Some? && result.sanitized.value != "" then
      result.(sanitized := Some(PreventXss(result.sanitized.value)))
    else result
  }

  function BaseValidation(input: string, kind: string): ValidationResult {
    if kind == "prompt" then ValidatePrompt(input)
    else if kind == "fingerprint" then ValidateFingerprint(input)
    else if kind == "uuid" then ValidateUserUuid(input)
    else ValidationResult(true, None, Some(SanitizeInput(input)))
  }

  /** Every validator's sanitised text is already free of the characters
      `preventXss` escapes, so the extra pass never changes a result. */
  lemma ValidateAndSanitizeIsBase(input: string, kind: string)
    ensures ValidateAndSanitize(input, kind) == BaseValidation(input, kind)
  {
    var base := BaseValidation(input, kind);
    if base.isValid && base.sanitized.Some? {
      var s := base.sanitized.value;
      assert NoHtmlSpecial(s) by {
        if kind == "fingerprint" {
          LowerClassNoHtml(Trim(input), true);
        } else if kind == "uuid" {
          LowerClassNoHtml(Trim(input), false);
        }
      }
      PreventXssKeepsPlainText(s);
    }
  }

  /** Lower-casing a run of hexadecimal digits (`hex`) or of UUID characters
      (`!hex`) yields no HTML-special character. */
  lemma LowerClassNoHtml(t: string, hex: bool)
    requires hex ==> AllHex(t)
    requires !hex ==> forall i :: 0 <= i < |t| ==> IsUuidChar(t[i])
    ensures NoHtmlSpecial(LowerString(t))
  {
    var s := LowerString(t);
    forall i | 0 <= i < |s| ensures !IsHtmlSpecial(s[i]) {
      assert s[i] == LowerAscii(t[i]);
      assert IsUuidChar(t[i]);
    }
  }

  /** The message `withValidation` throws for a failed validator
      (`${validation.error}` prints `undefined` when there is none). */
  function ValidationFailure(error: Option<string>): string {
    "Validation failed: " + error.GetOr("undefined")
  }

  /** `withValidation`: validates the first `min(|validators|, |args|)`
      arguments in order, replacing each by its sanitised text when there
      is one; the first failure is thrown. On success the wrapped function
      runs on the returned arguments. */
  method WithValidation(validators: seq<string -> ValidationResult>, args: seq<string>)
    returns (r: Result<seq<string>, string>)
    ensures r.Ok? ==> |r.value| == |args|
    ensures r.Ok? ==> forall i :: 0 <= i < |args| && i < |validators| ==>
              validators[i](args[i]).isValid
              && r.value[i] == validators[i](args[i]).sanitized.GetOr(args[i])
    ensures r.Ok? ==> forall i :: |validators| <= i < |args| ==> r.value[i] == args[i]
    ensures r.Err? ==> exists i :: (0 <= i < |args| && i < |validators|
              && !validators[i](args[i]).isValid
              && r.error == ValidationFailure(validators[i](args[i]).error)
              && forall j :: 0 <= j < i ==> validators[j](args[j]).isValid)
    ensures (forall i :: 0 <= i < |args| && i < |validators| ==> validators[i](args[i]).isValid) <==> r.Ok?
  {
    var out := args;
    var i := 0;
    while i < |validators| && i < |args|
      invariant 0 <= i <= |args| && i <= |validators|
      invariant |out| == |args|
      invariant forall j :: 0 <= j < i ==> validators[j](args[j]).isValid
      invariant forall j :: 0 <= j < i ==> out[j] == validators[j](args[j]).sanitized.GetOr(args[j])
      invariant forall j :: i <= j < |args| ==> out[j] == args[j]
    {
      var v := validators[i](out[i]);
      if !v.isValid {
        return Err(ValidationFailure(v.error));
      }
      if v.sanitized.Some? {
        out := out[i := v.sanitized.value];
      }
      i := i + 1;
    }
    return Ok(out);
  }
}

=== FILE: wrappers.dfy ===
/** Optional values and success/failure results, used wherever the source
    returns `null`/`undefined` or throws. */
module Wrappers {

  /** A value that may be absent (`null` or `undefined` in the source). */
  datatype Option<+T> = None | Some(value: T) {

    /** The wrapped value, or `default` when absent. */
    function GetOr(default: T): T {
      match this
      case Some(v) => v
      case None => default
    }
  }

  /** The outcome of an operation that may throw: `Ok` carries the returned
      value, `Err` the error the source raises. */
  datatype Result<+T, +E> = Ok(value: T) | Err(error: E)

  /** `x || undefined` on an optional string: JavaScript reads the empty
      string as false, so it counts as absent too. */
  function Truthy(x: Option<string>): (r: Option<string>)
    ensures r.Some? <==> x.Some? && x.value != ""
    ensures r.Some? ==> r == x
  {
    if x.Some? && x.value != "" then x else None
  }
}
